=== FILE: README.md ===
# Dorna Adventure booking core in Dafny

This project models the scheduling and booking core of the Dorna Adventure
booking backend (a Spring service for guided outdoor activities) and proves
properties of the model. A customer or a guest books an activity on a date,
at a start time and for a number of participants. The backend picks a guide
(an employee) whose work hours cover the slot. If the activity's category
allows it, the guide may share the slot with other bookings of the same
category and location, up to the category's participants-per-guide limit.

The modules follow the services of the backend:

- `Times`, `Numerics`, `Strings`, `Wrappers`: local times as minutes of the
  day (0..1439, with `plusMinutes` wrapping modulo a day), dates and month
  lengths, Java's `HALF_UP` and `Math.round`, `trim`/`toLowerCase`/
  `toUpperCase` and decimal rendering, and `Option`/`Result`/`Outcome`.
- `Activities`, `Bookings`, `Staff`: the entities. An activity has a
  price, a deposit percentage, a duration, a location and a category. A
  booking carries its customer or guest, guide, date, times, participants,
  amounts, status and payment status. Users have roles, and employees
  have work hours.
- `Capacity`: the guide's overlapping bookings and the sharing rule of
  `canEmployeeHandleBooking` / `findAvailableEmployee`.
- `Scheduling`, `SlotScan`, `MonthlyAvailability`: the 30-minute slot scan
  over each work window, slot availability for a number of participants,
  and the month calendar of available days.
- `BookingValidation`, `BookingService`, `Repository`: booking creation,
  status changes, guide reassignment, cancellation and the sweep that
  cancels expired unpaid bookings. The booking table is a class whose
  methods update it.
- `Payments`: the payment rows of a booking and the payment-success,
  payment-failure and cash-payment transitions.
- `EmployeeScheduling`: the swap check, swap options and the swap itself.
- `WorkHours`: work hours and work-hour requests (create, bulk create,
  cancel, approve, reject, update, delete).
- `EmployeeValidation`, `ActivityEmployees`, `Categories`, `MediaLibrary`,
  `TimeSlots`: employee data checks, which guides may lead which activity,
  categories and their slugs, photos and videos with their storage keys,
  and the activity's bookable time slots.
- `TimeUntil`: the web client's countdown label for a payment deadline.

Units: money in cents, the deposit percentage in hundredths of a percent,
and coordinates in units of 1e-7 degrees. Each repository is a class with a
`seq` of rows and an identity counter. Each service operation that saves
rows is a method of that class. It states its whole new state and keeps the
class invariant: ids unique and below the next id, and the table's own
unique columns.

The model follows the code as written in these places:

- `isDayAvailable` ignores the number of participants.
- Slot availability consults every active employee, not only the owner
  of the window being scanned.
- Work-hour windows are not filtered by their `isAvailable` flag.
- `handlePaymentSuccess` has no replay guard: `Payments.ReplayPaysTwice`
  shows that a second delivery adds the amount again.
- The exact-duplicate interval check in `updateEmployeeWorkHours` can
  never fire, because the overlap check before it already rejects an equal
  window (`WorkHours.DuplicateCheckUnreachable`).

## Model

| member | source | states |
|---|---|---|
| Activities.FindActivity | backend/src/main/java/ro/atm/backend/domain/booking/service/BookingService.java:80-81 | the activity found has the requested id and comes from the table; none is found exactly when no activity has that id |
| Activities.CalculateDeposit | backend/src/main/java/ro/atm/backend/domain/activity/entity/Activity.java:73-75 | the per-person deposit lies between nothing and the whole price for a percentage between 0 and 100, and is the whole price at 100% |
| Activities.LocationIdentifier | backend/src/main/java/ro/atm/backend/domain/activity/entity/Activity.java:100-113 | the coordinate form is chosen exactly when both coordinates are present, each rounded to within half a 0.0001-degree step of the stored value; otherwise the key is text that contains the '\|' separator and no upper-case letter |
| Activities.SameLocationReflexiveSymmetric | backend/src/main/java/ro/atm/backend/domain/activity/entity/Activity.java:118-135 | every activity is at its own location, and the comparison gives the same answer in both directions |
| Activities.HasSameLocationAs | backend/src/main/java/ro/atm/backend/domain/activity/entity/Activity.java:118-135 | two activities with coordinates match when both coordinates differ by less than the tolerance, otherwise when their location keys are equal; SameLocationReflexiveSymmetric, MixedLocationsDiffer, TextLocationTransitive and CoordinateLocationNotTransitive state its properties |
| Activities.MixedLocationsDiffer | backend/src/main/java/ro/atm/backend/domain/activity/entity/Activity.java:118-135 | an activity with coordinates is never at the same location as one without, in either direction |
| Activities.TextLocationIgnoresCase | backend/src/main/java/ro/atm/backend/domain/activity/entity/Activity.java:110-112 | without coordinates, locations and cities that differ only in letter case give the same location |
| Activities.TextLocationTransitive | backend/src/main/java/ro/atm/backend/domain/activity/entity/Activity.java:133-134 | without coordinates, "same location" is transitive |
| Activities.CoordinateLocationNotTransitive | backend/src/main/java/ro/atm/backend/domain/activity/entity/Activity.java:126-130 | with coordinates it is not: points 0.00006 degree apart chain two matches into a mismatch |
| Activities.SplitDuration | backend/src/main/java/ro/atm/backend/domain/activity/entity/Activity.java:78-79 | for a non-negative duration, Java's truncating division and remainder by 60 split it into whole hours and leftover minutes |
| Activities.FormattedDurationRoundTrip | backend/src/main/java/ro/atm/backend/domain/activity/entity/Activity.java:77-88 | the label of every non-negative duration reads back to that duration, so distinct durations never share a label |
| Activities.FormattedDuration | backend/src/main/java/ro/atm/backend/domain/activity/entity/Activity.java:77-88 | the "Xh Ymin" / "Xh" / "Ymin" label of a duration; FormattedDurationRoundTrip proves that every non-negative duration's label reads back to that duration |
| Activities.HoursMinutesRoundTrip | backend/src/main/java/ro/atm/backend/domain/activity/entity/Activity.java:81-82 | the "Xh Ymin" label reads back to X hours and Y minutes |
| Activities.HoursRoundTrip | backend/src/main/java/ro/atm/backend/domain/activity/entity/Activity.java:83-84 | the "Xh" label reads back to X whole hours |
| Activities.MinutesRoundTrip | backend/src/main/java/ro/atm/backend/domain/activity/entity/Activity.java:85-86 | the "Ymin" label reads back to Y minutes |
| Bookings.ParseBookingStatus | backend/src/main/java/ro/atm/backend/domain/booking/service/BookingService.java:218-222 | a parsed status is the one whose name equals the upper-cased input |
| Bookings.ParseStatusName | backend/src/main/java/ro/atm/backend/domain/booking/service/BookingService.java:218-222 | every status name, upper- or lower-case, parses back to its status |
| Bookings.CustomerName | backend/src/main/java/ro/atm/backend/domain/booking/entity/Booking.java:122-127 | a registered user's name is exactly their first name, a space and their last name (prefix, separator, suffix and total length); a guest booking gives the guest name |
| Bookings.CustomerContact | backend/src/main/java/ro/atm/backend/domain/booking/entity/Booking.java:129-134 | the user's email; for a guest, the guest email, or the phone when there is no email |
| Bookings.RecalculateRemaining | backend/src/main/java/ro/atm/backend/domain/booking/entity/Booking.java:107-113 | after the pre-save hook, paid plus remaining equals the total, and no other field changes |
| Bookings.RecalculateIdempotent | backend/src/main/java/ro/atm/backend/domain/booking/entity/Booking.java:105-120 | running the pre-save hook twice gives the same booking as running it once |
| Bookings.FindBooking | backend/src/main/java/ro/atm/backend/domain/booking/service/BookingValidationService.java:49-50 | the booking found has the id and comes from the table; none is found exactly when no booking has it |
| BookingValidation.ValidateParticipantCount | backend/src/main/java/ro/atm/backend/domain/booking/service/BookingValidationService.java:25-31 | passes exactly when the party size lies between the activity's minimum and maximum, both included; otherwise fails with the range message |
| BookingValidation.ValidateGuestBookingData | backend/src/main/java/ro/atm/backend/domain/booking/service/BookingValidationService.java:36-43 | passes exactly when neither the name nor the phone is blank; a blank name is reported before a blank phone |
| BookingValidation.CanAcceptPayment | backend/src/main/java/ro/atm/backend/domain/booking/service/BookingValidationService.java:48-62 | fails exactly for an unknown booking; otherwise true exactly when the booking is confirmed, its deadline (if any) has not passed and it is not fully paid |
| BookingValidation.ValidateStatusTransition | backend/src/main/java/ro/atm/backend/domain/booking/service/BookingValidationService.java:67-71 | every transition between statuses is allowed |
| BookingService.DepositFacts | backend/src/main/java/ro/atm/backend/domain/booking/service/BookingService.java:89-91 | the rounded deposit is within half a cent of the exact share, between nothing and the total for a percentage between 0 and 100, and the whole total at 100% |
| BookingService.BookingDeposit | backend/src/main/java/ro/atm/backend/domain/booking/service/BookingService.java:89-91 | the deposit is the total times the percentage, rounded half-up to the cent; DepositFacts bounds it and DepositMatchesPerPerson relates it to the per-person deposit |
| BookingService.DepositMatchesPerPerson | backend/src/main/java/ro/atm/backend/domain/booking/service/BookingService.java:87-91 | the deposit of a party of n is within half a cent of n times the activity's per-person deposit |
| BookingService.PlaceBooking | backend/src/main/java/ro/atm/backend/domain/booking/service/BookingService.java:87-126 | fails with "Role 'ROLE_EMPLOYEE' not found" when the role table has no employee row; otherwise succeeds exactly when some enabled employee can take the booking, failing with "No employee available for this time slot" when none can; on failure the table is unchanged; the stored booking is new, priced, pending and unpaid, goes to the first such employee, and with it that employee's overlapping group keeps one category and location and stays within the per-guide maximum |
| BookingService.CreateBooking | backend/src/main/java/ro/atm/backend/domain/booking/service/BookingService.java:76-132 | refuses an unknown user, then an unknown activity, then a party size out of range, then a missing employee role row, leaving the table unchanged; otherwise it succeeds exactly when some enabled employee can take the booking, and stores it for that user |
| BookingService.CreateGuestBooking | backend/src/main/java/ro/atm/backend/domain/booking/service/BookingService.java:138-207 | refuses an unknown activity, then a blank guest name or phone, then a party size out of range, then a missing employee role row, leaving the table unchanged; otherwise it succeeds exactly when some enabled employee can take the booking, and stores a guest booking with the given contact details |
| BookingService.ApplyStatus | backend/src/main/java/ro/atm/backend/domain/booking/service/BookingService.java:226-232 | the booking gets the new status; only the first confirmation stamps the confirmation time and a deadline 24 hours later; nothing else changes |
| BookingService.DeadlineIsOneDayLater | backend/src/main/java/ro/atm/backend/domain/booking/service/BookingService.java:227-231 | a booking whose deadline was set on confirmation has its payment deadline exactly 1440 minutes after its confirmation time |
| BookingService.StatusChangesKeepDeadline | backend/src/main/java/ro/atm/backend/domain/booking/service/BookingService.java:226-232 | any status change keeps the deadline one day after the confirmation, and confirming again later moves neither |
| BookingService.UpdateBookingStatus | backend/src/main/java/ro/atm/backend/domain/booking/service/BookingService.java:213-239 | an unknown booking, then an unknown status name, is refused with the table unchanged; otherwise the booking is replaced by itself with the new status applied |
| BookingService.UpdateBookingEmployee | backend/src/main/java/ro/atm/backend/domain/booking/service/BookingService.java:245-270 | refuses an unknown booking, an unknown user, a missing ROLE_EMPLOYEE row in the role table, a user without the employee role, and an employee who could not take the booking with this booking left out of the count; otherwise only the employee field changes |
| BookingService.CancelBooking | backend/src/main/java/ro/atm/backend/domain/booking/service/BookingService.java:306-311 | fails exactly for an unknown booking; otherwise that booking alone becomes cancelled, whatever its state |
| BookingService.ExpiredBookings | backend/src/main/java/ro/atm/backend/domain/booking/service/BookingService.java:328-333 | lists exactly the confirmed, unpaid bookings whose deadline has passed |
| BookingService.IsExpired | backend/src/main/java/ro/atm/backend/domain/booking/service/BookingService.java:329-332 | a booking is expired when it is confirmed, unpaid, has a deadline and that deadline has passed; ExpiredBookings and SweepFacts state that the sweep cancels exactly these |
| BookingService.SweepExpired | backend/src/main/java/ro/atm/backend/domain/booking/service/BookingService.java:325-343 | the table after the sweep has the same length, and each booking is cancelled when it had expired and unchanged otherwise |
| BookingService.SweepFacts | backend/src/main/java/ro/atm/backend/domain/booking/service/BookingService.java:325-343 | nothing is expired after a sweep, a second sweep at the same time changes nothing, and only statuses change |
| BookingService.LaterSweepCancelsMore | backend/src/main/java/ro/atm/backend/domain/booking/service/BookingService.java:328-333 | a later sweep cancels every booking an earlier sweep cancelled |
| BookingService.SweepKeepsPaymentAnswer | backend/src/main/java/ro/atm/backend/domain/booking/service/BookingValidationService.java:48-62 | the sweep never changes whether a booking can take a payment at the sweep's own time |
| BookingService.SweepStep | backend/src/main/java/ro/atm/backend/domain/booking/service/BookingService.java:335-338 | one turn of the loop cancels the next expired booking, so the cancelled prefix grows by one |
| BookingService.CancelExpiredBookings | backend/src/main/java/ro/atm/backend/domain/booking/service/BookingService.java:325-343 | the table becomes the swept table, and its validity and id counter are kept |
| Staff.ActiveEmployees | backend/src/main/java/ro/atm/backend/domain/booking/service/BookingEmployeeAssignmentService.java:41-43 | lists exactly the enabled users holding the employee role, and is empty exactly when there are none |
| Staff.WorkHoursOn | backend/src/main/java/ro/atm/backend/domain/booking/service/BookingSchedulingService.java:45 | lists exactly the work windows of the date, whatever their availability flag |
| Staff.FindUserById | backend/src/main/java/ro/atm/backend/domain/booking/service/BookingService.java:249-250 | the user found has the id; none is found exactly when no user has it |
| Staff.FindUserByUsername | backend/src/main/java/ro/atm/backend/domain/booking/service/BookingService.java:77-78 | the user found has the username; none is found exactly when no user has it |
| Times.PlusMinutes | backend/src/main/java/ro/atm/backend/domain/booking/service/BookingService.java:93 | adding minutes to a time of day wraps around midnight |
| Times.OverlapsFacts | backend/src/main/java/ro/atm/backend/domain/booking/service/BookingSchedulingService.java:129-131 | overlap is symmetric, intervals that only touch do not overlap, and a non-empty interval starting inside another overlaps it |
| Times.LengthOfMonth | backend/src/main/java/ro/atm/backend/domain/booking/service/BookingService.java:381 | every month has 28 to 31 days, and 29 exactly for February of a leap year |
| Times.DaysOfMonth | backend/src/main/java/ro/atm/backend/domain/booking/service/BookingService.java:381-382 | the days of the month from the first to the last, each a valid date, and every valid date of that month among them |
| Times.TimeTextReadsBack | backend/src/main/java/ro/atm/backend/domain/employee/service/EmployeeWorkHourService.java:351-352 | a time of day prints as five characters `HH:mm` whose two fields read back as its hour and minute |
| Times.DateTextReadsBack | backend/src/main/java/ro/atm/backend/domain/employee/service/EmployeeWorkHourService.java:351-352 | a valid date of a four-digit year prints as ten characters `yyyy-MM-dd` whose three fields read back as its year, month and day |
| Capacity.BookingsOf | backend/src/main/java/ro/atm/backend/domain/booking/repository/BookingRepository.java:23-24 | lists exactly the employee's non-cancelled bookings on the date |
| Capacity.OverlappingBookings | backend/src/main/java/ro/atm/backend/domain/booking/service/BookingEmployeeAssignmentService.java:66-70 | keeps exactly the bookings that are not the excluded one, not cancelled, and overlap the new time; the result is empty exactly when none does |
| Capacity.FreeEmployeeCanHandle | backend/src/main/java/ro/atm/backend/domain/booking/service/BookingEmployeeAssignmentService.java:73-76 | an employee with no conflicting booking that day can always take the booking |
| Capacity.UncategorisedNeverShares | backend/src/main/java/ro/atm/backend/domain/booking/service/BookingEmployeeAssignmentService.java:79-83 | for an activity without a category the booking is accepted exactly when nothing conflicts |
| Capacity.SharingConditions | backend/src/main/java/ro/atm/backend/domain/booking/service/BookingEmployeeAssignmentService.java:58-127 | with a conflict, accepted exactly when the activity has a category, every conflicting booking is in that category and at the activity's location, and their participants plus the new ones do not exceed the per-guide maximum |
| Capacity.CanEmployeeHandleBooking | backend/src/main/java/ro/atm/backend/domain/booking/service/BookingEmployeeAssignmentService.java:58-127 | the sharing rule applied to the employee's bookings that day which overlap the new interval; SharingConditions states exactly when it accepts, and AddingBookingNeverHelps, ExcludingOnlyHelps and FewerParticipantsStillFit state how it responds to the store and the party size |
| Capacity.FewerParticipantsStillFit | backend/src/main/java/ro/atm/backend/domain/booking/service/BookingEmployeeAssignmentService.java:105-120 | a smaller party never turns an acceptance into a refusal |
| Capacity.SumWithout | backend/src/main/java/ro/atm/backend/domain/booking/service/BookingEmployeeAssignmentService.java:67 | with non-negative party sizes, leaving one booking out of the count never raises the participant total |
| Capacity.ExcludingOnlyHelps | backend/src/main/java/ro/atm/backend/domain/booking/service/BookingEmployeeAssignmentService.java:66-70 | leaving one booking out of the count, as a reassignment does, never turns an acceptance into a refusal |
| Capacity.GroupGrowthNeverHelps | backend/src/main/java/ro/atm/backend/domain/booking/service/BookingEmployeeAssignmentService.java:78-120 | a group of overlapping bookings that refuses a booking still refuses it with one more booking of non-negative size in the group |
| Capacity.AddingBookingNeverHelps | backend/src/main/java/ro/atm/backend/domain/booking/service/BookingEmployeeAssignmentService.java:58-127 | storing one more booking never lets an employee take a booking they could not take before |
| Capacity.AcceptedBookingKeepsCapacity | backend/src/main/java/ro/atm/backend/domain/booking/service/BookingEmployeeAssignmentService.java:58-127 | once an accepted booking is stored, the employee's overlapping group contains it and is either that booking alone or shares one category and location within the per-guide maximum |
| Capacity.FindAvailableEmployee | backend/src/main/java/ro/atm/backend/domain/booking/service/BookingEmployeeAssignmentService.java:36-52 | fails with "Role 'ROLE_EMPLOYEE' not found" exactly when the role table has no employee row; otherwise returns the first enabled employee, in table order, who can take the booking; none exactly when no enabled employee can |
| Scheduling.IsTimeSlotAvailableForParticipants | backend/src/main/java/ro/atm/backend/domain/booking/service/BookingSchedulingService.java:100-110 | true exactly when some employee of the list can take the party at that time |
| Scheduling.IsTimeSlotAvailable | backend/src/main/java/ro/atm/backend/domain/booking/service/BookingSchedulingService.java:115-124 | true exactly when some employee of the list can take the activity's minimum party at that time |
| Scheduling.ParticipantCount | backend/src/main/java/ro/atm/backend/domain/booking/service/BookingSchedulingService.java:65-67 | the requested party size when it is given and positive, the activity's minimum otherwise |
| Scheduling.GetAvailableTimeSlots | backend/src/main/java/ro/atm/backend/domain/booking/service/BookingSchedulingService.java:43-95 | fails with "Role 'ROLE_EMPLOYEE' not found" exactly when the role table has no employee row, before the employee list is consulted; otherwise returns AvailableSlots: the slot set of the date's windows, scanned in 30-minute steps, each marked with its availability |
| Scheduling.AvailableSlots | backend/src/main/java/ro/atm/backend/domain/booking/service/BookingSchedulingService.java:43-95 | the slot set of every window on that date, empty when no enabled employee exists; slot availability consults all enabled employees; NoEmployeesNoSlots, ListedSlotsAreWellFormed, EveryFittingStartIsListed and SlotAvailabilityIsConsistent state what it holds |
| Scheduling.ScanWindow | backend/src/main/java/ro/atm/backend/domain/booking/service/BookingSchedulingService.java:75-92 | the inner loop lists exactly the slots at the window's candidate starts |
| Scheduling.SlotSource | backend/src/main/java/ro/atm/backend/domain/booking/service/BookingSchedulingService.java:73-93 | every listed slot comes from one window of the list and one candidate start of that window |
| Scheduling.ListedSlotsAreWellFormed | backend/src/main/java/ro/atm/backend/domain/booking/service/BookingSchedulingService.java:73-93 | every listed slot starts on the 30-minute grid of a window of that date and ends within it after the activity's duration, and is available exactly when some enabled employee can take the party |
| Scheduling.EveryFittingStartIsListed | backend/src/main/java/ro/atm/backend/domain/booking/service/BookingSchedulingService.java:73-93 | conversely, every grid start whose slot fits in a window of that date is listed, with its availability |
| Scheduling.NoEmployeesNoSlots | backend/src/main/java/ro/atm/backend/domain/booking/service/BookingSchedulingService.java:60-62 | without an enabled employee the set is empty |
| Scheduling.SlotAvailabilityIsConsistent | backend/src/main/java/ro/atm/backend/domain/booking/service/BookingSchedulingService.java:82-89 | two listed slots with the same start are the same slot, so no time is listed both available and unavailable |
| SlotScan.ScanStepAsWritten | backend/src/main/java/ro/atm/backend/domain/booking/service/BookingSchedulingService.java:91 | a step adds 30 minutes, wrapping around midnight |
| SlotScan.AsWrittenScanNeverEnds | backend/src/main/java/ro/atm/backend/domain/booking/service/BookingSchedulingService.java:77-78 | with the loop guard as written, a window ending at 23:59 never stops the scan, whatever the duration and however many steps |
| SlotScan.AsWrittenScanCycles | backend/src/main/java/ro/atm/backend/domain/booking/service/BookingSchedulingService.java:77-91 | a 30-minute activity in a window ending at 23:45 keeps the guard true at every step from any half-hour start, and the scan returns to its start after 48 steps |
| SlotScan.AsWrittenScanLeavesWindow | backend/src/main/java/ro/atm/backend/domain/booking/service/BookingSchedulingService.java:77-91 | with a 360-minute activity in an 18:00-23:00 window the as-written guard holds at each of the 47 starts from 18:00, including 02:00 whose slot 02:00-08:00 lies outside the window, fails first at 17:30, and the intended scan lists no start |
| SlotScan.AfterFormula | backend/src/main/java/ro/atm/backend/domain/booking/service/BookingSchedulingService.java:91 | after k steps the time is the start plus 30k minutes, modulo one day |
| SlotScan.ScanStartsMembership | backend/src/main/java/ro/atm/backend/domain/booking/service/BookingSchedulingService.java:73-93 | with the intended guard, a time is a candidate start exactly when it lies on the 30-minute grid from the window's start and its slot still ends within the window |
| SlotScan.ScanStartsAscending | backend/src/main/java/ro/atm/backend/domain/booking/service/BookingSchedulingService.java:91 | candidate starts ascend strictly, 30 minutes apart |
| SlotScan.GuardsAgreeWithoutWrap | backend/src/main/java/ro/atm/backend/domain/booking/service/BookingSchedulingService.java:77-78 | where the slot end does not pass midnight, the guard as written and the intended guard agree |
| MonthlyAvailability.BookingsOfEmployee | backend/src/main/java/ro/atm/backend/domain/booking/service/BookingService.java:418-420 | keeps exactly that employee's bookings |
| MonthlyAvailability.ActiveBookingsOn | backend/src/main/java/ro/atm/backend/domain/booking/service/BookingService.java:367-376 | keeps exactly the non-cancelled bookings of the date |
| MonthlyAvailability.IsDayAvailable | backend/src/main/java/ro/atm/backend/domain/booking/service/BookingService.java:408-453 | true exactly when some window holds a grid start whose slot overlaps none of that window's employee's bookings; the party size is not consulted |
| MonthlyAvailability.DayAvailable | backend/src/main/java/ro/atm/backend/domain/booking/service/BookingService.java:408-453 | a day is available when some window holds a grid start whose slot overlaps none of that window's employee's bookings; IsDayAvailable is proved to compute exactly this |
| MonthlyAvailability.TailOfScan | backend/src/main/java/ro/atm/backend/domain/booking/service/BookingService.java:427-448 | a start still ahead of the scan is one of the window's candidate starts |
| MonthlyAvailability.GetAvailableDatesForMonth | backend/src/main/java/ro/atm/backend/domain/booking/service/BookingService.java:352-403 | an unknown activity id fails with "Activity with ID <id> not found"; otherwise it lists exactly the valid days of the month that are not past, have someone working and have a free slot, in calendar order |
| MonthlyAvailability.ScanMonth | backend/src/main/java/ro/atm/backend/domain/booking/service/BookingService.java:377-400 | the day loop: exactly the valid days of the month that are not past, have someone working and have a free slot, in calendar order |
| MonthlyAvailability.IdleEmployeeOpensTheDay | backend/src/main/java/ro/atm/backend/domain/booking/service/BookingService.java:385-398 | a day that is not past, on which an employee works a window long enough for the activity and has no active booking, is offered |
| MonthlyAvailability.CancelledBookingsIgnored | backend/src/main/java/ro/atm/backend/domain/booking/service/BookingService.java:367-369 | adding a cancelled booking never closes a day |
| EmployeeScheduling.Clashes | backend/src/main/java/ro/atm/backend/domain/employee/service/EmployeeSchedulingService.java:44-56 | lists exactly the new employee's bookings on the booking's date that are not the booking itself, not cancelled, and overlap its time |
| EmployeeScheduling.CheckEmployeeSwap | backend/src/main/java/ro/atm/backend/domain/employee/service/EmployeeSchedulingService.java:37-128 | refuses an unknown booking, then an unknown employee; reports no conflict exactly when nothing clashes; otherwise names the first clash and approves the swap exactly when both activities share a category and location and the current employee can take the clashing booking, giving a reason exactly when it does not approve |
| EmployeeScheduling.NoConflictMeansDirectAssignment | backend/src/main/java/ro/atm/backend/domain/employee/service/EmployeeSchedulingService.java:58-64 | when the check reports no conflict, the capacity check of a direct reassignment accepts the new employee |
| EmployeeScheduling.ApprovedSwapIsAllowed | backend/src/main/java/ro/atm/backend/domain/employee/service/EmployeeSchedulingService.java:66-127 | a swap the check approves passes both guards of swapEmployees, and the clash belongs to the new employee |
| EmployeeScheduling.Swapped | backend/src/main/java/ro/atm/backend/domain/employee/service/EmployeeSchedulingService.java:150-156 | the table after the swap has the same length and the same booking id in every place |
| EmployeeScheduling.TwoSavesSwap | backend/src/main/java/ro/atm/backend/domain/employee/service/EmployeeSchedulingService.java:151-156 | the two saves, one after the other, produce exactly the swapped table |
| EmployeeScheduling.SwappedExchanges | backend/src/main/java/ro/atm/backend/domain/employee/service/EmployeeSchedulingService.java:150-156 | only the two bookings' employees change, and they are exchanged |
| EmployeeScheduling.SwapTwiceRestores | backend/src/main/java/ro/atm/backend/domain/employee/service/EmployeeSchedulingService.java:134-159 | swapping the same two bookings twice restores every assignment, and swapping a booking with itself changes nothing |
| EmployeeScheduling.SwapEmployees | backend/src/main/java/ro/atm/backend/domain/employee/service/EmployeeSchedulingService.java:134-159 | refuses an unknown first booking, then an unknown second one, then different locations, a missing category and different categories, leaving the table unchanged; otherwise it succeeds exactly when the guard holds and the table becomes the swapped table |
| EmployeeScheduling.Candidates | backend/src/main/java/ro/atm/backend/domain/employee/service/EmployeeSchedulingService.java:192-245 | keeps exactly the clashes that share category and location with the booking and that each employee can take in exchange for the booking they give up |
| EmployeeScheduling.CandidatesKeepOrder | backend/src/main/java/ro/atm/backend/domain/employee/service/EmployeeSchedulingService.java:191-265 | the offered bookings are the clashes with some dropped and the rest in their stream order |
| EmployeeScheduling.Entries | backend/src/main/java/ro/atm/backend/domain/employee/service/EmployeeSchedulingService.java:246-265 | one row per offered booking, in order, carrying its id, customer name and guest flag |
| EmployeeScheduling.GetEmployeeSwapOptions | backend/src/main/java/ro/atm/backend/domain/employee/service/EmployeeSchedulingService.java:164-295 | refuses an unknown booking, then an unknown employee; reports no conflicting bookings exactly when nothing clashes; offers exactly the clashes that pass every test, in table order (an in-order selection of the clashes' rows), and says it has options exactly when the list is not empty; when clashes exist but none passes, the reason is the no-compatible-bookings message, and there is no reason exactly when something is offered |
| EmployeeScheduling.OfferedSwapsAreAllowed | backend/src/main/java/ro/atm/backend/domain/employee/service/EmployeeSchedulingService.java:192-245 | every offered booking exists, belongs to the new employee, and passes the guards of swapEmployees together with the booking being reassigned |
| EmployeeScheduling.OfferedIffCandidate | backend/src/main/java/ro/atm/backend/domain/employee/service/EmployeeSchedulingService.java:192-245 | a clashing booking is offered exactly when it passes every test of the options list |
| EmployeeScheduling.TwoBookingTable | backend/src/main/java/ro/atm/backend/domain/employee/service/EmployeeSchedulingService.java:44-56 | in a table of two overlapping bookings of two employees, each employee's list holds their own booking and the other booking is the only clash |
| EmployeeScheduling.GivenUpBookingFillsGuide | backend/src/main/java/ro/atm/backend/domain/employee/service/EmployeeSchedulingService.java:91-99 | when both parties together exceed the per-guide limit, the current employee cannot take the clashing booking while the booking they give up still counts |
| EmployeeScheduling.ExchangedBookingsFit | backend/src/main/java/ro/atm/backend/domain/employee/service/EmployeeSchedulingService.java:209-229 | once each booking is left out of its own employee's count, both employees are free to take the other booking |
| EmployeeScheduling.AsWrittenCheckCountsGivenUpBooking | backend/src/main/java/ro/atm/backend/domain/employee/service/EmployeeSchedulingService.java:91-99 | for two overlapping bookings of one categorised activity whose parties together exceed the limit, the check as written refuses the swap for capacity; with the given-up booking excluded it approves it, and the options list offers exactly that swap |
| EmployeeScheduling.ExampleSwapRefused | backend/src/main/java/ro/atm/backend/domain/employee/service/EmployeeSchedulingService.java:91-99 | two five-person tours at the same hour with room for eight per guide: the check as written refuses the swap and the corrected check approves it |
| EmployeeScheduling.CorrectedCheckMatchesOptions | backend/src/main/java/ro/atm/backend/domain/employee/service/EmployeeSchedulingService.java:207-229 | with the given-up booking excluded, the check approves the first clash and the new employee can take the booking in exchange exactly when the options list offers that clash |
| WorkHours.ValidateTimes | backend/src/main/java/ro/atm/backend/domain/employee/service/EmployeeWorkHourService.java:333-337 | passes exactly when the end comes strictly after the start, and fails with the end-after-start message otherwise |
| WorkHours.AnyClash | backend/src/main/java/ro/atm/backend/domain/employee/service/EmployeeWorkHourService.java:342-347 | true exactly when some stored window of the employee on that day shares a minute with the new one |
| WorkHours.ValidateNoOverlap | backend/src/main/java/ro/atm/backend/domain/employee/service/EmployeeWorkHourService.java:339-355 | a refusal is the overlap message for that employee, day and interval |
| WorkHours.ValidateNoOverlapIff | backend/src/main/java/ro/atm/backend/domain/employee/service/EmployeeWorkHourService.java:339-355 | validateNoOverlap passes exactly when none of the employee's windows on that day shares a minute with the new window; windows that only touch are accepted |
| WorkHours.OverlapMessageShowsInterval | backend/src/main/java/ro/atm/backend/domain/employee/service/EmployeeWorkHourService.java:349-353 | the overlap message (username, ISO day, then the new interval) ends with the new interval, whose start and end hours and minutes read back as numbers from its last eleven characters |
| WorkHours.OverlapMessage | backend/src/main/java/ro/atm/backend/domain/employee/service/EmployeeWorkHourService.java:349-353 | the refusal text: username, ISO day and the new interval as `HH:mm-HH:mm`; OverlapMessageShowsInterval proves the interval reads back from its end |
| WorkHours.IntervalReadsBack | backend/src/main/java/ro/atm/backend/domain/employee/service/EmployeeWorkHourService.java:351-352 | whatever text precedes it, an `HH:mm-HH:mm` interval at the end of a message reads back as the four numbers it was written from |
| WorkHours.CheckedWindowKeepsApart | backend/src/main/java/ro/atm/backend/domain/employee/service/EmployeeWorkHourService.java:339-355 | adding a window with a fresh id that the overlap check accepts keeps the employee's windows on each day pairwise disjoint |
| WorkHours.IntervalExists | backend/src/main/java/ro/atm/backend/domain/employee/service/EmployeeWorkHourService.java:254-256 | true exactly when the employee already has a window on that day with the same start and end |
| WorkHours.DuplicateCheckUnreachable | backend/src/main/java/ro/atm/backend/domain/employee/service/EmployeeWorkHourService.java:249-260 | once the times are ordered and the overlap check passed, no equal window can exist, so the duplicate refusal never happens |
| WorkHours.RemoveWindow | backend/src/main/java/ro/atm/backend/domain/employee/service/EmployeeWorkHourService.java:279 | keeps exactly the windows with another id |
| WorkHours.RemoveDay | backend/src/main/java/ro/atm/backend/domain/employee/service/EmployeeWorkHourService.java:287 | keeps exactly the windows that are not that employee's on that day |
| WorkHours.BulkInsert | backend/src/main/java/ro/atm/backend/domain/employee/service/EmployeeWorkHourService.java:306-320 | on success the store grows by one window per date |
| WorkHours.BulkInsertStep | backend/src/main/java/ro/atm/backend/domain/employee/service/EmployeeWorkHourService.java:306-320 | at each date the insert fails with the overlap message if that date's window clashes with the windows so far, and otherwise adds it with the next id |
| WorkHours.BulkInsertKeepsApart | backend/src/main/java/ro/atm/backend/domain/employee/service/EmployeeWorkHourService.java:306-320 | a successful bulk insert keeps every employee's windows on each day pairwise disjoint, and every id below the next free one |
| WorkHours.BulkInsertAppends | backend/src/main/java/ro/atm/backend/domain/employee/service/EmployeeWorkHourService.java:306-320 | a successful bulk insert keeps the old windows in front and adds one window per date, in order, with consecutive ids |
| WorkHours.RepeatedDateRejected | backend/src/main/java/ro/atm/backend/domain/employee/service/EmployeeWorkHourService.java:306-320 | with ordered times, a date listed twice makes the bulk insert fail |
| WorkHours.FirstWindowStays | backend/src/main/java/ro/atm/backend/domain/employee/service/EmployeeWorkHourService.java:306-320 | a date on which the employee already has a window with the same times makes the bulk insert fail |
| WorkHours.FindRequest | backend/src/main/java/ro/atm/backend/domain/employee/service/EmployeeWorkHourService.java:135-136 | the request found has the id; none is found exactly when no request has it |
| WorkHours.ReplaceRequest | backend/src/main/java/ro/atm/backend/domain/employee/service/EmployeeWorkHourService.java:194 | saving a stored request keeps the table's length |
| WorkHours.RemoveRequest | backend/src/main/java/ro/atm/backend/domain/employee/service/EmployeeWorkHourService.java:146 | keeps exactly the requests with another id |
| WorkHours.FindAfterReplace | backend/src/main/java/ro/atm/backend/domain/employee/service/EmployeeWorkHourService.java:190-194 | after a save, looking the id up gives the saved request |
| WorkHours.OtherRequestsUnchanged | backend/src/main/java/ro/atm/backend/domain/employee/service/EmployeeWorkHourService.java:146 | a save or a delete leaves the lookup of every other id as it was |
| WorkHours.ReplacedComeFrom | backend/src/main/java/ro/atm/backend/domain/employee/service/EmployeeWorkHourService.java:190-194 | every request after a save is the saved one or was stored before |
| WorkHours.UpcomingDates | backend/src/main/java/ro/atm/backend/domain/employee/service/EmployeeWorkHourService.java:102-105 | keeps exactly the dates that are not past, in order |
| WorkHours.NewRequests | backend/src/main/java/ro/atm/backend/domain/employee/service/EmployeeWorkHourService.java:107-117 | one pending request per date, in order, with consecutive ids |
| WorkHours.StageRequests | backend/src/main/java/ro/atm/backend/domain/employee/service/EmployeeWorkHourService.java:102-119 | the first upcoming date of an unavailable request fails the call; otherwise one pending request per upcoming date |
| WorkHours.StageWindows | backend/src/main/java/ro/atm/backend/domain/employee/service/EmployeeWorkHourService.java:306-320 | the loop computes exactly the bulk insert |
| WorkHours.WorkHourService.constructor | backend/src/main/java/ro/atm/backend/domain/employee/service/EmployeeWorkHourService.java:30 | starts with no windows and no requests |
| WorkHours.WorkHourService.CreateRequest | backend/src/main/java/ro/atm/backend/domain/employee/service/EmployeeWorkHourService.java:52-86 | refuses an unknown user, then a past date, then a request without times, ill-ordered times or an overlapping window, changing nothing; otherwise appends one pending request and adds no window |
| WorkHours.WorkHourService.CreateBulkRequest | backend/src/main/java/ro/atm/backend/domain/employee/service/EmployeeWorkHourService.java:88-122 | refuses an unknown user or ill-ordered times; past dates are skipped; an unavailable request fails once an upcoming date exists; otherwise appends one pending request per upcoming date and adds no window |
| WorkHours.WorkHourService.CancelRequest | backend/src/main/java/ro/atm/backend/domain/employee/service/EmployeeWorkHourService.java:132-147 | refuses an unknown user, an unknown request, another employee's request and a reviewed request, changing nothing; otherwise deletes exactly that request |
| WorkHours.WorkHourService.ApproveRequest | backend/src/main/java/ro/atm/backend/domain/employee/service/EmployeeWorkHourService.java:166-196 | refuses an unknown user, an unknown request, a reviewed request and a window that would overlap, changing nothing; otherwise marks the request approved by that administrator and adds exactly its window |
| WorkHours.WorkHourService.RejectRequest | backend/src/main/java/ro/atm/backend/domain/employee/service/EmployeeWorkHourService.java:198-215 | refuses an unknown user, an unknown request and a reviewed request; otherwise marks the request rejected with the reason and adds no window |
| WorkHours.WorkHourService.UpdateEmployeeWorkHours | backend/src/main/java/ro/atm/backend/domain/employee/service/EmployeeWorkHourService.java:240-273 | refuses an unknown employee, ill-ordered times and an overlapping window, changing nothing; otherwise appends exactly that window with the next id |
| WorkHours.WorkHourService.DeleteEmployeeWorkHour | backend/src/main/java/ro/atm/backend/domain/employee/service/EmployeeWorkHourService.java:274-280 | refuses an unknown id, changing nothing; otherwise removes exactly that window |
| WorkHours.WorkHourService.DeleteEmployeeWorkHourByDate | backend/src/main/java/ro/atm/backend/domain/employee/service/EmployeeWorkHourService.java:282-288 | refuses an unknown employee; otherwise removes exactly that employee's windows on that day |
| WorkHours.WorkHourService.CreateBulkEmployeeWorkHours | backend/src/main/java/ro/atm/backend/domain/employee/service/EmployeeWorkHourService.java:290-323 | refuses an unknown employee, ill-ordered times for an available window, and any date whose window would overlap, changing nothing; otherwise the store becomes the bulk insert and the call returns the windows added |
| Payments.PaymentAmountsAgree | backend/src/main/java/ro/atm/backend/domain/payment/service/PaymentService.java:84-95 | on a stored booking, the remaining amount plus what is paid is the full amount; before any payment the remaining amount is the full amount; the remaining amount is positive exactly when the booking is not fully paid |
| Payments.PaymentAmount | backend/src/main/java/ro/atm/backend/domain/payment/service/PaymentService.java:84-95 | the amount charged for a deposit, remaining or full payment; PaymentAmountsAgree states how the three agree on a stored booking |
| Payments.FindByIntent | backend/src/main/java/ro/atm/backend/domain/payment/service/PaymentService.java:119-120 | the payment found carries the intent id; none is found exactly when no payment carries it |
| Payments.ReplacePayment | backend/src/main/java/ro/atm/backend/domain/payment/service/PaymentService.java:124 | saving a payment keeps the table's length and every row's intent id, and every row afterwards is the saved payment or was there before |
| Payments.FindAfterReplace | backend/src/main/java/ro/atm/backend/domain/payment/service/PaymentService.java:122-124 | after a save that keeps the intent id, looking that intent up gives the saved payment |
| Payments.UpdateKeepsReferences | backend/src/main/java/ro/atm/backend/domain/payment/service/PaymentService.java:141 | saving a stored booking keeps every payment's booking reference valid |
| Payments.ApplyPaymentSuccess | backend/src/main/java/ro/atm/backend/domain/payment/service/PaymentService.java:126-141 | the booking after a successful payment keeps its id and its paid and remaining amounts add up to its total |
| Payments.PaymentSuccessFacts | backend/src/main/java/ro/atm/backend/domain/payment/service/PaymentService.java:126-141 | the amount is added to what is paid; the payment status becomes fully paid when all is paid, deposit paid when something but not all is paid, and is kept otherwise; a pending booking that received money becomes confirmed; nothing else changes |
| Payments.ReplayPaysTwice | backend/src/main/java/ro/atm/backend/domain/payment/service/PaymentService.java:118-142 | a success reported twice for a payment of the whole remainder adds the amount twice and leaves a negative remainder |
| Payments.CashPaymentCoversRemainder | backend/src/main/java/ro/atm/backend/domain/payment/service/PaymentService.java:196-210 | the recorded cash payment is exactly what was missing; afterwards the booking is fully paid and its amounts add up |
| Payments.ApplyCashPayment | backend/src/main/java/ro/atm/backend/domain/payment/service/PaymentService.java:196-210 | a cash payment settles the booking in full; CashPaymentCoversRemainder states that it records exactly what was missing |
| Payments.ReplaceKeepsUniqueIntents | backend/src/main/java/ro/atm/backend/domain/payment/service/PaymentService.java:122-124 | saving the payment found by an intent id, keeping that id, keeps intent ids unique |
| Payments.ReplaceKeepsUniqueSecrets | backend/src/main/java/ro/atm/backend/domain/payment/entity/Payment.java:64-65 | saving the payment found by an intent id, keeping its client secret, keeps client secrets unique |
| Payments.SaveKeepsReferences | backend/src/main/java/ro/atm/backend/domain/payment/service/PaymentService.java:122-124 | completing or failing a payment keeps every payment's booking |
| Payments.SavedRowGone | backend/src/main/java/ro/atm/backend/domain/payment/service/PaymentService.java:124 | after a save, a row other than the saved payment carries a different id |
| Payments.PaymentRepository.constructor | backend/src/main/java/ro/atm/backend/domain/payment/service/PaymentService.java:31 | starts empty |
| Payments.PaymentRepository.Insert | backend/src/main/java/ro/atm/backend/domain/payment/service/PaymentService.java:68 | a new payment whose intent id and client secret are not stored yet gets the next id and goes to the end; intent ids and client secrets stay unique |
| Payments.PaymentRepository.Update | backend/src/main/java/ro/atm/backend/domain/payment/service/PaymentService.java:124 | a stored payment is overwritten in place and can be found again by its intent id |
| Payments.CreatePaymentIntent | backend/src/main/java/ro/atm/backend/domain/payment/service/PaymentService.java:43-75 | refuses an unknown booking, then an amount that is not positive, then an intent id or a client secret already stored, changing nothing; otherwise stores one pending card payment of the type's amount and returns the gateway's secret, the new payment id and the intent id |
| Payments.HandlePaymentSuccess | backend/src/main/java/ro/atm/backend/domain/payment/service/PaymentService.java:118-142 | refuses an unknown intent, changing nothing; otherwise the payment is completed at that time and its booking takes the amount |
| Payments.SaveSettled | backend/src/main/java/ro/atm/backend/domain/booking/entity/Booking.java:105-120 | saving a booking whose amounts already add up stores it unchanged |
| Payments.HandlePaymentFailure | backend/src/main/java/ro/atm/backend/domain/payment/service/PaymentService.java:151-158 | refuses an unknown intent; otherwise the payment fails with the reason and no booking changes |
| Payments.MarkRemainingAsCash | backend/src/main/java/ro/atm/backend/domain/payment/service/PaymentService.java:178-184 | refuses an unknown booking; otherwise only the booking's cash promise changes |
| Payments.RecordCashPayment | backend/src/main/java/ro/atm/backend/domain/payment/service/PaymentService.java:192-211 | refuses an unknown booking; otherwise stores a completed cash payment of the remainder and the booking becomes fully paid |
| Repository.ReplaceById | backend/src/main/java/ro/atm/backend/domain/booking/service/BookingService.java:237 | saving a stored booking keeps the table's length and every row's id |
| Repository.ReplaceThenFind | backend/src/main/java/ro/atm/backend/domain/booking/service/BookingService.java:237 | after a save, ids stay unique, the saved booking is found by its id, and every other id finds what it found before |
| Repository.FindIsPosition | backend/src/main/java/ro/atm/backend/domain/booking/service/BookingValidationService.java:49-50 | a lookup returns a row carrying the id, and finds one whenever a row carries it |
| Repository.FindUnique | backend/src/main/java/ro/atm/backend/domain/booking/service/BookingValidationService.java:49-50 | with unique ids, looking up a stored booking's id finds that booking |
| Repository.BookingRepository.constructor | backend/src/main/java/ro/atm/backend/domain/booking/repository/BookingRepository.java:14 | starts empty |
| Repository.BookingRepository.Insert | backend/src/main/java/ro/atm/backend/domain/booking/service/BookingService.java:126 | a new booking gets the next id, passes the save hook and goes to the end |
| Repository.BookingRepository.Update | backend/src/main/java/ro/atm/backend/domain/booking/service/BookingService.java:237 | a stored booking passes the save hook and overwrites the row with its id |
| Numerics.RoundHalfUp | backend/src/main/java/ro/atm/backend/domain/booking/service/BookingService.java:89-91 | the result is the integer nearest to the quotient, a tie going away from zero |
| Numerics.RoundHalfUpOdd | backend/src/main/java/ro/atm/backend/domain/booking/service/BookingService.java:89-91 | the rounding is symmetric around zero |
| Numerics.RoundHalfCeiling | backend/src/main/java/ro/atm/backend/domain/activity/entity/Activity.java:105-106 | the result is the integer nearest to the quotient, a tie going up |
| EmployeeValidation.ValidateEmployeeData | backend/src/main/java/ro/atm/backend/domain/employee/service/EmployeeValidationService.java:26-44 | valid exactly when username, email, first name and last name are all non-blank; otherwise names the first blank field in that order with its message |
| EmployeeValidation.ValidateUsernameUnique | backend/src/main/java/ro/atm/backend/domain/employee/service/EmployeeValidationService.java:49-53 | refused exactly when some user already has the name |
| EmployeeValidation.ValidateUsernameUniqueForUpdate | backend/src/main/java/ro/atm/backend/domain/employee/service/EmployeeValidationService.java:58-64 | a name nobody has passes, and a refusal means another user holds the name |
| EmployeeValidation.UpdateCheckWithUniqueNames | backend/src/main/java/ro/atm/backend/domain/employee/service/EmployeeValidationService.java:58-64 | with unique usernames, the update check passes exactly when no other user holds the name |
| EmployeeValidation.ValidateEmployeeExists | backend/src/main/java/ro/atm/backend/domain/employee/service/EmployeeValidationService.java:69-72 | returns the user with that id; fails, naming the id, exactly when no user has it |
| ActivityEmployees.FindAssignment | backend/src/main/java/ro/atm/backend/domain/activity/repository/ActivityEmployeeRepository.java:23 | finds a row of the table for exactly that activity and employee, and reports none exactly when no row pairs them |
| ActivityEmployees.ActiveEmployeeIds | backend/src/main/java/ro/atm/backend/domain/activity/repository/ActivityEmployeeRepository.java:17 | an employee is listed exactly when the table holds an active row pairing them with the activity |
| ActivityEmployees.SetActive | backend/src/main/java/ro/atm/backend/domain/activity/service/ActivityEmployeeService.java:62-64 | keeps the table's length, every row's id and every row's activity and employee; only active flags change |
| ActivityEmployees.AssignFindsActiveRow | backend/src/main/java/ro/atm/backend/domain/activity/service/ActivityEmployeeService.java:57-77 | after an assignment the pair has an active row: its old row, in a table of the same length, when it had one, otherwise one new row with the next id |
| ActivityEmployees.AssignLeavesOtherPairs | backend/src/main/java/ro/atm/backend/domain/activity/service/ActivityEmployeeService.java:57-77 | an assignment leaves the row of every other (activity, employee) pair as it was |
| ActivityEmployees.AssignKeepsTableValid | backend/src/main/java/ro/atm/backend/domain/activity/entity/ActivityEmployee.java:11-12 | an assignment keeps the (activity, employee) pair unique and the ids distinct and below the next id |
| ActivityEmployees.AssignIdempotent | backend/src/main/java/ro/atm/backend/domain/activity/service/ActivityEmployeeService.java:57-66 | assigning the same pair twice changes nothing the second time, and hands out no id |
| ActivityEmployees.AssignRows | backend/src/main/java/ro/atm/backend/domain/activity/service/ActivityEmployeeService.java:57-77 | assignEmployee on the table: reactivate the pair's row or append a new active one; AssignFindsActiveRow, AssignIdempotent, AssignLeavesOtherPairs and RemoveThenAssignRestores state its effect |
| ActivityEmployees.AssignedAfterAssign | backend/src/main/java/ro/atm/backend/domain/activity/service/ActivityEmployeeService.java:57-77 | the employees active on an activity after an assignment are those active before plus the assigned employee, on that activity only |
| ActivityEmployees.RemoveRows | backend/src/main/java/ro/atm/backend/domain/activity/service/ActivityEmployeeService.java:91-96 | fails with "Employee assignment not found" exactly when the pair has no row; otherwise keeps the table's length |
| ActivityEmployees.RemovedAfterRemove | backend/src/main/java/ro/atm/backend/domain/activity/service/ActivityEmployeeService.java:91-96 | after a removal the employee is no longer active on that activity, every other pair keeps its state, and the pair's row is still there with its active flag cleared |
| ActivityEmployees.RemoveThenAssignRestores | backend/src/main/java/ro/atm/backend/domain/activity/service/ActivityEmployeeService.java:57-66 | removing an active assignment and assigning it again gives back the original table: the same row, active, and no new row |
| ActivityEmployees.CheckAssignee | backend/src/main/java/ro/atm/backend/domain/activity/service/ActivityEmployeeService.java:43-55 | succeeds exactly when the activity exists, the user exists and holds the employee or admin role, returning that user; otherwise fails with the activity's, then the employee's not-found message, then "User is not an employee" |
| ActivityEmployees.AssignAllFailsIff | backend/src/main/java/ro/atm/backend/domain/activity/service/ActivityEmployeeService.java:115-122 | a batch fails exactly when one of its ids fails the checks of assignEmployee |
| ActivityEmployees.AssignAllReportsFirstRejection | backend/src/main/java/ro/atm/backend/domain/activity/service/ActivityEmployeeService.java:115-122 | a failed batch reports the message of its first rejected id, every earlier id having passed |
| ActivityEmployees.AssignAllKeepsTableValid | backend/src/main/java/ro/atm/backend/domain/activity/service/ActivityEmployeeService.java:115-122 | a successful batch keeps the pairs unique and the ids distinct and below the next id |
| ActivityEmployees.AssignAll | backend/src/main/java/ro/atm/backend/domain/activity/service/ActivityEmployeeService.java:115-122 | the batch assignment, stopping at the first rejected id; AssignAllFailsIff, AssignAllReportsFirstRejection, AssignAllActivates and AssignAllKeepsTableValid state its result |
| ActivityEmployees.AssignAllReturnsUsers | backend/src/main/java/ro/atm/backend/domain/activity/service/ActivityEmployeeService.java:119-121 | a successful batch returns one user per id, in the order of the ids, each the user with that id |
| ActivityEmployees.AssignAllActivates | backend/src/main/java/ro/atm/backend/domain/activity/service/ActivityEmployeeService.java:119-121 | after a successful batch every id in it is active on the activity, and everyone active before still is |
| ActivityEmployees.StageAssignments | backend/src/main/java/ro/atm/backend/domain/activity/service/ActivityEmployeeService.java:119-121 | the loop over the ids computes exactly the batch outcome |
| ActivityEmployees.AssignmentTable.constructor | backend/src/main/java/ro/atm/backend/domain/activity/repository/ActivityEmployeeRepository.java:15 | starts with an empty table and the first id |
| ActivityEmployees.AssignmentTable.AssignedEmployees | backend/src/main/java/ro/atm/backend/domain/activity/service/ActivityEmployeeService.java:29-36 | fails exactly when the activity is unknown; otherwise lists exactly the employees with an active row for it |
| ActivityEmployees.AssignmentTable.AssignEmployee | backend/src/main/java/ro/atm/backend/domain/activity/service/ActivityEmployeeService.java:42-78 | returns the outcome of the checks, leaves the table alone on failure, and otherwise applies the reactivate-or-insert step, keeping the table valid |
| ActivityEmployees.AssignmentTable.RemoveEmployee | backend/src/main/java/ro/atm/backend/domain/activity/service/ActivityEmployeeService.java:84-97 | fails for an unknown activity, an unknown user, or a missing pair, in that order, changing nothing; otherwise soft-deletes the pair's row |
| ActivityEmployees.AssignmentTable.AssignEmployees | backend/src/main/java/ro/atm/backend/domain/activity/service/ActivityEmployeeService.java:114-122 | fails for an unknown activity; otherwise succeeds exactly when the batch does, returning its users and table; a failure leaves the table unchanged |
| ActivityEmployees.UniquePairFound | backend/src/main/java/ro/atm/backend/domain/activity/entity/ActivityEmployee.java:11-12 | in a valid table, looking up a stored row's pair finds that row |
| Categories.KeepSlugChars | backend/src/main/java/ro/atm/backend/domain/activity/controller/CategoryController.java:106 | keeps exactly the characters that are lower-case ASCII letters, digits, dashes or whitespace, and leaves a string made only of those unchanged |
| Categories.SkipDashes | backend/src/main/java/ro/atm/backend/domain/activity/controller/CategoryController.java:108 | drops a leading run of dashes: the result is a suffix of the input and does not start with a dash |
| Categories.CollapseDashes | backend/src/main/java/ro/atm/backend/domain/activity/controller/CategoryController.java:108 | adds no character, leaves no two dashes adjacent, and keeps whether the string starts with a dash |
| Categories.GenerateSlug | backend/src/main/java/ro/atm/backend/domain/activity/controller/CategoryController.java:104-110 | the slug holds only lower-case ASCII letters, digits and dashes, with no two dashes adjacent |
| Categories.TrimKeepsClean | backend/src/main/java/ro/atm/backend/domain/activity/controller/CategoryController.java:109 | the final trim leaves a string of slug characters unchanged |
| Categories.CollapseKeepsSingleDashes | backend/src/main/java/ro/atm/backend/domain/activity/controller/CategoryController.java:108 | a string with no two adjacent dashes is unchanged by the dash collapse |
| Categories.CleanSlugIsFixed | backend/src/main/java/ro/atm/backend/domain/activity/controller/CategoryController.java:104-110 | a clean slug is its own slug |
| Categories.SlugIdempotent | backend/src/main/java/ro/atm/backend/domain/activity/controller/CategoryController.java:104-110 | generating the slug of a slug changes nothing |
| Categories.SpaceRunBecomesOneDash | backend/src/main/java/ro/atm/backend/domain/activity/controller/CategoryController.java:107 | each maximal run of whitespace between two other parts becomes exactly one dash joining the parts' results |
| Categories.PaddedSlugClean | backend/src/main/java/ro/atm/backend/domain/activity/controller/CategoryController.java:104-110 | a clean slug that neither starts nor ends with a dash stays clean with a dash added at both ends |
| Categories.EdgeSpacesBecomeDashes | backend/src/main/java/ro/atm/backend/domain/activity/controller/CategoryController.java:104-110 | whitespace at both ends of a name survives as a dash at both ends of its slug, because the final trim removes no dash |
| Categories.ResolveSlug | backend/src/main/java/ro/atm/backend/domain/activity/controller/CategoryController.java:52-54 | keeps a supplied non-empty slug; otherwise gives a clean slug generated from the name, one the generator leaves unchanged |
| Categories.FindCategory | backend/src/main/java/ro/atm/backend/domain/activity/controller/CategoryController.java:67 | finds a category with the id, and finds none exactly when no stored category has it |
| Categories.CountLinked | backend/src/main/java/ro/atm/backend/domain/activity/repository/ActivityRepository.java:30 | is zero exactly when no activity refers to the category |
| Categories.ReplaceCategory | backend/src/main/java/ro/atm/backend/domain/activity/controller/CategoryController.java:82 | the row holding the saved category's id becomes that category, in its place; every other row stays as it was and the length is kept |
| Categories.FindAfterReplaceCategory | backend/src/main/java/ro/atm/backend/domain/activity/controller/CategoryController.java:82 | after the save, the saved id finds the saved category (when a row had that id) and every other id finds what it found before |
| Categories.DeleteCategoryRow | backend/src/main/java/ro/atm/backend/domain/activity/controller/CategoryController.java:98 | keeps exactly the categories whose id differs from the deleted one |
| Categories.ReplaceKeepsValid | backend/src/main/java/ro/atm/backend/domain/activity/entity/ActivityCategory.java:23-30 | an update that clashes with no other row's name or slug keeps ids, names and slugs unique |
| Categories.DeleteKeepsValid | backend/src/main/java/ro/atm/backend/domain/activity/entity/ActivityCategory.java:23-30 | a deletion keeps ids, names and slugs unique |
| Categories.CategoryStore.constructor | backend/src/main/java/ro/atm/backend/domain/activity/repository/ActivityCategoryRepository.java:11 | starts with no categories and the first id |
| Categories.CategoryStore.CreateCategory | backend/src/main/java/ro/atm/backend/domain/activity/controller/CategoryController.java:50-59 | stores the request under the next id with its slug resolved and replies Created, unless the name or slug is already taken, in which case nothing changes |
| Categories.CategoryStore.UpdateCategory | backend/src/main/java/ro/atm/backend/domain/activity/controller/CategoryController.java:63-86 | replies NotFound for an unknown id; otherwise takes name, description, resolved slug, icon, active flag and display order from the request, keeps the id and guide capacity, and refuses a name or slug held by another row without changing anything |
| Categories.CategoryStore.DeleteCategory | backend/src/main/java/ro/atm/backend/domain/activity/controller/CategoryController.java:90-102 | replies NotFound for an unknown id and Conflict, changing nothing, while an activity is linked; otherwise removes the category and replies NoContent |
| MediaLibrary.ValidateFile | backend/src/main/java/ro/atm/backend/domain/activity/service/MediaService.java:46-67 | accepts exactly a non-empty file with a content type on the allowed list within its size limit (50 MB for images, 500 MB otherwise); rejects an empty file first, then an oversized one, then a type not on the list, each with its message |
| MediaLibrary.DetermineMediaType | backend/src/main/java/ro/atm/backend/domain/activity/service/MediaService.java:69-81 | the kind is image exactly for an "image/" type and video exactly for a "video/" type that is not an image type; a missing type and any other type fail with their messages |
| MediaLibrary.AcceptedFileHasKind | backend/src/main/java/ro/atm/backend/domain/activity/service/MediaService.java:27-34 | every file validation accepts gets a media kind, an accepted image is within the image limit, and every accepted file is within the video limit |
| MediaLibrary.Segments | backend/src/main/java/ro/atm/backend/domain/activity/service/MediaService.java:104 | gives at least one segment, and no segment contains a separator |
| MediaLibrary.JoinOfSegments | backend/src/main/java/ro/atm/backend/domain/activity/service/MediaService.java:104-105 | joining the segments back with '/' gives the original string |
| MediaLibrary.ExtractFileName | backend/src/main/java/ro/atm/backend/domain/activity/service/MediaService.java:102-106 | fails on a URL without a separator; a name it extracts contains a separator and does not end with one |
| MediaLibrary.JavaSplit | backend/src/main/java/ro/atm/backend/domain/activity/service/MediaService.java:104 | `String.split("/")`: the text between separators, with trailing empty parts dropped; ExtractFileName states what the last two parts give |
| MediaLibrary.ExtractStorageKey | backend/src/main/java/ro/atm/backend/infrastructure/storage/R2StorageService.java:36-48 | for a URL prefix ending in '/', a folder without '/' and a non-empty UUID without '/', the name extracted from an uploaded object's public URL is exactly the key it was stored under |
| MediaLibrary.FindMedia | backend/src/main/java/ro/atm/backend/domain/activity/service/MediaService.java:89-90 | finds a row with the id, and finds none exactly when no row has it |
| MediaLibrary.MediaOf | backend/src/main/java/ro/atm/backend/domain/activity/service/MediaService.java:83-85 | lists exactly the rows of the activity |
| MediaLibrary.DeleteRow | backend/src/main/java/ro/atm/backend/domain/activity/service/MediaService.java:99 | keeps exactly the rows whose id differs from the deleted one |
| MediaLibrary.DeleteRowKeepsValid | backend/src/main/java/ro/atm/backend/domain/activity/entity/Media.java:31-32 | deleting a row keeps ids and URLs unique |
| MediaLibrary.MediaStore.constructor | backend/src/main/java/ro/atm/backend/domain/activity/repository/MediaRepository.java:10 | starts with no rows, an empty bucket and the configured URL prefix |
| MediaLibrary.MediaStore.MediaByActivity | backend/src/main/java/ro/atm/backend/domain/activity/service/MediaService.java:83-85 | lists exactly the stored rows of the activity |
| MediaLibrary.MediaStore.UploadFile | backend/src/main/java/ro/atm/backend/domain/activity/service/MediaService.java:23-44 | a rejected file or an unknown activity changes nothing; otherwise the object is stored under the folder and UUID key, and a row with the next id, the file's kind and the public URL is added and the URL returned, unless that URL is already stored, in which case the row is not saved but the object stays |
| MediaLibrary.MediaStore.DeleteMedia | backend/src/main/java/ro/atm/backend/domain/activity/service/MediaService.java:87-100 | an unknown id changes nothing; otherwise the object named by the row's URL leaves the bucket and the row leaves the table, unless no name can be extracted from the URL, in which case nothing changes |
| MediaLibrary.RemoveFirst | backend/src/main/java/ro/atm/backend/domain/activity/entity/Activity.java:96 | removes one occurrence of the element, if any, and leaves a list without it unchanged |
| MediaLibrary.RemoveFirstUndoesAppend | backend/src/main/java/ro/atm/backend/domain/activity/entity/Activity.java:90-98 | removing media just added to a list that did not hold it gives the list back, with no occurrence left |
| MediaLibrary.MediaItem.constructor | backend/src/main/java/ro/atm/backend/domain/activity/entity/Media.java:12 | a new media item has its kind and URL and belongs to no activity |
| MediaLibrary.ActivityMedia.constructor | backend/src/main/java/ro/atm/backend/domain/activity/entity/Activity.java:61-62 | a new activity has an empty media list |
| MediaLibrary.ActivityMedia.AddMedia | backend/src/main/java/ro/atm/backend/domain/activity/entity/Activity.java:90-93 | the item is appended to the list and points back at this activity |
| MediaLibrary.ActivityMedia.RemoveMedia | backend/src/main/java/ro/atm/backend/domain/activity/entity/Activity.java:95-98 | one occurrence of the item leaves the list and its link is cleared; an item listed once is no longer listed |
| TimeSlots.OverlapsWithTimeRangeIsOverlap | backend/src/main/java/ro/atm/backend/domain/activity/entity/ActivityTimeSlot.java:57-59 | the slot's overlap test is the half-open interval overlap, read either way round, and a range that only touches the slot does not overlap it |
| TimeSlots.OverlapsWithTimeRange | backend/src/main/java/ro/atm/backend/domain/activity/entity/ActivityTimeSlot.java:57-59 | a range overlaps the slot when it starts before the slot ends and ends after the slot starts; OverlapsWithTimeRangeIsOverlap proves it is the half-open overlap |
| TimeSlots.ValidBookingOverlapsSlot | backend/src/main/java/ro/atm/backend/domain/activity/entity/ActivityTimeSlot.java:50-52 | a non-empty booking that is valid for a slot lies inside the slot and overlaps it |
| TimeSlots.IsValidBookingTime | backend/src/main/java/ro/atm/backend/domain/activity/entity/ActivityTimeSlot.java:50-52 | a booking is valid for a slot when it starts at the slot's start and ends no later than the slot's end; ValidBookingOverlapsSlot and AnyValidSlot state its consequences |
| TimeSlots.ActiveSlotsOf | backend/src/main/java/ro/atm/backend/domain/activity/repository/ActivityTimeSlotRepository.java:22 | lists exactly the activity's active slots |
| TimeSlots.AnyValidSlot | backend/src/main/java/ro/atm/backend/domain/activity/service/ActivityTimeSlotService.java:123-125 | holds exactly when some slot starts at the booking's start and ends no earlier than the booking's end |
| TimeSlots.IsBookingTimeValid | backend/src/main/java/ro/atm/backend/domain/activity/service/ActivityTimeSlotService.java:113-126 | any time is valid for an activity without active slots; otherwise a time is valid exactly when one of its active slots starts at the booking's start and ends no earlier than the booking's end |
| TimeSlots.DayOfWeekIgnored | backend/src/main/java/ro/atm/backend/domain/activity/service/ActivityTimeSlotService.java:113 | the answer is the same for every day of the week |
| TimeSlots.OnlyActiveOwnSlotsMatter | backend/src/main/java/ro/atm/backend/domain/activity/service/ActivityTimeSlotService.java:114 | adding an inactive slot, or a slot of another activity, does not change the answer |
| TimeSlots.ValidateTimeSlot | backend/src/main/java/ro/atm/backend/domain/activity/service/ActivityTimeSlotService.java:131-136 | passes exactly when the start is strictly before the end, and fails with "Start time must be before end time" otherwise |
| TimeSlots.ApplyRequest | backend/src/main/java/ro/atm/backend/domain/activity/dto/ActivityTimeSlotRequest.java:33-37 | keeps the slot's id and activity, takes the times from the request, and makes the slot active unless the request says false |
| TimeSlots.FindSlot | backend/src/main/java/ro/atm/backend/domain/activity/service/ActivityTimeSlotService.java:65-66 | finds a slot with the id, and finds none exactly when no slot has it |
| TimeSlots.SlotsOf | backend/src/main/java/ro/atm/backend/domain/activity/repository/ActivityTimeSlotRepository.java:17 | lists exactly the activity's slots, and no more slots than the store holds |
| TimeSlots.ReplaceSlot | backend/src/main/java/ro/atm/backend/domain/activity/service/ActivityTimeSlotService.java:76-77 | keeps the store's length; every slot is the new one or an old one with another id, and the new one is stored when its id was present |
| TimeSlots.RemoveSlot | backend/src/main/java/ro/atm/backend/domain/activity/service/ActivityTimeSlotService.java:100-101 | keeps exactly the slots whose id differs from the removed one |
| TimeSlots.AppendExtendsActivityList | backend/src/main/java/ro/atm/backend/domain/activity/service/ActivityTimeSlotService.java:48-51 | saving a new slot appends it to its own activity's list and leaves every other activity's list unchanged |
| TimeSlots.RemoveShrinksActivityList | backend/src/main/java/ro/atm/backend/domain/activity/service/ActivityTimeSlotService.java:100-101 | deleting a slot from the store removes it from its activity's list and changes nothing else: listing and removing commute |
| TimeSlots.ReplaceKeepsActivityList | backend/src/main/java/ro/atm/backend/domain/activity/service/ActivityTimeSlotService.java:76-77 | updating a slot that stays with its activity updates it in place in that activity's list and leaves every other list unchanged |
| TimeSlots.AppendKeepsValid | backend/src/main/java/ro/atm/backend/domain/activity/entity/ActivityTimeSlot.java:20-22 | saving a slot under the next id keeps ids unique and below the next id |
| TimeSlots.ReplaceKeepsValid | backend/src/main/java/ro/atm/backend/domain/activity/entity/ActivityTimeSlot.java:20-22 | replacing a stored slot keeps ids unique |
| TimeSlots.RemoveKeepsValid | backend/src/main/java/ro/atm/backend/domain/activity/entity/ActivityTimeSlot.java:20-22 | removing a slot keeps ids unique |
| TimeSlots.TimeSlotStore.constructor | backend/src/main/java/ro/atm/backend/domain/activity/repository/ActivityTimeSlotRepository.java:12 | starts with no slots and the first id |
| TimeSlots.TimeSlotStore.ActivityTimeSlots | backend/src/main/java/ro/atm/backend/domain/activity/service/ActivityTimeSlotService.java:31-35 | lists exactly the stored slots of the activity |
| TimeSlots.TimeSlotStore.CreateTimeSlot | backend/src/main/java/ro/atm/backend/domain/activity/service/ActivityTimeSlotService.java:41-55 | fails for an unknown activity, then for a start not before the end, changing nothing; otherwise stores a slot with the next id, the request's times and the active flag defaulting to true, appended to the activity's list |
| TimeSlots.TimeSlotStore.UpdateTimeSlot | backend/src/main/java/ro/atm/backend/domain/activity/service/ActivityTimeSlotService.java:61-82 | fails for an unknown activity, an unknown slot, a slot of another activity, or a start not before the end, in that order, changing nothing; otherwise the slot takes the request's times and flag in place |
| TimeSlots.TimeSlotStore.DeleteTimeSlot | backend/src/main/java/ro/atm/backend/domain/activity/service/ActivityTimeSlotService.java:88-104 | fails for an unknown activity, an unknown slot, or a slot of another activity, changing nothing; otherwise the slot leaves the store and the activity's list |
| Strings.Trim | backend/src/main/java/ro/atm/backend/domain/booking/service/BookingValidationService.java:37 | the result is no longer than the input and neither starts nor ends with a character up to U+0020 |
| Strings.TrimEmptyIff | backend/src/main/java/ro/atm/backend/domain/employee/service/EmployeeValidationService.java:27 | a trimmed string is empty exactly when every character of the input is up to U+0020 |
| Strings.ToLower | backend/src/main/java/ro/atm/backend/domain/activity/entity/Activity.java:112 | keeps the length, lower-cases each ASCII capital, leaves every other character alone, and leaves no ASCII capital |
| Strings.ToUpper | backend/src/main/java/ro/atm/backend/domain/booking/service/BookingService.java:219 | keeps the length, upper-cases each ASCII small letter, leaves every other character alone, and leaves no ASCII small letter |
| Strings.NatToStringDigits | backend/src/main/java/ro/atm/backend/domain/activity/entity/Activity.java:82-86 | the rendering of a natural number is a non-empty string of decimal digits |
| Strings.PadNatReadsBack | backend/src/main/java/ro/atm/backend/domain/employee/service/EmployeeWorkHourService.java:351-352 | a number zero-padded to any width reads back as that number |
| Strings.PadNatDigits | backend/src/main/java/ro/atm/backend/domain/employee/service/EmployeeWorkHourService.java:351-352 | a zero-padded number is all digits and at least as wide as asked |
| Strings.IntToString | backend/src/main/java/ro/atm/backend/domain/activity/entity/Activity.java:86 | a non-negative number renders as digits only, a negative one as '-' followed by digits |
| Strings.ParseNat | backend/src/main/java/ro/atm/backend/domain/activity/entity/Activity.java:82-86 | reads a number exactly from a non-empty string of decimal digits |
| Strings.ParseNatToString | backend/src/main/java/ro/atm/backend/domain/activity/entity/Activity.java:82-86 | reading back the rendering of a natural number gives that number |
| TimeUntil.TruncDiv | frontend/src/utils/dateUtils.ts:10-11 | the remainder left by the quotient has the sign of the dividend and is smaller than the divisor, so the quotient rounds toward zero for negative differences as well as positive ones |
| TimeUntil.Classify | frontend/src/utils/dateUtils.ts:13-41 | the label is expired exactly when the minute difference is not positive; the minute form shows the minute difference, between 1 and 59; the hour form the hour difference, between 1 and 47; the day form whole days of the hour difference, at least two |
| TimeUntil.Render | frontend/src/utils/dateUtils.ts:15-41 | every form renders as a non-empty text |
| TimeUntil.FormatTimeUntil | frontend/src/utils/dateUtils.ts:7-42 | every deadline gets a non-empty label |
| TimeUntil.HoursAreWholeMinutes | frontend/src/utils/dateUtils.ts:10-11 | for a deadline not in the past, the hour difference is the minute difference in whole hours |
| TimeUntil.DiffsMonotone | frontend/src/utils/dateUtils.ts:10-11 | a later deadline never has a smaller minute or hour difference |
| TimeUntil.FormsAreOrdered | frontend/src/utils/dateUtils.ts:13-41 | a later deadline never moves the label to an earlier form in the order expired, minutes, hours, days |
| TimeUntil.OtherLanguagesAreEnglish | frontend/src/utils/dateUtils.ts:15-41 | every language other than 'ro' gets the English label |
| TimeUntil.ExpiredIff | frontend/src/utils/dateUtils.ts:14-16 | the label reads "Expired" or "Expirat" exactly when the minute difference is not positive |
| TimeUntil.NoSingularDay | frontend/src/utils/dateUtils.ts:36-41 | the singular day labels are never produced, since the day form starts at 48 hours |
| TimeUntil.EnglishPluralIff | frontend/src/utils/dateUtils.ts:18-41 | a pending English label ends in 's' exactly when the number it shows is not one |

## Left out

- Persistence: JPA repositories, entity loading and transactions. Tables are `seq` fields. A `@Transactional` method that throws leaves its tables as they were, and each service call is atomic.
- HTTP controllers, DTO mapping and display-only DTO fields such as names, URLs and formatted strings. Categories are the exception: their create, update and delete handlers are modelled.
- Stripe, e-mail, SMS and the object store's network calls. The payment intent id and client secret are parameters. The bucket is a set of keys. The confirmation e-mail and the SMS sent after a guest booking are not modelled.
- The clock: `LocalDate.now()`, `LocalDateTime.now()` and dayjs's "now" are parameters. A new object's random UUID and the public URL prefix are parameters too.
- Floating point: coordinates are integers in units of 1e-7 degrees. The `%.4f` rounding in the location identifier is the half-up rounding of those integers.
- Case mapping covers ASCII letters only. Unicode case folding is not modelled.
- Java `int` overflow is not modelled. Participant sums, durations and ids are unbounded integers.
- `LocalDate.toString()`: the month calendar returns `Date` values rather than ISO strings. The overlap message prints the date in the ISO form, and its times as `HH:mm` because model times are whole minutes, so the seconds that `LocalTime.toString()` would add are always zero.
- Read-only listing queries with no rule beyond a filter are not modelled:
  - `getAllCategories`, `getCategoryById`, `getCategoryBySlug`;
  - `getMyWorkHours`, `getMyWorkHoursByDateRange`, `getMyRequests`, `getAllRequests`, `getPendingRequests`, `getEmployeeWorkHours`, `getEmployeeWorkHoursByDateRange`;
  - `getActivitiesForEmployee`, `getBookingPayments`, `getAllBookings`, `getUserBookings`, `getBookingById`.
- `updateEmployeeSelectionEnabled` only sets a flag on the activity and is not modelled.
- Some unchecked exceptions become explicit failures:
  - A dereference of a null value is a failure. A missing category in a swap is `MissingCategory`, and a missing content type in file validation is `MissingContentType`.
  - Saving a null time into a NOT NULL column is `MissingTimes`.
  - A broken unique constraint is a failure: `DuplicateIntent`, `DuplicateUrl` and `ConstraintViolation`.
- Bean-validation annotations on request bodies (`@NotNull`, `@Min`) are not modelled. Only the services' own checks are.
- Employees are identified by user id, and roles are a set of role names. The role lookup of employee creation is not part of this model; the ones in `updateBookingEmployee`, `findAvailableEmployee` (and so `createBooking` and `createGuestBooking`) and `getAvailableTimeSlots` are, with the role table given as the set of its role names.
- A category posted with an id is stored as a new category under the next id.
- The activity's own time-slot list is the slot store filtered by the activity's id. `Activity.addTimeSlot` and `removeTimeSlot` are not part of this model.
- dayjs `diff` truncation toward zero is modelled over a signed millisecond difference. Date parsing and time zones are left out.
- The as-written scan loop that wraps past midnight appears only in `SlotScan`, as a finding. Everything else uses the corrected scan (see Findings). The two differ not only where the source's loop never ends but also where it ends with a wrong list: a slot whose wrapped end is at or before the window's end is listed although it runs past midnight, and the scan then goes on listing starts after midnight and before the window, as `SlotScan.AsWrittenScanLeavesWindow` shows.
- `Payments.ReplayPaysTwice` shows that a replayed success adds the amount again. The model keeps that behaviour rather than adding a guard.

## Findings

| source | as written | input that shows it | evidently intended | confidence | as-written member | corrected member |
|---|---|---|---|---|---|---|
| backend/src/main/java/ro/atm/backend/domain/booking/service/BookingSchedulingService.java:77-78 | the scan loop's guard adds the duration with `LocalTime.plusMinutes`, which wraps at midnight, so a slot running past midnight seems to end early and the guard holds again | a work window ending at 23:59, with any duration and start: every wrapped slot end is at or before 23:59, so the loop never ends; likewise a 30-minute activity in a 09:00-23:45 window, whose 23:30 slot ends at the wrapped 00:00. Where the loop does end the output can be wrong: a 360-minute activity in an 18:00-23:00 window lists 47 starts, 18:00 through 17:00, among them 02:00-08:00 wholly outside the window, and stops at 17:30, while no slot fits (the same loop is at BookingService.java:427-428) | candidate starts every 30 minutes from the window start while the slot still ends within the window on the same day | not executed | SlotScan.AsWrittenScanNeverEnds, SlotScan.AsWrittenScanCycles, SlotScan.AsWrittenScanLeavesWindow | SlotScan.ScanStartsMembership |
| backend/src/main/java/ro/atm/backend/domain/employee/service/EmployeeSchedulingService.java:91-99 | `checkEmployeeSwap` asks whether the current guide can take the clashing booking while excluding the clashing booking's own id, so the booking the guide is giving up still counts against their capacity | two five-person bookings of the same activity at the same hour, one per guide, with room for eight per guide: the swap is refused for capacity, although after the exchange each guide has five people | exclude the booking the current guide gives up, as `getEmployeeSwapOptions` does at lines 205-217 | not executed | EmployeeScheduling.AsWrittenCheckCountsGivenUpBooking | EmployeeScheduling.CorrectedCheckMatchesOptions |

=== FILE: activity.dfy ===
/** The Activity entity (activity/entity/Activity.java) and its category and
    location details. Money is in cents, the deposit percentage in hundredths
    of a percent (20.00% is 2000), coordinates in units of 1e-7 degree. */
module Activities {
  import opened Wrappers
  import opened Strings
  import opened Numerics

  datatype Category = Category(id: int, name: string, slug: Option<string>, maxParticipantsPerGuide: int)

  datatype LocationDetails = LocationDetails(city: string, latitude: Option<int>, longitude: Option<int>)

  datatype Activity = Activity(
    id: int,
    name: string,
    minParticipants: int,
    maxParticipants: int,
    pricePerPerson: int,
    depositPercent: int,
    durationMinutes: int,
    location: string,
    locationDetails: Option<LocationDetails>,
    category: Option<Category>,
    active: bool)

  /** The message of `ResourceNotFoundException("Activity", id)`. */
  function ActivityNotFound(id: int): string {
    "Activity with ID " + IntToString(id) + " not found"
  }

  /** The message the activity-employee and media services give for an
      unknown activity. */
  function ActivityNotFoundWithId(id: int): string {
    "Activity not found with id: " + IntToString(id)
  }

  /** `activityRepository.findById`. */
  function FindActivity(activities: seq<Activity>, id: int): (r: Option<Activity>)
    ensures r.Some? ==> r.value in activities && r.value.id == id
    ensures r.None? <==> forall a :: a in activities ==> a.id != id
  {
    if activities == [] then None
    else if activities[0].id == id then Some(activities[0])
    else FindActivity(activities[1..], id)
  }

  /** 0.0001 degree, the precision of a location identifier, in 1e-7 degree units. */
  const CoordinateTolerance: int := 1000

  /** The deposit per person, `pricePerPerson * depositPercent / 100`, exact, in
      millionths of the currency unit. */
  function CalculateDeposit(a: Activity): (r: int)
    ensures a.pricePerPerson >= 0 && 0 <= a.depositPercent <= 10000 ==> 0 <= r <= a.pricePerPerson * 10000
    ensures a.depositPercent == 10000 ==> r == a.pricePerPerson * 10000
  {
    a.pricePerPerson * a.depositPercent
  }

  predicate HasCoordinates(a: Activity) {
    a.locationDetails.Some? && a.locationDetails.value.latitude.Some? && a.locationDetails.value.longitude.Some?
  }

  /** A location identifier: coordinates rounded to four decimals, or the
      lower-cased, trimmed text `location|city`. */
  datatype LocationKey = Coordinates(lat: int, lon: int) | Text(key: string)

  function LocationText(a: Activity): string {
    var city := if a.locationDetails.Some? then a.locationDetails.value.city else "";
    Trim(ToLower(a.location + "|" + city))
  }

  function LocationIdentifier(a: Activity): (k: LocationKey)
    ensures k.Coordinates? <==> HasCoordinates(a)
    ensures k.Coordinates? ==>
      -CoordinateTolerance < 2 * (k.lat * CoordinateTolerance - a.locationDetails.value.latitude.value) <= CoordinateTolerance
      && -CoordinateTolerance < 2 * (k.lon * CoordinateTolerance - a.locationDetails.value.longitude.value) <= CoordinateTolerance
    ensures k.Text? ==> '|' in k.key && forall i :: 0 <= i < |k.key| ==> !('A' <= k.key[i] <= 'Z')
  {
    if HasCoordinates(a) then
      Coordinates(RoundHalfCeiling(a.locationDetails.value.latitude.value, CoordinateTolerance),
                  RoundHalfCeiling(a.locationDetails.value.longitude.value, CoordinateTolerance))
    else
      TextKeyFacts(a.location, if a.locationDetails.Some? then a.locationDetails.value.city else "");
      Text(LocationText(a))
  }

  lemma TextKeyFacts(location: string, city: string)
    ensures '|' in Trim(ToLower(location + "|" + city))
    ensures forall i :: 0 <= i < |Trim(ToLower(location + "|" + city))| ==> !('A' <= Trim(ToLower(location + "|" + city))[i] <= 'Z')
  {
    var lowered := ToLower(location + "|" + city);
    assert lowered[|location|] == '|';
    TrimKeepsInner(lowered, |location|);
    TrimIsInfix(lowered);
  }

  lemma TrimIsInfix(s: string)
    ensures forall i :: 0 <= i < |Trim(s)| ==> Trim(s)[i] in s
  {
    var l := TrimLeft(s);
    assert forall i :: 0 <= i < |l| ==> l[i] == s[|s| - |l| + i];
    assert forall i :: 0 <= i < |TrimRight(l)| ==> TrimRight(l)[i] == l[i];
  }

  /** Trimming never removes a character above U+0020. */
  lemma TrimKeepsInner(s: string, i: nat)
    requires i < |s| && !IsTrimmed(s[i])
    ensures s[i] in Trim(s)
  {
    var l := TrimLeft(s);
    var j := i - (|s| - |l|);
    assert l[j] == s[i];
    assert TrimRight(l)[j] == l[j];
  }

  /** Two activities are at the same place: coordinates closer than 0.0001
      degree on both axes when both have them, identifier equality otherwise. */
  predicate HasSameLocationAs(a: Activity, b: Activity) {
    if HasCoordinates(a) && HasCoordinates(b) then
      Abs(a.locationDetails.value.latitude.value - b.locationDetails.value.latitude.value) < CoordinateTolerance
      && Abs(a.locationDetails.value.longitude.value - b.locationDetails.value.longitude.value) < CoordinateTolerance
    else
      LocationIdentifier(a) == LocationIdentifier(b)
  }

  lemma SameLocationReflexiveSymmetric(a: Activity, b: Activity)
    ensures HasSameLocationAs(a, a)
    ensures HasSameLocationAs(a, b) == HasSameLocationAs(b, a)
  {
  }

  /** An activity with coordinates is never at the same place as one without:
      a rounded coordinate pair is never equal to a `location|city` text. */
  lemma MixedLocationsDiffer(a: Activity, b: Activity)
    requires HasCoordinates(a) && !HasCoordinates(b)
    ensures !HasSameLocationAs(a, b) && !HasSameLocationAs(b, a)
  {
  }

  /** Without coordinates, the comparison ignores ASCII letter case and
      surrounding white space: equal keys after lower-casing give the same place. */
  lemma TextLocationIgnoresCase(a: Activity, b: Activity)
    requires !HasCoordinates(a) && !HasCoordinates(b)
    requires a.locationDetails.Some? && b.locationDetails.Some?
    requires ToLower(a.location) == ToLower(b.location)
    requires ToLower(a.locationDetails.value.city) == ToLower(b.locationDetails.value.city)
    ensures HasSameLocationAs(a, b)
  {
    var x := a.location + "|" + a.locationDetails.value.city;
    var y := b.location + "|" + b.locationDetails.value.city;
    assert ToLower(x) == ToLower(a.location) + "|" + ToLower(a.locationDetails.value.city);
    assert ToLower(y) == ToLower(b.location) + "|" + ToLower(b.locationDetails.value.city);
  }

  /** Without coordinates, "same location" is an equivalence: it is transitive. */
  lemma TextLocationTransitive(a: Activity, b: Activity, c: Activity)
    requires !HasCoordinates(a) && !HasCoordinates(b) && !HasCoordinates(c)
    requires HasSameLocationAs(a, b) && HasSameLocationAs(b, c)
    ensures HasSameLocationAs(a, c)
  {
  }

  /** With coordinates, closeness is not transitive: three points 0.00006
      degree apart chain two matches into a mismatch. */
  lemma CoordinateLocationNotTransitive(a: Activity, b: Activity, c: Activity)
    requires a.locationDetails == Some(LocationDetails("Brasov", Some(0), Some(0)))
    requires b.locationDetails == Some(LocationDetails("Brasov", Some(600), Some(0)))
    requires c.locationDetails == Some(LocationDetails("Brasov", Some(1200), Some(0)))
    ensures HasSameLocationAs(a, b) && HasSameLocationAs(b, c) && !HasSameLocationAs(a, c)
  {
  }

  /** getFormattedDuration: Java's truncating `/ 60` and `% 60`, then
      "Xh Ymin", "Xh" or "Ymin". */
  function FormattedDuration(d: int): (r: string)
  {
    var hours := if d >= 0 then d / 60 else -((-d) / 60);
    DurationLabel(hours, d - hours * 60)
  }

  function DurationLabel(hours: int, minutes: int): string {
    if hours > 0 && minutes > 0 then NatToString(hours) + "h " + NatToString(minutes) + "min"
    else if hours > 0 then NatToString(hours) + "h"
    else IntToString(minutes) + "min"
  }

  /** Number of leading decimal digits of s. */
  function DigitPrefix(s: string): (k: nat)
    ensures k <= |s| && AllDigits(s[..k]) && (k < |s| ==> !IsDigit(s[k]))
  {
    if s == [] || !IsDigit(s[0]) then 0
    else
      var k := 1 + DigitPrefix(s[1..]);
      assert s[..k] == [s[0]] + s[1..][..k - 1];
      k
  }

  lemma {:induction false} DigitPrefixOf(digits: string, rest: string)
    requires AllDigits(digits)
    requires rest == [] || !IsDigit(rest[0])
    ensures DigitPrefix(digits + rest) == |digits|
  {
    if digits != [] {
      assert (digits + rest)[1..] == digits[1..] + rest;
      DigitPrefixOf(digits[1..], rest);
    }
  }

  /** Reads a formatted duration back into minutes. */
  function ParseFormattedDuration(s: string): (r: Option<int>)
    ensures r.Some? ==> r.value >= 0
  {
    if EndsWith(s, "min") then ParseMinutesLabel(s[..|s| - 3])
    else if EndsWith(s, "h") then
      match ParseNat(s[..|s| - 1])
      case Some(h) => Some(h * 60)
      case None => None
    else None
  }

  /** The part before "min": either "Y" or "Xh Y". */
  function ParseMinutesLabel(body: string): (r: Option<int>)
    ensures r.Some? ==> r.value >= 0
  {
    var k := DigitPrefix(body);
    if k == |body| then ParseNat(body)
    else if k >= 1 && StartsWith(body[k..], "h ") then HoursAndMinutes(ParseNat(body[..k]), ParseNat(body[k + 2..]))
    else None
  }

  function HoursAndMinutes(hours: Option<nat>, minutes: Option<nat>): (r: Option<int>)
    ensures r.Some? <==> hours.Some? && minutes.Some?
    ensures r.Some? ==> r.value >= 0
  {
    if hours.Some? && minutes.Some? then Some(hours.value * 60 + minutes.value) else None
  }

  /** The formatted duration of any non-negative duration reads back to it, so
      distinct durations never share a label. */
  lemma FormattedDurationRoundTrip(d: int)
    requires d >= 0
    ensures ParseFormattedDuration(FormattedDuration(d)) == Some(d)
  {
    var hours, minutes := d / 60, d % 60;
    SplitDuration(d);
    if hours > 0 && minutes > 0 {
      HoursMinutesRoundTrip(hours, minutes);
    } else if hours > 0 {
      HoursRoundTrip(hours);
    } else {
      MinutesRoundTrip(minutes);
    }
  }

  lemma SplitDuration(d: int)
    requires d >= 0
    ensures FormattedDuration(d) == DurationLabel(d / 60, d % 60)
    ensures d / 60 * 60 + d % 60 == d
  {
  }

  lemma HoursMinutesRoundTrip(hours: nat, minutes: nat)
    requires hours > 0 && minutes > 0
    ensures ParseFormattedDuration(DurationLabel(hours, minutes)) == Some(hours * 60 + minutes)
  {
    var hs, ms := NatToString(hours), NatToString(minutes);
    var s := hs + "h " + ms + "min";
    assert DurationLabel(hours, minutes) == s;
    var body := hs + ("h " + ms);
    assert s == body + "min";
    assert EndsWith(s, "min") && s[..|s| - 3] == body;
    HoursMinutesLabel(hours, minutes);
  }

  lemma HoursMinutesLabel(hours: nat, minutes: nat)
    ensures ParseMinutesLabel(NatToString(hours) + ("h " + NatToString(minutes))) == Some(hours * 60 + minutes)
  {
    ParseNatToString(hours);
    ParseNatToString(minutes);
    SplitLabel(NatToString(hours), NatToString(minutes));
  }

  /** A label "<digits>h <digits>" splits at the `h`. */
  lemma SplitLabel(hs: string, ms: string)
    requires |hs| >= 1 && AllDigits(hs)
    ensures ParseMinutesLabel(hs + ("h " + ms)) == HoursAndMinutes(ParseNat(hs), ParseNat(ms))
  {
    var rest := "h " + ms;
    var body := hs + rest;
    DigitPrefixOf(hs, rest);
    assert body[..|hs|] == hs;
    assert body[|hs|..] == rest;
    assert rest[..2] == "h ";
    assert body[|hs| + 2..] == ms;
  }

  lemma HoursRoundTrip(hours: nat)
    requires hours > 0
    ensures ParseFormattedDuration(DurationLabel(hours, 0)) == Some(hours * 60)
  {
    var hs := NatToString(hours);
    var s := hs + "h";
    assert DurationLabel(hours, 0) == s;
    assert s[..|s| - 1] == hs;
    assert s[|s| - 1] == 'h';
    ParseNatToString(hours);
  }

  lemma MinutesRoundTrip(minutes: nat)
    ensures ParseFormattedDuration(DurationLabel(0, minutes)) == Some(minutes)
  {
    var ms := NatToString(minutes);
    var s := ms + "min";
    assert DurationLabel(0, minutes) == s;
    assert EndsWith(s, "min") && s[..|s| - 3] == ms;
    DigitPrefixOf(ms, "");
    assert ms + "" == ms;
    ParseNatToString(minutes);
  }
}

=== FILE: activityemployee.dfy ===
/** Which employees may guide which activity (activity/entity/ActivityEmployee.java,
    activity/service/ActivityEmployeeService.java). A row pairs an activity
    with an employee; the pair is unique. Removing an employee only clears the
    row's active flag, and assigning the pair again reactivates the same row.
    Employees are identified by their user id; the transfer object built from
    the user carries nothing more that the rules depend on. */
module ActivityEmployees {
  import opened Wrappers
  import opened Strings
  import opened Activities
  import opened Staff

  datatype Assignment = Assignment(id: int, activityId: int, employeeId: int, active: bool)

  const NotAnEmployee: string := "User is not an employee"
  const AssignmentNotFound: string := "Employee assignment not found"

  function EmployeeNotFound(id: int): string {
    "Employee not found with id: " + IntToString(id)
  }

  /** The role test of assignEmployee: an employee or an administrator. */
  predicate HoldsStaffRole(u: User) {
    RoleEmployee in u.roles || RoleAdmin in u.roles
  }

  predicate Pairs(x: Assignment, activityId: int, employeeId: int) {
    x.activityId == activityId && x.employeeId == employeeId
  }

  /** The unique constraint on (activity_id, employee_id) and the identity
      column: ids are distinct and below the next one to hand out. */
  predicate TableValid(rows: seq<Assignment>, nextId: int) {
    (forall i, j :: 0 <= i < j < |rows| ==> rows[i].id != rows[j].id)
    && (forall i, j :: 0 <= i < j < |rows| ==> !Pairs(rows[i], rows[j].activityId, rows[j].employeeId))
    && (forall x :: x in rows ==> x.id < nextId)
  }

  /** `findByActivityAndEmployee`. */
  function FindAssignment(rows: seq<Assignment>, activityId: int, employeeId: int): (r: Option<Assignment>)
    ensures r.Some? ==> r.value in rows && Pairs(r.value, activityId, employeeId)
    ensures r.None? <==> forall x :: x in rows ==> !Pairs(x, activityId, employeeId)
  {
    if rows == [] then None
    else if Pairs(rows[0], activityId, employeeId) then Some(rows[0])
    else FindAssignment(rows[1..], activityId, employeeId)
  }

  /** `findByActivityAndActiveTrue`, reduced to the employees' ids, in table order. */
  function ActiveEmployeeIds(rows: seq<Assignment>, activityId: int): (r: seq<int>)
    ensures forall e :: e in r <==> exists x :: x in rows && x.active && Pairs(x, activityId, e)
  {
    if rows == [] then []
    else if rows[0].active && rows[0].activityId == activityId then
      [rows[0].employeeId] + ActiveEmployeeIds(rows[1..], activityId)
    else ActiveEmployeeIds(rows[1..], activityId)
  }

  /** The rows with the pair's row saved with a new active flag. */
  function SetActive(rows: seq<Assignment>, activityId: int, employeeId: int, flag: bool): (r: seq<Assignment>)
    ensures |r| == |rows|
    ensures forall i :: 0 <= i < |rows| ==> r[i].id == rows[i].id && Pairs(r[i], rows[i].activityId, rows[i].employeeId)
  {
    seq(|rows|, i requires 0 <= i < |rows| =>
      if Pairs(rows[i], activityId, employeeId) then rows[i].(active := flag) else rows[i])
  }

  /** The table after assignEmployee found the activity and a staff member:
      an inactive row is reactivated, an active one left alone, and a new
      active row is added only when the pair has none. */
  function AssignRows(rows: seq<Assignment>, nextId: int, activityId: int, employeeId: int): seq<Assignment> {
    match FindAssignment(rows, activityId, employeeId)
    case Some(x) => if x.active then rows else SetActive(rows, activityId, employeeId, true)
    case None => rows + [Assignment(nextId, activityId, employeeId, true)]
  }

  function NextIdAfterAssign(rows: seq<Assignment>, nextId: int, activityId: int, employeeId: int): int {
    if FindAssignment(rows, activityId, employeeId).Some? then nextId else nextId + 1
  }

  /** Looking up a pair after flags were set on another pair, or on the same pair. */
  lemma {:induction false} FindAfterSetActive(rows: seq<Assignment>, a: int, e: int, flag: bool, a': int, e': int)
    ensures FindAssignment(SetActive(rows, a, e, flag), a', e') ==
      if a' == a && e' == e then
        (if FindAssignment(rows, a', e').Some? then Some(FindAssignment(rows, a', e').value.(active := flag)) else None)
      else FindAssignment(rows, a', e')
  {
    if rows != [] {
      assert SetActive(rows, a, e, flag)[1..] == SetActive(rows[1..], a, e, flag);
      FindAfterSetActive(rows[1..], a, e, flag, a', e');
    }
  }

  lemma {:induction false} FindAfterAppend(rows: seq<Assignment>, y: Assignment, a: int, e: int)
    ensures FindAssignment(rows + [y], a, e) ==
      if FindAssignment(rows, a, e).Some? then FindAssignment(rows, a, e)
      else if Pairs(y, a, e) then Some(y) else None
  {
    if rows != [] {
      assert (rows + [y])[1..] == rows[1..] + [y];
      FindAfterAppend(rows[1..], y, a, e);
    }
  }

  /** After an assignment the pair has an active row: the row it had before
      when there was one, in a table of the same length, otherwise one new
      row carrying the next id. */
  lemma AssignFindsActiveRow(rows: seq<Assignment>, nextId: int, a: int, e: int)
    ensures var r := AssignRows(rows, nextId, a, e);
      FindAssignment(r, a, e).Some? && FindAssignment(r, a, e).value.active
      && (FindAssignment(rows, a, e).Some? ==>
            FindAssignment(r, a, e).value.id == FindAssignment(rows, a, e).value.id && |r| == |rows|)
      && (FindAssignment(rows, a, e).None? ==> FindAssignment(r, a, e).value.id == nextId && |r| == |rows| + 1)
  {
    FindAfterAppend(rows, Assignment(nextId, a, e, true), a, e);
    FindAfterSetActive(rows, a, e, true, a, e);
  }

  /** An assignment leaves every other pair's row as it was. */
  lemma AssignLeavesOtherPairs(rows: seq<Assignment>, nextId: int, a: int, e: int, a': int, e': int)
    requires !(a' == a && e' == e)
    ensures FindAssignment(AssignRows(rows, nextId, a, e), a', e') == FindAssignment(rows, a', e')
  {
    FindAfterAppend(rows, Assignment(nextId, a, e, true), a', e');
    FindAfterSetActive(rows, a, e, true, a', e');
  }

  /** An assignment never creates a second row for a pair, and keeps the ids
      distinct and below the next one. */
  lemma AssignKeepsTableValid(rows: seq<Assignment>, nextId: int, a: int, e: int)
    requires TableValid(rows, nextId)
    ensures TableValid(AssignRows(rows, nextId, a, e), NextIdAfterAssign(rows, nextId, a, e))
  {
    var r := AssignRows(rows, nextId, a, e);
    if FindAssignment(rows, a, e).None? {
      var y := Assignment(nextId, a, e, true);
      assert r == rows + [y];
      forall i | 0 <= i < |rows| ensures rows[i].id < nextId && !Pairs(rows[i], a, e) {
        assert rows[i] in rows;
      }
      forall x | x in r ensures x.id < nextId + 1 {
        if x != y {
          assert x in rows;
        }
      }
    } else if !FindAssignment(rows, a, e).value.active {
      forall x | x in r ensures x.id < nextId {
        var k :| 0 <= k < |r| && r[k] == x;
        assert rows[k] in rows;
      }
    }
  }

  /** assignEmployee is idempotent: a second assignment of the pair changes
      nothing, whatever id would have been handed out. */
  lemma AssignIdempotent(rows: seq<Assignment>, nextId: int, nextId': int, a: int, e: int)
    ensures AssignRows(AssignRows(rows, nextId, a, e), nextId', a, e) == AssignRows(rows, nextId, a, e)
    ensures NextIdAfterAssign(AssignRows(rows, nextId, a, e), nextId', a, e) == nextId'
  {
    AssignFindsActiveRow(rows, nextId, a, e);
  }

  /** The employees active on an activity after an assignment are those active
      before plus the assigned one, on its activity only. */
  lemma AssignedAfterAssign(rows: seq<Assignment>, nextId: int, a: int, e: int, a': int, x: int)
    ensures x in ActiveEmployeeIds(AssignRows(rows, nextId, a, e), a') <==>
      x in ActiveEmployeeIds(rows, a') || (a' == a && x == e)
  {
    var r := AssignRows(rows, nextId, a, e);
    match FindAssignment(rows, a, e)
    case Some(y) =>
      if !y.active {
        if x in ActiveEmployeeIds(r, a') {
          var z :| z in r && z.active && Pairs(z, a', x);
          var k :| 0 <= k < |r| && r[k] == z;
          assert rows[k] in rows;
        }
        if x in ActiveEmployeeIds(rows, a') {
          var z :| z in rows && z.active && Pairs(z, a', x);
          var k :| 0 <= k < |rows| && rows[k] == z;
          assert r[k] in r;
        }
        if a' == a && x == e {
          var k :| 0 <= k < |rows| && rows[k] == y;
          assert r[k] in r;
        }
      }
    case None =>
  }

  /** removeEmployee after the activity and the user were found: the pair's
      row must exist, and it is deactivated, not deleted. */
  function RemoveRows(rows: seq<Assignment>, activityId: int, employeeId: int): (r: Result<seq<Assignment>>)
    ensures r.Failure? <==> FindAssignment(rows, activityId, employeeId).None?
    ensures r.Failure? ==> r.error == AssignmentNotFound
    ensures r.Success? ==> |r.value| == |rows|
  {
    if FindAssignment(rows, activityId, employeeId).None? then Failure(AssignmentNotFound)
    else Success(SetActive(rows, activityId, employeeId, false))
  }

  /** After a removal the employee is no longer active on that activity, every
      other (activity, employee) pair keeps its state, and the row is still
      there, inactive. */
  lemma RemovedAfterRemove(rows: seq<Assignment>, a: int, e: int, a': int, x: int)
    requires RemoveRows(rows, a, e).Success?
    ensures x in ActiveEmployeeIds(RemoveRows(rows, a, e).value, a') <==>
      x in ActiveEmployeeIds(rows, a') && !(a' == a && x == e)
    ensures FindAssignment(RemoveRows(rows, a, e).value, a, e) ==
      Some(FindAssignment(rows, a, e).value.(active := false))
  {
    var r := RemoveRows(rows, a, e).value;
    FindAfterSetActive(rows, a, e, false, a, e);
    if x in ActiveEmployeeIds(r, a') {
      var z :| z in r && z.active && Pairs(z, a', x);
      var k :| 0 <= k < |r| && r[k] == z;
      assert rows[k] in rows;
    }
    if x in ActiveEmployeeIds(rows, a') && !(a' == a && x == e) {
      var z :| z in rows && z.active && Pairs(z, a', x);
      var k :| 0 <= k < |rows| && rows[k] == z;
      assert r[k] in r;
    }
  }

  /** Removing an active assignment and assigning it again gives back the
      table as it was: the same row, active again, and no new row. */
  lemma RemoveThenAssignRestores(rows: seq<Assignment>, nextId: int, a: int, e: int)
    requires TableValid(rows, nextId)
    requires FindAssignment(rows, a, e).Some? && FindAssignment(rows, a, e).value.active
    ensures RemoveRows(rows, a, e).Success?
    ensures AssignRows(RemoveRows(rows, a, e).value, nextId, a, e) == rows
  {
    var y := FindAssignment(rows, a, e).value;
    var removed := SetActive(rows, a, e, false);
    FindAfterSetActive(rows, a, e, false, a, e);
    var back := SetActive(removed, a, e, true);
    assert AssignRows(removed, nextId, a, e) == back;
    forall i | 0 <= i < |rows| ensures back[i] == rows[i] {
      if Pairs(rows[i], a, e) {
        var k :| 0 <= k < |rows| && rows[k] == y;
        assert rows[i] == y;
      }
    }
  }

  /** The checks assignEmployee makes before touching the table: the activity
      exists, the user exists, and the user is staff. */
  function CheckAssignee(activities: seq<Activity>, users: seq<User>, activityId: int, employeeId: int): (r: Result<User>)
    ensures r.Success? <==> FindActivity(activities, activityId).Some? && FindUserById(users, employeeId).Some?
                             && HoldsStaffRole(FindUserById(users, employeeId).value)
    ensures r.Success? ==> r.value in users && r.value.id == employeeId
    ensures FindActivity(activities, activityId).None? ==> r == Failure(ActivityNotFoundWithId(activityId))
    ensures FindActivity(activities, activityId).Some? && FindUserById(users, employeeId).None? ==>
      r == Failure(EmployeeNotFound(employeeId))
  {
    if FindActivity(activities, activityId).None? then Failure(ActivityNotFoundWithId(activityId))
    else if FindUserById(users, employeeId).None? then Failure(EmployeeNotFound(employeeId))
    else
      var u := FindUserById(users, employeeId).value;
      if !HoldsStaffRole(u) then Failure(NotAnEmployee) else Success(u)
  }

  /** The state threaded through assignEmployees: the table, the next id and
      the users assigned so far. */
  datatype Batch = Batch(rows: seq<Assignment>, nextId: int, staff: seq<User>)

  /** assignEmployees: assignEmployee applied to each id in list order; the
      first failure ends the batch and, the method being transactional,
      discards what the batch did. */
  function AssignAll(b: Batch, activities: seq<Activity>, users: seq<User>, activityId: int, ids: seq<int>): Result<Batch>
    decreases |ids|
  {
    if ids == [] then Success(b)
    else match CheckAssignee(activities, users, activityId, ids[0])
      case Failure(m) => Failure(m)
      case Success(u) =>
        AssignAll(Batch(AssignRows(b.rows, b.nextId, activityId, ids[0]),
                        NextIdAfterAssign(b.rows, b.nextId, activityId, ids[0]),
                        b.staff + [u]),
                  activities, users, activityId, ids[1..])
  }

  /** A batch fails exactly when one of its ids fails the checks, and then
      with the first such id's message. */
  lemma {:induction false} AssignAllFailsIff(b: Batch, activities: seq<Activity>, users: seq<User>, activityId: int, ids: seq<int>)
    ensures AssignAll(b, activities, users, activityId, ids).Failure? <==>
      exists i :: 0 <= i < |ids| && CheckAssignee(activities, users, activityId, ids[i]).Failure?
    decreases |ids|
  {
    if ids != [] {
      var c := CheckAssignee(activities, users, activityId, ids[0]);
      if c.Success? {
        var next := Batch(AssignRows(b.rows, b.nextId, activityId, ids[0]),
                          NextIdAfterAssign(b.rows, b.nextId, activityId, ids[0]), b.staff + [c.value]);
        AssignAllFailsIff(next, activities, users, activityId, ids[1..]);
        if exists i :: 0 <= i < |ids[1..]| && CheckAssignee(activities, users, activityId, ids[1..][i]).Failure? {
          var i :| 0 <= i < |ids[1..]| && CheckAssignee(activities, users, activityId, ids[1..][i]).Failure?;
          assert ids[i + 1] == ids[1..][i];
        }
        if exists i :: 0 <= i < |ids| && CheckAssignee(activities, users, activityId, ids[i]).Failure? {
          var i :| 0 <= i < |ids| && CheckAssignee(activities, users, activityId, ids[i]).Failure?;
          assert ids[1..][i - 1] == ids[i];
        }
      }
    }
  }

  /** A failed batch reports the message of its first rejected id. */
  lemma {:induction false} AssignAllReportsFirstRejection(b: Batch, activities: seq<Activity>, users: seq<User>, activityId: int, ids: seq<int>)
    requires AssignAll(b, activities, users, activityId, ids).Failure?
    ensures exists i :: (0 <= i < |ids| && CheckAssignee(activities, users, activityId, ids[i]).Failure?
      && AssignAll(b, activities, users, activityId, ids).error == CheckAssignee(activities, users, activityId, ids[i]).error
      && forall j :: 0 <= j < i ==> CheckAssignee(activities, users, activityId, ids[j]).Success?)
    decreases |ids|
  {
    var c := CheckAssignee(activities, users, activityId, ids[0]);
    if c.Success? {
      var next := Batch(AssignRows(b.rows, b.nextId, activityId, ids[0]),
                        NextIdAfterAssign(b.rows, b.nextId, activityId, ids[0]), b.staff + [c.value]);
      AssignAllReportsFirstRejection(next, activities, users, activityId, ids[1..]);
      var i :| 0 <= i < |ids[1..]| && CheckAssignee(activities, users, activityId, ids[1..][i]).Failure?
        && AssignAll(next, activities, users, activityId, ids[1..]).error == CheckAssignee(activities, users, activityId, ids[1..][i]).error
        && forall j :: 0 <= j < i ==> CheckAssignee(activities, users, activityId, ids[1..][j]).Success?;
      assert ids[i + 1] == ids[1..][i];
      forall j | 0 <= j < i + 1 ensures CheckAssignee(activities, users, activityId, ids[j]).Success? {
        if j > 0 {
          assert ids[j] == ids[1..][j - 1];
        }
      }
    } else {
      assert 0 < |ids|;
    }
  }

  /** A successful batch keeps the table valid. */
  lemma {:induction false} AssignAllKeepsTableValid(b: Batch, activities: seq<Activity>, users: seq<User>, activityId: int, ids: seq<int>)
    requires TableValid(b.rows, b.nextId)
    requires AssignAll(b, activities, users, activityId, ids).Success?
    ensures TableValid(AssignAll(b, activities, users, activityId, ids).value.rows,
                       AssignAll(b, activities, users, activityId, ids).value.nextId)
    decreases |ids|
  {
    if ids != [] {
      var u := CheckAssignee(activities, users, activityId, ids[0]).value;
      var next := Batch(AssignRows(b.rows, b.nextId, activityId, ids[0]),
                        NextIdAfterAssign(b.rows, b.nextId, activityId, ids[0]), b.staff + [u]);
      AssignKeepsTableValid(b.rows, b.nextId, activityId, ids[0]);
      AssignAllKeepsTableValid(next, activities, users, activityId, ids[1..]);
    }
  }

  /** A successful batch returns, after what it held, one user per id, in
      the order of the ids. */
  lemma {:induction false} AssignAllReturnsUsers(b: Batch, activities: seq<Activity>, users: seq<User>, activityId: int, ids: seq<int>)
    requires AssignAll(b, activities, users, activityId, ids).Success?
    ensures |AssignAll(b, activities, users, activityId, ids).value.staff| == |b.staff| + |ids|
    ensures AssignAll(b, activities, users, activityId, ids).value.staff[..|b.staff|] == b.staff
    ensures forall i :: |b.staff| <= i < |b.staff| + |ids| ==>
      AssignAll(b, activities, users, activityId, ids).value.staff[i] in users
      && AssignAll(b, activities, users, activityId, ids).value.staff[i].id == ids[i - |b.staff|]
    decreases |ids|
  {
    if ids != [] {
      var u := CheckAssignee(activities, users, activityId, ids[0]).value;
      assert u in users && u.id == ids[0];
      var next := Batch(AssignRows(b.rows, b.nextId, activityId, ids[0]),
                        NextIdAfterAssign(b.rows, b.nextId, activityId, ids[0]), b.staff + [u]);
      AssignAllReturnsUsers(next, activities, users, activityId, ids[1..]);
      var r := AssignAll(b, activities, users, activityId, ids).value;
      assert r == AssignAll(next, activities, users, activityId, ids[1..]).value;
      assert r.staff[..|b.staff|] == r.staff[..|next.staff|][..|b.staff|];
      forall i | |b.staff| <= i < |b.staff| + |ids| ensures r.staff[i] in users && r.staff[i].id == ids[i - |b.staff|] {
        if i == |b.staff| {
          assert r.staff[i] == r.staff[..|next.staff|][i] == next.staff[i] == u;
        } else {
          assert ids[i - |b.staff|] == ids[1..][i - |next.staff|];
        }
      }
    }
  }

  /** After a successful batch every id of it is active on the activity, and
      everyone who was active before still is. */
  lemma {:induction false} AssignAllActivates(b: Batch, activities: seq<Activity>, users: seq<User>, activityId: int, ids: seq<int>)
    requires AssignAll(b, activities, users, activityId, ids).Success?
    ensures var r := AssignAll(b, activities, users, activityId, ids).value;
      (forall i :: 0 <= i < |ids| ==> ids[i] in ActiveEmployeeIds(r.rows, activityId))
      && (forall x :: x in ActiveEmployeeIds(b.rows, activityId) ==> x in ActiveEmployeeIds(r.rows, activityId))
    decreases |ids|
  {
    if ids != [] {
      var u := CheckAssignee(activities, users, activityId, ids[0]).value;
      var next := Batch(AssignRows(b.rows, b.nextId, activityId, ids[0]),
                        NextIdAfterAssign(b.rows, b.nextId, activityId, ids[0]), b.staff + [u]);
      AssignAllActivates(next, activities, users, activityId, ids[1..]);
      var r := AssignAll(b, activities, users, activityId, ids).value;
      assert r == AssignAll(next, activities, users, activityId, ids[1..]).value;
      AssignedAfterAssign(b.rows, b.nextId, activityId, ids[0], activityId, ids[0]);
      forall x | x in ActiveEmployeeIds(b.rows, activityId) ensures x in ActiveEmployeeIds(next.rows, activityId) {
        AssignedAfterAssign(b.rows, b.nextId, activityId, ids[0], activityId, x);
      }
      forall i | 0 <= i < |ids| ensures ids[i] in ActiveEmployeeIds(r.rows, activityId) {
        if i > 0 {
          assert ids[i] == ids[1..][i - 1];
        }
      }
    }
  }

  /** The loop of assignEmployees, on values. */
  method StageAssignments(b: Batch, activities: seq<Activity>, users: seq<User>, activityId: int, ids: seq<int>)
    returns (r: Result<Batch>)
    ensures r == AssignAll(b, activities, users, activityId, ids)
  {
    var cur := b;
    var i := 0;
    while i < |ids|
      invariant 0 <= i <= |ids|
      invariant AssignAll(b, activities, users, activityId, ids) == AssignAll(cur, activities, users, activityId, ids[i..])
    {
      var c := CheckAssignee(activities, users, activityId, ids[i]);
      if c.Failure? {
        return Failure(c.error);
      }
      assert ids[i..][1..] == ids[i + 1..];
      cur := Batch(AssignRows(cur.rows, cur.nextId, activityId, ids[i]),
                   NextIdAfterAssign(cur.rows, cur.nextId, activityId, ids[i]), cur.staff + [c.value]);
      i := i + 1;
    }
    assert ids[i..] == [];
    return Success(cur);
  }

  /** The activity_employee table and the service operations that change it. */
  class AssignmentTable {
    var rows: seq<Assignment>
    var nextId: int

    predicate Valid()
      reads this
    {
      TableValid(rows, nextId)
    }

    constructor()
      ensures Valid() && rows == [] && nextId == 1
    {
      rows := [];
      nextId := 1;
    }

    /** getAssignedEmployees: the ids of the employees whose row for the
        activity is active. */
    function AssignedEmployees(activities: seq<Activity>, activityId: int): (r: Result<seq<int>>)
      requires Valid()
      reads this
      ensures r.Failure? <==> FindActivity(activities, activityId).None?
      ensures r.Failure? ==> r.error == ActivityNotFoundWithId(activityId)
      ensures r.Success? ==> forall e :: e in r.value <==>
        FindAssignment(rows, activityId, e).Some? && FindAssignment(rows, activityId, e).value.active
    {
      if FindActivity(activities, activityId).None? then Failure(ActivityNotFoundWithId(activityId))
      else
        var ids := ActiveEmployeeIds(rows, activityId);
        assert forall e :: e in ids <==>
          FindAssignment(rows, activityId, e).Some? && FindAssignment(rows, activityId, e).value.active by {
          forall e ensures e in ids <==>
            FindAssignment(rows, activityId, e).Some? && FindAssignment(rows, activityId, e).value.active
          {
            if e in ids {
              var x :| x in rows && x.active && Pairs(x, activityId, e);
              UniquePairFound(rows, nextId, x);
            }
          }
        }
        Success(ids)
    }

    /** assignEmployee. */
    method AssignEmployee(activities: seq<Activity>, users: seq<User>, activityId: int, employeeId: int)
      returns (r: Result<User>)
      requires Valid()
      modifies this
      ensures Valid()
      ensures r == CheckAssignee(activities, users, activityId, employeeId)
      ensures r.Failure? ==> rows == old(rows) && nextId == old(nextId)
      ensures r.Success? ==>
        rows == AssignRows(old(rows), old(nextId), activityId, employeeId)
        && nextId == NextIdAfterAssign(old(rows), old(nextId), activityId, employeeId)
    {
      r := CheckAssignee(activities, users, activityId, employeeId);
      if r.Success? {
        AssignKeepsTableValid(rows, nextId, activityId, employeeId);
        rows, nextId := AssignRows(rows, nextId, activityId, employeeId),
                        NextIdAfterAssign(rows, nextId, activityId, employeeId);
      }
    }

    /** removeEmployee: a soft delete of an existing pair. */
    method RemoveEmployee(activities: seq<Activity>, users: seq<User>, activityId: int, employeeId: int)
      returns (r: Outcome)
      requires Valid()
      modifies this
      ensures Valid() && nextId == old(nextId)
      ensures FindActivity(activities, activityId).None? ==> r == Fail(ActivityNotFoundWithId(activityId))
      ensures FindActivity(activities, activityId).Some? && FindUserById(users, employeeId).None? ==>
        r == Fail(EmployeeNotFound(employeeId))
      ensures FindActivity(activities, activityId).Some? && FindUserById(users, employeeId).Some? ==>
        (r.Pass? <==> RemoveRows(old(rows), activityId, employeeId).Success?)
        && (r.Fail? ==> r.error == AssignmentNotFound)
      ensures r.Fail? ==> rows == old(rows)
      ensures r.Pass? ==> rows == RemoveRows(old(rows), activityId, employeeId).value
    {
      if FindActivity(activities, activityId).None? {
        return Fail(ActivityNotFoundWithId(activityId));
      }
      if FindUserById(users, employeeId).None? {
        return Fail(EmployeeNotFound(employeeId));
      }
      var removed := RemoveRows(rows, activityId, employeeId);
      if removed.Failure? {
        return Fail(removed.error);
      }
      forall x | x in removed.value ensures x.id < nextId {
        var k :| 0 <= k < |removed.value| && removed.value[k] == x;
        assert rows[k] in rows;
      }
      rows := removed.value;
      r := Pass;
    }

    /** assignEmployees: all ids or none. */
    method AssignEmployees(activities: seq<Activity>, users: seq<User>, activityId: int, ids: seq<int>)
      returns (r: Result<seq<User>>)
      requires Valid()
      modifies this
      ensures Valid()
      ensures FindActivity(activities, activityId).None? ==> r == Failure(ActivityNotFoundWithId(activityId))
      ensures FindActivity(activities, activityId).Some? ==>
        var batch := AssignAll(Batch(old(rows), old(nextId), []), activities, users, activityId, ids);
        (r.Success? <==> batch.Success?)
        && (r.Success? ==> r.value == batch.value.staff && rows == batch.value.rows && nextId == batch.value.nextId)
      ensures r.Failure? ==> rows == old(rows) && nextId == old(nextId)
    {
      if FindActivity(activities, activityId).None? {
        return Failure(ActivityNotFoundWithId(activityId));
      }
      var staged := StageAssignments(Batch(rows, nextId, []), activities, users, activityId, ids);
      if staged.Failure? {
        return Failure(staged.error);
      }
      AssignAllKeepsTableValid(Batch(rows, nextId, []), activities, users, activityId, ids);
      rows, nextId := staged.value.rows, staged.value.nextId;
      r := Success(staged.value.staff);
    }
  }

  /** In a valid table the lookup of a stored row's pair finds that row. */
  lemma UniquePairFound(rows: seq<Assignment>, nextId: int, x: Assignment)
    requires TableValid(rows, nextId) && x in rows
    ensures FindAssignment(rows, x.activityId, x.employeeId) == Some(x)
  {
    var y := FindAssignment(rows, x.activityId, x.employeeId).value;
    var i :| 0 <= i < |rows| && rows[i] == x;
    var j :| 0 <= j < |rows| && rows[j] == y;
  }
}

=== FILE: booking.dfy ===
/** The Booking entity (booking/entity/Booking.java): who booked which activity,
    when, with which employee, and how much of its price has been paid.
    Amounts are in cents. */
module Bookings {
  import opened Wrappers
  import opened Strings
  import opened Times
  import opened Activities
  import opened Staff

  datatype BookingStatus = Pending | Confirmed | Cancelled | Completed

  datatype PaymentStatus = Unpaid | DepositPaid | FullyPaid | PartiallyRefunded | FullyRefunded

  datatype Booking = Booking(
    id: int,
    activity: Activity,
    user: Option<User>,
    guestName: Option<string>,
    guestPhone: Option<string>,
    guestEmail: Option<string>,
    employee: User,
    bookingDate: Date,
    startTime: TimeOfDay,
    endTime: TimeOfDay,
    numberOfParticipants: int,
    totalPrice: int,
    depositPaid: int,
    status: BookingStatus,
    paymentStatus: PaymentStatus,
    paidAmount: int,
    remainingAmount: int,
    willPayRemainingCash: bool,
    confirmedAt: Option<DateTime>,
    paymentDeadline: Option<DateTime>)

  /** The enum constant's name, as `name()` returns it. */
  function StatusName(s: BookingStatus): string {
    match s
    case Pending => "PENDING"
    case Confirmed => "CONFIRMED"
    case Cancelled => "CANCELLED"
    case Completed => "COMPLETED"
  }

  /** `BookingStatus.valueOf(s.toUpperCase())`; None where valueOf throws. */
  function ParseBookingStatus(s: string): (r: Option<BookingStatus>)
    ensures r.Some? ==> StatusName(r.value) == ToUpper(s)
  {
    var u := ToUpper(s);
    if u == "PENDING" then Some(Pending)
    else if u == "CONFIRMED" then Some(Confirmed)
    else if u == "CANCELLED" then Some(Cancelled)
    else if u == "COMPLETED" then Some(Completed)
    else None
  }

  /** Every status name parses back to its status, in any ASCII letter case. */
  lemma ParseStatusName(st: BookingStatus)
    ensures ParseBookingStatus(StatusName(st)) == Some(st)
    ensures ParseBookingStatus(ToLower(StatusName(st))) == Some(st)
  {
    var n := StatusName(st);
    assert ToUpper(n) == n;
    assert ToUpper(ToLower(n)) == n;
  }

  /** A guest booking is one without a registered user. */
  predicate IsGuestBooking(b: Booking) {
    b.user.None?
  }

  /** getCustomerName: the user's "first last", else the guest name. */
  function CustomerName(b: Booking): (r: Option<string>)
    ensures !IsGuestBooking(b) ==> r.Some? && |r.value| > |b.user.value.firstName|
    ensures !IsGuestBooking(b) ==> (StartsWith(r.value, b.user.value.firstName)
      && r.value[|b.user.value.firstName|] == ' ' && EndsWith(r.value, b.user.value.lastName))
    ensures !IsGuestBooking(b) ==> |r.value| == |b.user.value.firstName| + 1 + |b.user.value.lastName|
    ensures IsGuestBooking(b) ==> r == b.guestName
  {
    if b.user.Some? then Some(b.user.value.firstName + " " + b.user.value.lastName) else b.guestName
  }

  /** getCustomerContact: the user's email, else the guest email, else the guest phone. */
  function CustomerContact(b: Booking): (r: Option<string>)
    ensures !IsGuestBooking(b) ==> r == Some(b.user.value.email)
    ensures IsGuestBooking(b) && b.guestEmail.Some? ==> r == b.guestEmail
    ensures IsGuestBooking(b) && b.guestEmail.None? ==> r == b.guestPhone
  {
    if b.user.Some? then Some(b.user.value.email)
    else if b.guestEmail.Some? then b.guestEmail
    else b.guestPhone
  }

  /** calculateRemainingAmount, run before every insert and update: the
      remaining amount becomes the total minus what has been paid. */
  function RecalculateRemaining(b: Booking): (r: Booking)
    ensures r.paidAmount + r.remainingAmount == r.totalPrice
    ensures r.(remainingAmount := b.remainingAmount) == b
  {
    b.(remainingAmount := b.totalPrice - b.paidAmount)
  }

  /** Recalculating twice is recalculating once. */
  lemma RecalculateIdempotent(b: Booking)
    ensures RecalculateRemaining(RecalculateRemaining(b)) == RecalculateRemaining(b)
  {
  }

  /** `bookingRepository.findById`. */
  function FindBooking(store: seq<Booking>, id: int): (r: Option<Booking>)
    ensures r.Some? ==> r.value in store && r.value.id == id
    ensures r.None? <==> forall b :: b in store ==> b.id != id
  {
    if store == [] then None
    else if store[0].id == id then Some(store[0])
    else FindBooking(store[1..], id)
  }
}

=== FILE: booking_validation.dfy ===
/** Booking request checks (booking/service/BookingValidationService.java). */
module BookingValidation {
  import opened Wrappers
  import opened Strings
  import opened Times
  import opened Activities
  import opened Bookings

  /** validateParticipantCount: the party must lie between the activity's
      minimum and maximum, both inclusive. */
  function ValidateParticipantCount(activity: Activity, participants: int): (r: Outcome)
    ensures r.Pass? <==> activity.minParticipants <= participants <= activity.maxParticipants
    ensures r.Fail? ==> r.error == ParticipantRangeMessage(activity)
  {
    if participants < activity.minParticipants || participants > activity.maxParticipants then
      Fail(ParticipantRangeMessage(activity))
    else Pass
  }

  function ParticipantRangeMessage(activity: Activity): string {
    "Invalid number of participants. Must be between "
      + IntToString(activity.minParticipants) + " and " + IntToString(activity.maxParticipants)
  }

  /** validateGuestBookingData: a guest must give a non-blank name and phone;
      the name is checked first. */
  function ValidateGuestBookingData(guestName: Option<string>, guestPhone: Option<string>): (r: Outcome)
    ensures r.Pass? <==> !IsBlank(guestName) && !IsBlank(guestPhone)
    ensures IsBlank(guestName) ==> r == Fail("Guest name is required")
    ensures !IsBlank(guestName) && IsBlank(guestPhone) ==> r == Fail("Guest phone is required")
  {
    if IsBlank(guestName) then Fail("Guest name is required")
    else if IsBlank(guestPhone) then Fail("Guest phone is required")
    else Pass
  }

  /** canAcceptPayment: only a confirmed booking whose payment deadline has not
      passed and that is not fully paid takes a payment. */
  function CanAcceptPayment(store: seq<Booking>, bookingId: int, now: DateTime): (r: Result<bool>)
    ensures r.Failure? <==> FindBooking(store, bookingId).None?
    ensures r.Failure? ==> r.error == "Booking not found"
    ensures r.Success? ==> (r.value <==> var b := FindBooking(store, bookingId).value;
      b.status == Confirmed && !(b.paymentDeadline.Some? && now > b.paymentDeadline.value) && b.paymentStatus != FullyPaid)
  {
    match FindBooking(store, bookingId)
    case None => Failure("Booking not found")
    case Some(b) =>
      if b.status != Confirmed then Success(false)
      else if b.paymentDeadline.Some? && now > b.paymentDeadline.value then Success(false)
      else Success(b.paymentStatus != FullyPaid)
  }

  /** validateStatusTransition: every transition is allowed. */
  function ValidateStatusTransition(current: BookingStatus, next: BookingStatus): (r: Outcome)
    ensures r.Pass?
  {
    Pass
  }
}

=== FILE: bookingservice.dfy ===
/** Booking life cycle (booking/service/BookingService.java): creation for a
    registered user or a guest, status changes with the 24-hour payment
    deadline, re-assignment to another employee, cancellation, and the hourly
    sweep that cancels confirmed bookings whose deadline passed unpaid. The
    clock is the `now` parameter. */
module BookingService {
  import opened Wrappers
  import opened Strings
  import opened Numerics
  import opened Times
  import opened Activities
  import opened Staff
  import opened Bookings
  import opened Capacity
  import opened Scheduling
  import opened BookingValidation
  import opened Repository

  /** The deposit of a booking: `total * depositPercent / 100` rounded half-up
      to the cent (percent in hundredths, so the divisor is 10000). */
  function BookingDeposit(total: int, depositPercent: int): int {
    RoundHalfUp(total * depositPercent, 10000)
  }

  /** The deposit is within half a cent of the exact share, never negative for
      a non-negative price and share, never above the total, and the whole
      total at 100%. */
  lemma DepositFacts(total: int, depositPercent: int)
    ensures -5000 <= BookingDeposit(total, depositPercent) * 10000 - total * depositPercent <= 5000
    ensures total >= 0 && 0 <= depositPercent <= 10000 ==> 0 <= BookingDeposit(total, depositPercent) <= total
    ensures depositPercent == 10000 ==> BookingDeposit(total, depositPercent) == total
  {
    var d := BookingDeposit(total, depositPercent);
    if total >= 0 && 0 <= depositPercent <= 10000 {
      assert total * depositPercent <= total * 10000;
      assert 0 <= total * depositPercent;
    }
    if depositPercent == 10000 {
      assert -5000 <= (d - total) * 10000 <= 5000;
    }
  }

  /** For n people, the deposit is within half a cent of n times the activity's
      per-person deposit (`Activity.calculateDeposit`, in millionths). */
  lemma DepositMatchesPerPerson(a: Activity, n: int)
    ensures -5000 <= BookingDeposit(a.pricePerPerson * n, a.depositPercent) * 10000 - n * CalculateDeposit(a) <= 5000
  {
    DepositFacts(a.pricePerPerson * n, a.depositPercent);
    assert a.pricePerPerson * n * a.depositPercent == n * (a.pricePerPerson * a.depositPercent);
  }

  /** The fields every new booking starts with: the price, the deposit, the end
      time, pending and unpaid with nothing paid yet. */
  predicate FreshBooking(b: Booking, activity: Activity, date: Date, start: TimeOfDay, participants: int) {
    b.activity == activity && b.bookingDate == date && b.startTime == start
    && b.endTime == PlusMinutes(start, activity.durationMinutes)
    && b.numberOfParticipants == participants
    && b.totalPrice == activity.pricePerPerson * participants
    && b.depositPaid == BookingDeposit(b.totalPrice, activity.depositPercent)
    && b.status == Pending && b.paymentStatus == Unpaid
    && b.paidAmount == 0 && b.remainingAmount == b.totalPrice
    && !b.willPayRemainingCash && b.confirmedAt.None? && b.paymentDeadline.None?
  }

  /** Some enabled employee can take the booking. */
  predicate Bookable(store: seq<Booking>, users: seq<User>, activity: Activity, date: Date, start: TimeOfDay, participants: int) {
    SomeoneCanHandle(store, ActiveEmployees(users), date, start, PlusMinutes(start, activity.durationMinutes), activity, participants)
  }

  /** What a stored new booking promises: the employee could take it, and with
      it stored the employee's overlapping group shares one category and
      location and stays within the per-guide maximum. */
  predicate AssignedWithinCapacity(before: seq<Booking>, after: seq<Booking>, users: seq<User>, b: Booking) {
    b.employee in users && IsActiveEmployee(b.employee)
    && CanEmployeeHandleBooking(before, b.employee, b.bookingDate, b.startTime, b.endTime, b.activity, b.numberOfParticipants, None)
    && (b.startTime < b.endTime ==>
          var group := OverlappingBookings(BookingsOf(after, b.employee.id, b.bookingDate), b.startTime, b.endTime, None);
          b in group
          && (group == [b]
              || (b.activity.category.Some? && Compatible(group[..|group| - 1], b.activity)
                  && SumParticipants(group) <= b.activity.category.value.maxParticipantsPerGuide)))
  }

  /** The part both creation paths share once the request is validated: price
      it, pick the first employee who can take it, and store it. The employee
      search fails first when the role table (`roleNames`) has no
      ROLE_EMPLOYEE row. */
  method PlaceBooking(repo: BookingRepository, users: seq<User>, roleNames: set<string>, activity: Activity,
                      date: Date, start: TimeOfDay, participants: int, user: Option<User>,
                      guestName: Option<string>, guestPhone: Option<string>, guestEmail: Option<string>)
    returns (r: Result<Booking>)
    requires repo.Valid()
    modifies repo
    ensures repo.Valid()
    ensures RoleEmployee !in roleNames ==> r == Failure(RoleNotFoundMessage)
    ensures RoleEmployee in roleNames ==>
      (r.Success? <==> Bookable(old(repo.bookings), users, activity, date, start, participants))
    ensures RoleEmployee in roleNames && r.Failure? ==> r.error == "No employee available for this time slot"
    ensures r.Failure? ==> repo.bookings == old(repo.bookings) && repo.nextId == old(repo.nextId)
    ensures r.Success? ==> (repo.bookings == old(repo.bookings) + [r.value] && r.value.id == old(repo.nextId)
      && FreshBooking(r.value, activity, date, start, participants)
      && r.value.user == user && r.value.guestName == guestName
      && r.value.guestPhone == guestPhone && r.value.guestEmail == guestEmail
      && AssignedWithinCapacity(old(repo.bookings), repo.bookings, users, r.value))
    ensures r.Success? ==> exists k :: (0 <= k < |ActiveEmployees(users)| && ActiveEmployees(users)[k] == r.value.employee
      && forall j :: 0 <= j < k ==> !CanEmployeeHandleBooking(old(repo.bookings), ActiveEmployees(users)[j], date, start,
                                                              PlusMinutes(start, activity.durationMinutes), activity,
                                                              participants, None))
  {
    var total := activity.pricePerPerson * participants;
    var deposit := BookingDeposit(total, activity.depositPercent);
    var end := PlusMinutes(start, activity.durationMinutes);
    var found := FindAvailableEmployee(repo.bookings, users, roleNames, date, start, end, activity, participants);
    if found.Failure? {
      return Failure(found.error);
    }
    var employee := found.value;
    if employee.None? {
      forall e | e in ActiveEmployees(users)
        ensures !CanEmployeeHandleBooking(repo.bookings, e, date, start, end, activity, participants, None)
      {
      }
      return Failure("No employee available for this time slot");
    }
    assert employee.value in ActiveEmployees(users);
    var b := Booking(0, activity, user, guestName, guestPhone, guestEmail, employee.value, date, start, end,
                     participants, total, deposit, Pending, Unpaid, 0, total, false, None, None);
    ghost var before := repo.bookings;
    var saved := repo.Insert(b);
    if saved.startTime < saved.endTime {
      AcceptedBookingKeepsCapacity(before, saved);
    }
    r := Success(saved);
  }

  /** createBooking: the user and the activity must exist and the party size
      must be allowed before anything is priced or assigned. */
  method CreateBooking(repo: BookingRepository, users: seq<User>, roleNames: set<string>, activities: seq<Activity>,
                       username: string, activityId: int, date: Date, start: TimeOfDay, participants: int)
    returns (r: Result<Booking>)
    requires repo.Valid()
    modifies repo
    ensures repo.Valid()
    ensures r.Failure? ==> repo.bookings == old(repo.bookings) && repo.nextId == old(repo.nextId)
    ensures FindUserByUsername(users, username).None? ==> r == Failure("User not found")
    ensures FindUserByUsername(users, username).Some? && FindActivity(activities, activityId).None?
      ==> r == Failure("Activity not found")
    ensures FindUserByUsername(users, username).Some? && FindActivity(activities, activityId).Some?
      ==> var activity := FindActivity(activities, activityId).value;
          (ValidateParticipantCount(activity, participants).Fail? ==>
             r == Failure(ValidateParticipantCount(activity, participants).error))
          && (ValidateParticipantCount(activity, participants).Pass? && RoleEmployee !in roleNames ==>
             r == Failure(RoleNotFoundMessage))
          && (ValidateParticipantCount(activity, participants).Pass? && RoleEmployee in roleNames ==>
             (r.Success? <==> Bookable(old(repo.bookings), users, activity, date, start, participants)))
    ensures r.Success? ==> (FindUserByUsername(users, username).Some? && FindActivity(activities, activityId).Some?
      && repo.bookings == old(repo.bookings) + [r.value] && r.value.id == old(repo.nextId)
      && FreshBooking(r.value, FindActivity(activities, activityId).value, date, start, participants)
      && r.value.user == FindUserByUsername(users, username) && r.value.guestName.None?
      && AssignedWithinCapacity(old(repo.bookings), repo.bookings, users, r.value))
  {
    var user := FindUserByUsername(users, username);
    if user.None? {
      return Failure("User not found");
    }
    var activity := FindActivity(activities, activityId);
    if activity.None? {
      return Failure("Activity not found");
    }
    var check := ValidateParticipantCount(activity.value, participants);
    if check.Fail? {
      return Failure(check.error);
    }
    r := PlaceBooking(repo, users, roleNames, activity.value, date, start, participants, user, None, None, None);
  }

  /** createGuestBooking: the activity must exist, then the guest's name and
      phone are checked, then the party size. */
  method CreateGuestBooking(repo: BookingRepository, users: seq<User>, roleNames: set<string>,
                            activities: seq<Activity>, activityId: int,
                            guestName: Option<string>, guestPhone: Option<string>, guestEmail: Option<string>,
                            date: Date, start: TimeOfDay, participants: int) returns (r: Result<Booking>)
    requires repo.Valid()
    modifies repo
    ensures repo.Valid()
    ensures r.Failure? ==> repo.bookings == old(repo.bookings) && repo.nextId == old(repo.nextId)
    ensures FindActivity(activities, activityId).None? ==> r == Failure("Activity not found")
    ensures FindActivity(activities, activityId).Some? && ValidateGuestBookingData(guestName, guestPhone).Fail?
      ==> r == Failure(ValidateGuestBookingData(guestName, guestPhone).error)
    ensures FindActivity(activities, activityId).Some? && ValidateGuestBookingData(guestName, guestPhone).Pass?
      ==> var activity := FindActivity(activities, activityId).value;
          (ValidateParticipantCount(activity, participants).Fail? ==>
             r == Failure(ValidateParticipantCount(activity, participants).error))
          && (ValidateParticipantCount(activity, participants).Pass? && RoleEmployee !in roleNames ==>
             r == Failure(RoleNotFoundMessage))
          && (ValidateParticipantCount(activity, participants).Pass? && RoleEmployee in roleNames ==>
             (r.Success? <==> Bookable(old(repo.bookings), users, activity, date, start, participants)))
    ensures r.Success? ==> (FindActivity(activities, activityId).Some?
      && repo.bookings == old(repo.bookings) + [r.value] && r.value.id == old(repo.nextId)
      && FreshBooking(r.value, FindActivity(activities, activityId).value, date, start, participants)
      && IsGuestBooking(r.value) && !IsBlank(r.value.guestName) && !IsBlank(r.value.guestPhone)
      && r.value.guestEmail == guestEmail
      && AssignedWithinCapacity(old(repo.bookings), repo.bookings, users, r.value))
  {
    var activity := FindActivity(activities, activityId);
    if activity.None? {
      return Failure("Activity not found");
    }
    var guest := ValidateGuestBookingData(guestName, guestPhone);
    if guest.Fail? {
      return Failure(guest.error);
    }
    var check := ValidateParticipantCount(activity.value, participants);
    if check.Fail? {
      return Failure(check.error);
    }
    r := PlaceBooking(repo, users, roleNames, activity.value, date, start, participants, None, guestName, guestPhone, guestEmail);
  }

  /** The entity after `setStatus`, with the first move into CONFIRMED stamping
      the confirmation time and a payment deadline 24 hours later. */
  function ApplyStatus(b: Booking, status: BookingStatus, now: DateTime): (r: Booking)
    ensures r.status == status
    ensures status == Confirmed && b.confirmedAt.None?
      ==> r.confirmedAt == Some(now) && r.paymentDeadline == Some(PlusHours(now, 24))
    ensures !(status == Confirmed && b.confirmedAt.None?)
      ==> r.confirmedAt == b.confirmedAt && r.paymentDeadline == b.paymentDeadline
    ensures r.(status := b.status, confirmedAt := b.confirmedAt, paymentDeadline := b.paymentDeadline) == b
  {
    var updated := b.(status := status);
    if status == Confirmed && b.confirmedAt.None? then
      updated.(confirmedAt := Some(now), paymentDeadline := Some(PlusHours(now, 24)))
    else updated
  }

  /** A confirmed booking's deadline is one day after its confirmation. */
  predicate DeadlineFollowsConfirmation(b: Booking) {
    b.confirmedAt.Some? ==> b.paymentDeadline == Some(PlusHours(b.confirmedAt.value, 24))
  }

  /** The payment deadline of a confirmed booking is exactly one day, 1440
      minutes, after its confirmation. */
  lemma DeadlineIsOneDayLater(b: Booking)
    requires DeadlineFollowsConfirmation(b) && b.confirmedAt.Some?
    ensures b.paymentDeadline.Some? && b.paymentDeadline.value == b.confirmedAt.value + MinutesPerDay
  {
  }

  /** Status changes keep the deadline one day after the confirmation, and
      confirming again later moves neither the confirmation nor the deadline. */
  lemma StatusChangesKeepDeadline(b: Booking, status: BookingStatus, now: DateTime, later: DateTime)
    requires DeadlineFollowsConfirmation(b)
    ensures DeadlineFollowsConfirmation(ApplyStatus(b, status, now))
    ensures ApplyStatus(ApplyStatus(b, Confirmed, now), Confirmed, later) == ApplyStatus(b, Confirmed, now)
    ensures ApplyStatus(ApplyStatus(b, status, now), Confirmed, later).confirmedAt.value
         == (if b.confirmedAt.Some? then b.confirmedAt.value else if status == Confirmed then now else later)
  {
  }

  /** updateBookingStatus: an unknown id or status string is refused;
      otherwise the booking gets the new status (every transition is allowed). */
  method UpdateBookingStatus(repo: BookingRepository, bookingId: int, statusString: string, now: DateTime)
    returns (r: Result<Booking>)
    requires repo.Valid()
    modifies repo
    ensures repo.Valid() && repo.nextId == old(repo.nextId)
    ensures FindBooking(old(repo.bookings), bookingId).None? ==> r == Failure("Booking not found")
    ensures FindBooking(old(repo.bookings), bookingId).Some? && ParseBookingStatus(statusString).None?
      ==> r == Failure("Invalid status: " + statusString)
    ensures r.Failure? ==> repo.bookings == old(repo.bookings)
    ensures r.Success? <==> FindBooking(old(repo.bookings), bookingId).Some? && ParseBookingStatus(statusString).Some?
    ensures r.Success? ==> (r.value == ApplyStatus(FindBooking(old(repo.bookings), bookingId).value, ParseBookingStatus(statusString).value, now)
      && repo.bookings == ReplaceById(old(repo.bookings), r.value))
  {
    var found := FindBooking(repo.bookings, bookingId);
    if found.None? {
      return Failure("Booking not found");
    }
    var status := ParseBookingStatus(statusString);
    if status.None? {
      return Failure("Invalid status: " + statusString);
    }
    var transition := ValidateStatusTransition(found.value.status, status.value);
    assert transition.Pass?;
    var updated := ApplyStatus(found.value, status.value, now);
    assert Settled(found.value) && updated.id == bookingId;
    assert RecalculateRemaining(updated) == updated;
    var saved := repo.Update(updated);
    r := Success(saved);
  }

  /** updateBookingEmployee: the new employee must exist, the role table must
      hold ROLE_EMPLOYEE (`roleNames` are the names of its rows), the employee
      must hold that role and be able to take the booking next to their own
      bookings (this booking itself left out of the count); only the employee
      field changes. */
  method UpdateBookingEmployee(repo: BookingRepository, users: seq<User>, roleNames: set<string>, bookingId: int,
                               employeeId: int)
    returns (r: Result<Booking>)
    requires repo.Valid()
    modifies repo
    ensures repo.Valid() && repo.nextId == old(repo.nextId)
    ensures r.Failure? ==> repo.bookings == old(repo.bookings)
    ensures FindBooking(old(repo.bookings), bookingId).None? ==> r == Failure("Booking not found")
    ensures FindBooking(old(repo.bookings), bookingId).Some? && FindUserById(users, employeeId).None?
      ==> r == Failure("Employee with ID " + IntToString(employeeId) + " not found")
    ensures FindBooking(old(repo.bookings), bookingId).Some? && FindUserById(users, employeeId).Some?
            && RoleEmployee !in roleNames
      ==> r == Failure(RoleNotFoundMessage)
    ensures FindBooking(old(repo.bookings), bookingId).Some? && FindUserById(users, employeeId).Some?
            && RoleEmployee in roleNames
      ==> var b := FindBooking(old(repo.bookings), bookingId).value;
          var e := FindUserById(users, employeeId).value;
          (RoleEmployee !in e.roles ==> r == Failure("User is not an employee"))
          && (RoleEmployee in e.roles
              ==> if CanEmployeeHandleBooking(old(repo.bookings), e, b.bookingDate, b.startTime, b.endTime,
                                              b.activity, b.numberOfParticipants, Some(b.id))
                  then r == Success(b.(employee := e)) && repo.bookings == ReplaceById(old(repo.bookings), r.value)
                  else r == Failure("Employee cannot handle this booking due to capacity limits"))
  {
    var found := FindBooking(repo.bookings, bookingId);
    if found.None? {
      return Failure("Booking not found");
    }
    var employee := FindUserById(users, employeeId);
    if employee.None? {
      return Failure("Employee with ID " + IntToString(employeeId) + " not found");
    }
    if RoleEmployee !in roleNames {
      return Failure(RoleNotFoundMessage);
    }
    var b, e := found.value, employee.value;
    if RoleEmployee !in e.roles {
      return Failure("User is not an employee");
    }
    if !CanEmployeeHandleBooking(repo.bookings, e, b.bookingDate, b.startTime, b.endTime,
                                 b.activity, b.numberOfParticipants, Some(b.id)) {
      return Failure("Employee cannot handle this booking due to capacity limits");
    }
    var updated := b.(employee := e);
    assert Settled(b) && updated.id == bookingId;
    assert RecalculateRemaining(updated) == updated;
    var saved := repo.Update(updated);
    r := Success(saved);
  }

  /** cancelBooking: any existing booking becomes CANCELLED, whatever its state. */
  method CancelBooking(repo: BookingRepository, bookingId: int) returns (r: Outcome)
    requires repo.Valid()
    modifies repo
    ensures repo.Valid() && repo.nextId == old(repo.nextId)
    ensures r.Fail? <==> FindBooking(old(repo.bookings), bookingId).None?
    ensures r.Fail? ==> r.error == "Booking not found" && repo.bookings == old(repo.bookings)
    ensures r.Pass? ==> repo.bookings == ReplaceById(old(repo.bookings),
                                                     FindBooking(old(repo.bookings), bookingId).value.(status := Cancelled))
  {
    var found := FindBooking(repo.bookings, bookingId);
    if found.None? {
      return Fail("Booking not found");
    }
    var cancelled := found.value.(status := Cancelled);
    assert Settled(found.value) && cancelled.id == bookingId;
    assert RecalculateRemaining(cancelled) == cancelled;
    var _ := repo.Update(cancelled);
    r := Pass;
  }

  /** A confirmed booking still unpaid after its deadline. */
  predicate IsExpired(b: Booking, now: DateTime) {
    b.status == Confirmed && b.paymentStatus == Unpaid && b.paymentDeadline.Some? && now > b.paymentDeadline.value
  }

  /** The stream filter of cancelExpiredBookings, in store order. */
  function ExpiredBookings(store: seq<Booking>, now: DateTime): (r: seq<Booking>)
    ensures forall b :: b in r <==> b in store && IsExpired(b, now)
  {
    if store == [] then []
    else if IsExpired(store[0], now) then [store[0]] + ExpiredBookings(store[1..], now)
    else ExpiredBookings(store[1..], now)
  }

  /** What the sweep does to one booking. */
  function Expire(b: Booking, now: DateTime): Booking {
    if IsExpired(b, now) then b.(status := Cancelled) else b
  }

  /** The table after the sweep: exactly the expired bookings are cancelled. */
  function SweepExpired(store: seq<Booking>, now: DateTime): (r: seq<Booking>)
    ensures |r| == |store|
    ensures forall k :: 0 <= k < |store| ==> r[k] == Expire(store[k], now)
  {
    seq(|store|, k requires 0 <= k < |store| => Expire(store[k], now))
  }

  /** After a sweep nothing is left expired, a second sweep at the same time
      changes nothing, and only statuses change. */
  lemma SweepFacts(store: seq<Booking>, now: DateTime)
    ensures forall b :: b in SweepExpired(store, now) ==> !IsExpired(b, now)
    ensures SweepExpired(SweepExpired(store, now), now) == SweepExpired(store, now)
    ensures forall k :: 0 <= k < |store| ==>
      SweepExpired(store, now)[k].(status := store[k].status) == store[k]
      && (SweepExpired(store, now)[k] != store[k] <==> IsExpired(store[k], now))
  {
  }

  /** A later sweep cancels everything an earlier one did. */
  lemma LaterSweepCancelsMore(store: seq<Booking>, earlier: DateTime, later: DateTime)
    requires earlier <= later
    ensures forall k :: (0 <= k < |store| && SweepExpired(store, earlier)[k].status == Cancelled
      ==> SweepExpired(store, later)[k].status == Cancelled)
  {
  }

  lemma {:induction false} FindAfterSweep(store: seq<Booking>, now: DateTime, id: int)
    ensures FindBooking(SweepExpired(store, now), id)
         == (if FindBooking(store, id).Some? then Some(Expire(FindBooking(store, id).value, now)) else None)
  {
    if store != [] {
      assert SweepExpired(store, now)[1..] == SweepExpired(store[1..], now);
      FindAfterSweep(store[1..], now, id);
    }
  }

  /** The sweep never changes whether a booking can take a payment at the
      sweep's own time: an expired booking could not take one before either. */
  lemma SweepKeepsPaymentAnswer(store: seq<Booking>, now: DateTime, id: int)
    ensures CanAcceptPayment(SweepExpired(store, now), id, now) == CanAcceptPayment(store, id, now)
  {
    FindAfterSweep(store, now, id);
  }

  /** One turn of the sweep loop: cancelling the i-th expired booking extends
      the cancelled prefix by one. */
  lemma SweepStep(before: seq<Booking>, current: seq<Booking>, after: seq<Booking>, expired: seq<Booking>, i: nat,
                  now: DateTime)
    requires i < |expired| && expired[i] in before && IsExpired(expired[i], now)
    requires UniqueIds(before) && forall x :: x in before ==> Settled(x)
    requires |current| == |before|
    requires forall k :: 0 <= k < |before| ==>
      current[k] == (if before[k] in expired[..i] then Expire(before[k], now) else before[k])
    requires after == ReplaceById(current, RecalculateRemaining(expired[i].(status := Cancelled)))
    ensures |after| == |before|
    ensures forall k :: 0 <= k < |before| ==>
      after[k] == (if before[k] in expired[..i + 1] then Expire(before[k], now) else before[k])
  {
    var b := expired[i];
    assert expired[..i + 1] == expired[..i] + [b];
    forall k | 0 <= k < |before|
      ensures after[k] == (if before[k] in expired[..i + 1] then Expire(before[k], now) else before[k])
    {
      if before[k].id == b.id {
        var k0 :| 0 <= k0 < |before| && before[k0] == b;
        assert k == k0;
      } else {
        assert before[k] != b;
      }
    }
  }

  /** cancelExpiredBookings. */
  method CancelExpiredBookings(repo: BookingRepository, now: DateTime)
    requires repo.Valid()
    modifies repo
    ensures repo.Valid() && repo.nextId == old(repo.nextId)
    ensures repo.bookings == SweepExpired(old(repo.bookings), now)
  {
    var expired := ExpiredBookings(repo.bookings, now);
    ghost var before := repo.bookings;
    var i := 0;
    while i < |expired|
      invariant 0 <= i <= |expired|
      invariant repo.Valid() && repo.nextId == old(repo.nextId)
      invariant UniqueIds(before) && forall x :: x in before ==> Settled(x)
      invariant |repo.bookings| == |before|
      invariant forall k :: 0 <= k < |before| ==>
        repo.bookings[k] == (if before[k] in expired[..i] then Expire(before[k], now) else before[k])
    {
      var b := expired[i];
      assert b in before && IsExpired(b, now);
      ghost var k0 :| 0 <= k0 < |before| && before[k0] == b;
      assert repo.bookings[k0].id == b.id;
      FindIsPosition(repo.bookings, b.id);
      ghost var current := repo.bookings;
      var saved := repo.Update(b.(status := Cancelled));
      SweepStep(before, current, repo.bookings, expired, i, now);
      i := i + 1;
    }
    assert expired[..i] == expired;
  }
}

=== FILE: capacity.dfy ===
/** Capacity sharing (booking/service/BookingEmployeeAssignmentService.java):
    an employee may guide several overlapping bookings at once when they are all
    in the new activity's category, all at its location, and the participants
    together stay within the category's per-guide maximum. */
module Capacity {
  import opened Wrappers
  import opened Times
  import opened Activities
  import opened Staff
  import opened Bookings

  /** `findByEmployeeAndDate`: the employee's non-cancelled bookings on a date. */
  function BookingsOf(store: seq<Booking>, employeeId: int, date: Date): (r: seq<Booking>)
    ensures forall b :: b in r <==> b in store && b.employee.id == employeeId && b.bookingDate == date && b.status != Cancelled
  {
    if store == [] then []
    else
      var b := store[0];
      var rest := BookingsOf(store[1..], employeeId, date);
      if b.employee.id == employeeId && b.bookingDate == date && b.status != Cancelled then [b] + rest else rest
  }

  predicate Conflicts(b: Booking, start: TimeOfDay, end: TimeOfDay, exclude: Option<int>) {
    (exclude.None? || b.id != exclude.value) && b.status != Cancelled && Overlaps(start, end, b.startTime, b.endTime)
  }

  /** The three stream filters: not the excluded booking, not cancelled, overlapping. */
  function OverlappingBookings(bookings: seq<Booking>, start: TimeOfDay, end: TimeOfDay, exclude: Option<int>): (r: seq<Booking>)
    ensures forall b :: b in r <==> b in bookings && Conflicts(b, start, end, exclude)
    ensures r == [] <==> forall b :: b in bookings ==> !Conflicts(b, start, end, exclude)
    ensures |r| <= |bookings|
  {
    if bookings == [] then []
    else
      var rest := OverlappingBookings(bookings[1..], start, end, exclude);
      if Conflicts(bookings[0], start, end, exclude) then [bookings[0]] + rest else rest
  }

  function SumParticipants(bookings: seq<Booking>): int {
    if bookings == [] then 0 else bookings[0].numberOfParticipants + SumParticipants(bookings[1..])
  }

  predicate InCategory(b: Booking, categoryId: int) {
    b.activity.category.Some? && b.activity.category.value.id == categoryId
  }

  /** Every booking of the group may share a guide with the new activity. */
  predicate Compatible(group: seq<Booking>, activity: Activity)
    requires activity.category.Some?
  {
    (forall b :: b in group ==> InCategory(b, activity.category.value.id))
    && (forall b :: b in group ==> HasSameLocationAs(activity, b.activity))
  }

  /** canEmployeeHandleBooking. */
  predicate CanEmployeeHandleBooking(store: seq<Booking>, employee: User, date: Date, start: TimeOfDay, end: TimeOfDay,
                                     activity: Activity, participants: int, exclude: Option<int>)
  {
    GroupAccepts(OverlappingBookings(BookingsOf(store, employee.id, date), start, end, exclude), activity, participants)
  }

  /** The sharing rule applied to the group of bookings the new one would
      overlap: an empty group always accepts; otherwise the activity needs a
      category, the group must be compatible with it and the participants
      together must stay within its per-guide maximum. */
  predicate GroupAccepts(overlapping: seq<Booking>, activity: Activity, participants: int) {
    if overlapping == [] then true
    else if activity.category.None? then false
    else (Compatible(overlapping, activity)
          && SumParticipants(overlapping) + participants <= activity.category.value.maxParticipantsPerGuide)
  }

  /** A larger group never accepts what a smaller one refused. */
  lemma GroupGrowthNeverHelps(before: seq<Booking>, b: Booking, activity: Activity, participants: int)
    requires b.numberOfParticipants >= 0
    requires !GroupAccepts(before, activity, participants)
    ensures !GroupAccepts(before + [b], activity, participants)
  {
    SumAppend(before, b);
    assert forall x :: x in before ==> x in before + [b];
  }

  /** An employee with no conflicting booking can always take the booking. */
  lemma FreeEmployeeCanHandle(store: seq<Booking>, employee: User, date: Date, start: TimeOfDay, end: TimeOfDay,
                              activity: Activity, participants: int, exclude: Option<int>)
    requires forall b :: b in store && b.employee.id == employee.id && b.bookingDate == date ==> !Conflicts(b, start, end, exclude)
    ensures CanEmployeeHandleBooking(store, employee, date, start, end, activity, participants, exclude)
  {
  }

  /** An activity without a category is never shared: it is accepted exactly
      when nothing conflicts. */
  lemma UncategorisedNeverShares(store: seq<Booking>, employee: User, date: Date, start: TimeOfDay, end: TimeOfDay,
                                 activity: Activity, participants: int, exclude: Option<int>)
    requires activity.category.None?
    ensures CanEmployeeHandleBooking(store, employee, date, start, end, activity, participants, exclude)
        <==> forall b :: b in store && b.employee.id == employee.id && b.bookingDate == date ==> !Conflicts(b, start, end, exclude)
  {
  }

  /** With a conflict, the booking is accepted exactly when the activity has
      a category, every conflicting booking of the employee that day is in
      that category and at the activity's location, and the conflicting
      participants plus the new ones stay within the per-guide maximum (a
      total equal to the maximum is accepted). */
  lemma SharingConditions(store: seq<Booking>, employee: User, date: Date, start: TimeOfDay, end: TimeOfDay,
                          activity: Activity, participants: int, exclude: Option<int>)
    requires exists b :: b in store && b.employee.id == employee.id && b.bookingDate == date && b.status != Cancelled
                         && Conflicts(b, start, end, exclude)
    ensures CanEmployeeHandleBooking(store, employee, date, start, end, activity, participants, exclude)
        <==> activity.category.Some?
             && (forall b :: b in store && b.employee.id == employee.id && b.bookingDate == date
                             && Conflicts(b, start, end, exclude) ==>
                   InCategory(b, activity.category.value.id) && HasSameLocationAs(activity, b.activity))
             && SumParticipants(OverlappingBookings(BookingsOf(store, employee.id, date), start, end, exclude))
                + participants <= activity.category.value.maxParticipantsPerGuide
  {
    var overlapping := OverlappingBookings(BookingsOf(store, employee.id, date), start, end, exclude);
    var b :| b in store && b.employee.id == employee.id && b.bookingDate == date && b.status != Cancelled
             && Conflicts(b, start, end, exclude);
    ConflictingIsOverlapping(store, employee.id, date, start, end, exclude, b);
    assert overlapping != [];
    if activity.category.Some? {
      CompatibleOverStore(store, employee.id, date, start, end, exclude, activity);
    }
  }

  /** The overlapping group of an employee's day is exactly the stored
      bookings of that employee and date that conflict. */
  lemma ConflictingIsOverlapping(store: seq<Booking>, employeeId: int, date: Date, start: TimeOfDay, end: TimeOfDay,
                                 exclude: Option<int>, x: Booking)
    ensures x in OverlappingBookings(BookingsOf(store, employeeId, date), start, end, exclude)
        <==> x in store && x.employee.id == employeeId && x.bookingDate == date && Conflicts(x, start, end, exclude)
  {
  }

  /** The group is compatible exactly when every conflicting stored booking of
      that employee and date is in the category and at the location. */
  lemma CompatibleOverStore(store: seq<Booking>, employeeId: int, date: Date, start: TimeOfDay, end: TimeOfDay,
                            exclude: Option<int>, activity: Activity)
    requires activity.category.Some?
    ensures Compatible(OverlappingBookings(BookingsOf(store, employeeId, date), start, end, exclude), activity)
        <==> (forall b :: b in store && b.employee.id == employeeId && b.bookingDate == date
                          && Conflicts(b, start, end, exclude) ==>
                InCategory(b, activity.category.value.id) && HasSameLocationAs(activity, b.activity))
  {
    var overlapping := OverlappingBookings(BookingsOf(store, employeeId, date), start, end, exclude);
    forall x
      ensures x in overlapping <==>
        x in store && x.employee.id == employeeId && x.bookingDate == date && Conflicts(x, start, end, exclude)
    {
      ConflictingIsOverlapping(store, employeeId, date, start, end, exclude, x);
    }
  }

  /** Fewer participants never turn an acceptance into a refusal. */
  lemma FewerParticipantsStillFit(store: seq<Booking>, employee: User, date: Date, start: TimeOfDay, end: TimeOfDay,
                                  activity: Activity, participants: int, fewer: int, exclude: Option<int>)
    requires fewer <= participants
    requires CanEmployeeHandleBooking(store, employee, date, start, end, activity, participants, exclude)
    ensures CanEmployeeHandleBooking(store, employee, date, start, end, activity, fewer, exclude)
  {
  }

  /** Excluding one booking from the count never raises the participant total. */
  lemma {:induction false} SumWithout(bookings: seq<Booking>, start: TimeOfDay, end: TimeOfDay, id: int)
    requires forall b :: b in bookings ==> b.numberOfParticipants >= 0
    ensures SumParticipants(OverlappingBookings(bookings, start, end, Some(id)))
         <= SumParticipants(OverlappingBookings(bookings, start, end, None))
  {
    if bookings != [] {
      SumWithout(bookings[1..], start, end, id);
    }
  }

  /** Leaving one booking out of the count (as a reassignment does for the
      booking being moved) never turns an acceptance into a refusal. */
  lemma ExcludingOnlyHelps(store: seq<Booking>, employee: User, date: Date, start: TimeOfDay, end: TimeOfDay,
                           activity: Activity, participants: int, id: int)
    requires forall b :: b in store ==> b.numberOfParticipants >= 0
    requires CanEmployeeHandleBooking(store, employee, date, start, end, activity, participants, None)
    ensures CanEmployeeHandleBooking(store, employee, date, start, end, activity, participants, Some(id))
  {
    var own := BookingsOf(store, employee.id, date);
    SumWithout(own, start, end, id);
  }

  /** The participants of the group plus one more booking. */
  lemma {:induction false} SumAppend(group: seq<Booking>, b: Booking)
    ensures SumParticipants(group + [b]) == SumParticipants(group) + b.numberOfParticipants
  {
    if group != [] {
      assert (group + [b])[1..] == group[1..] + [b];
      SumAppend(group[1..], b);
    }
  }

  lemma {:induction false} BookingsOfAppend(store: seq<Booking>, b: Booking, employeeId: int, date: Date)
    ensures BookingsOf(store + [b], employeeId, date)
         == BookingsOf(store, employeeId, date)
            + (if b.employee.id == employeeId && b.bookingDate == date && b.status != Cancelled then [b] else [])
  {
    if store != [] {
      assert (store + [b])[1..] == store[1..] + [b];
      BookingsOfAppend(store[1..], b, employeeId, date);
    }
  }

  lemma {:induction false} OverlappingAppend(bookings: seq<Booking>, b: Booking, start: TimeOfDay, end: TimeOfDay, exclude: Option<int>)
    ensures OverlappingBookings(bookings + [b], start, end, exclude)
         == OverlappingBookings(bookings, start, end, exclude) + (if Conflicts(b, start, end, exclude) then [b] else [])
  {
    if bookings != [] {
      assert (bookings + [b])[1..] == bookings[1..] + [b];
      OverlappingAppend(bookings[1..], b, start, end, exclude);
    }
  }

  /** Storing one more booking never lets an employee take a booking they
      could not take before. */
  lemma AddingBookingNeverHelps(store: seq<Booking>, b: Booking, employee: User, date: Date, start: TimeOfDay,
                                end: TimeOfDay, activity: Activity, participants: int, exclude: Option<int>)
    requires b.numberOfParticipants >= 0
    requires !CanEmployeeHandleBooking(store, employee, date, start, end, activity, participants, exclude)
    ensures !CanEmployeeHandleBooking(store + [b], employee, date, start, end, activity, participants, exclude)
  {
    var own := BookingsOf(store, employee.id, date);
    BookingsOfAppend(store, b, employee.id, date);
    var own' := BookingsOf(store + [b], employee.id, date);
    var before := OverlappingBookings(own, start, end, exclude);
    if own' != own {
      assert own' == own + [b];
      OverlappingAppend(own, b, start, end, exclude);
      var after := OverlappingBookings(own', start, end, exclude);
      if after != before {
        assert after == before + [b];
        GroupGrowthNeverHelps(before, b, activity, participants);
      }
    }
  }

  /** What an acceptance guarantees once the new booking is stored: every booking
      the employee then guides during that time is in the activity's category
      and at its location (or the employee guides only the new booking), and
      together they stay within the category's per-guide maximum. */
  lemma AcceptedBookingKeepsCapacity(store: seq<Booking>, b: Booking)
    requires b.status != Cancelled && b.startTime < b.endTime
    requires CanEmployeeHandleBooking(store, b.employee, b.bookingDate, b.startTime, b.endTime, b.activity, b.numberOfParticipants, None)
    ensures var group := OverlappingBookings(BookingsOf(store + [b], b.employee.id, b.bookingDate), b.startTime, b.endTime, None);
      b in group
      && (group == [b]
          || (b.activity.category.Some? && Compatible(group[..|group| - 1], b.activity)
              && SumParticipants(group) <= b.activity.category.value.maxParticipantsPerGuide))
  {
    var own := BookingsOf(store, b.employee.id, b.bookingDate);
    BookingsOfAppend(store, b, b.employee.id, b.bookingDate);
    OverlappingAppend(own, b, b.startTime, b.endTime, None);
    var before := OverlappingBookings(own, b.startTime, b.endTime, None);
    var group := before + [b];
    assert group[..|group| - 1] == before;
    SumAppend(before, b);
  }

  /** The first employee of the list, in list order, who can take the booking. */
  function FirstAble(employees: seq<User>, store: seq<Booking>, date: Date, start: TimeOfDay, end: TimeOfDay,
                     activity: Activity, participants: int): Option<User>
  {
    if employees == [] then None
    else if CanEmployeeHandleBooking(store, employees[0], date, start, end, activity, participants, None) then Some(employees[0])
    else FirstAble(employees[1..], store, date, start, end, activity, participants)
  }

  /** An employee FirstAble finds can take the booking, and nobody before
      them in the list can. */
  lemma {:induction false} FirstAbleFound(employees: seq<User>, store: seq<Booking>, date: Date, start: TimeOfDay,
                                          end: TimeOfDay, activity: Activity, participants: int)
    requires FirstAble(employees, store, date, start, end, activity, participants).Some?
    ensures var u := FirstAble(employees, store, date, start, end, activity, participants).value;
      CanEmployeeHandleBooking(store, u, date, start, end, activity, participants, None)
      && exists k :: (0 <= k < |employees| && employees[k] == u
        && forall j :: 0 <= j < k ==> !CanEmployeeHandleBooking(store, employees[j], date, start, end, activity, participants, None))
  {
    var u := FirstAble(employees, store, date, start, end, activity, participants).value;
    if !CanEmployeeHandleBooking(store, employees[0], date, start, end, activity, participants, None) {
      var rest := employees[1..];
      FirstAbleFound(rest, store, date, start, end, activity, participants);
      var k :| 0 <= k < |rest| && rest[k] == u
        && forall j :: 0 <= j < k ==> !CanEmployeeHandleBooking(store, rest[j], date, start, end, activity, participants, None);
      assert employees[k + 1] == u;
      forall j | 0 <= j < k + 1
        ensures !CanEmployeeHandleBooking(store, employees[j], date, start, end, activity, participants, None)
      {
        if j > 0 {
          assert employees[j] == rest[j - 1];
        }
      }
    }
  }

  /** FirstAble finds nobody only when nobody in the list can take the booking. */
  lemma {:induction false} FirstAbleNone(employees: seq<User>, store: seq<Booking>, date: Date, start: TimeOfDay,
                                         end: TimeOfDay, activity: Activity, participants: int)
    requires FirstAble(employees, store, date, start, end, activity, participants).None?
    ensures forall j :: 0 <= j < |employees| ==>
      !CanEmployeeHandleBooking(store, employees[j], date, start, end, activity, participants, None)
  {
    if employees != [] {
      var rest := employees[1..];
      FirstAbleNone(rest, store, date, start, end, activity, participants);
      forall j | 0 <= j < |employees|
        ensures !CanEmployeeHandleBooking(store, employees[j], date, start, end, activity, participants, None)
      {
        if j > 0 {
          assert employees[j] == rest[j - 1];
        }
      }
    }
  }

  /** findAvailableEmployee: fails when the role table (`roleNames`, the
      names of its rows) has no ROLE_EMPLOYEE row; otherwise the first enabled
      employee, in repository order, who can take the booking, or None when
      nobody can. */
  method FindAvailableEmployee(store: seq<Booking>, users: seq<User>, roleNames: set<string>, date: Date,
                               start: TimeOfDay, end: TimeOfDay, activity: Activity, participants: int)
    returns (r: Result<Option<User>>)
    ensures r.Failure? <==> RoleEmployee !in roleNames
    ensures r.Failure? ==> r.error == RoleNotFoundMessage
    ensures r.Success? && r.value.Some? ==> r.value.value in users && IsActiveEmployee(r.value.value)
    ensures r.Success? && r.value.Some? ==>
      CanEmployeeHandleBooking(store, r.value.value, date, start, end, activity, participants, None)
    ensures r.Success? && r.value.Some? ==>
      exists k :: (0 <= k < |ActiveEmployees(users)| && ActiveEmployees(users)[k] == r.value.value
        && forall j :: 0 <= j < k ==>
             !CanEmployeeHandleBooking(store, ActiveEmployees(users)[j], date, start, end, activity, participants, None))
    ensures r.Success? ==> (r.value.None? <==> forall u :: (u in users && IsActiveEmployee(u)
      ==> !CanEmployeeHandleBooking(store, u, date, start, end, activity, participants, None)))
  {
    if RoleEmployee !in roleNames {
      return Failure(RoleNotFoundMessage);
    }
    var employees := ActiveEmployees(users);
    var i := 0;
    while i < |employees|
      invariant 0 <= i <= |employees|
      invariant FirstAble(employees[i..], store, date, start, end, activity, participants)
             == FirstAble(employees, store, date, start, end, activity, participants)
    {
      if CanEmployeeHandleBooking(store, employees[i], date, start, end, activity, participants, None) {
        FirstAbleFound(employees, store, date, start, end, activity, participants);
        return Success(Some(employees[i]));
      }
      assert employees[i..][1..] == employees[i + 1..];
      i := i + 1;
    }
    FirstAbleNone(employees, store, date, start, end, activity, participants);
    NobodyAble(employees, users, store, date, start, end, activity, participants);
    return Success(None);
  }

  /** When nobody in the employee list can take the booking, no active
      employee among the users can. */
  lemma NobodyAble(employees: seq<User>, users: seq<User>, store: seq<Booking>, date: Date, start: TimeOfDay,
                   end: TimeOfDay, activity: Activity, participants: int)
    requires employees == ActiveEmployees(users)
    requires forall j :: 0 <= j < |employees| ==>
      !CanEmployeeHandleBooking(store, employees[j], date, start, end, activity, participants, None)
    ensures forall u :: u in users && IsActiveEmployee(u) ==>
      !CanEmployeeHandleBooking(store, u, date, start, end, activity, participants, None)
  {
    forall u | u in users && IsActiveEmployee(u)
      ensures !CanEmployeeHandleBooking(store, u, date, start, end, activity, participants, None)
    {
      assert u in employees;
      var j :| 0 <= j < |employees| && employees[j] == u;
    }
  }
}

=== FILE: category.dfy ===
/** Activity categories (activity/entity/ActivityCategory.java) and the
    administration operations of activity/controller/CategoryController.java:
    create and update, which fill in a URL slug derived from the name when
    none is supplied, and delete, which refuses while activities still use
    the category. Lower-casing is modelled over ASCII letters. */
module Categories {
  import opened Wrappers
  import opened Strings
  import opened Activities

  /** The whitespace class `\s` of Java regular expressions. */
  predicate IsJavaSpace(c: char) {
    c == ' ' || c == '\t' || c == '\n' || c == '\U{000B}' || c == '\U{000C}' || c == '\r'
  }

  predicate IsSlugChar(c: char) {
    'a' <= c <= 'z' || '0' <= c <= '9' || c == '-'
  }

  predicate NoDoubleDash(s: string) {
    forall i :: 0 <= i < |s| - 1 ==> !(s[i] == '-' && s[i + 1] == '-')
  }

  /** A slug as generateSlug produces it: slug characters only, no "--". */
  predicate IsCleanSlug(s: string) {
    (forall c :: c in s ==> IsSlugChar(c)) && NoDoubleDash(s)
  }

  /** `replaceAll("[^a-z0-9\\s-]", "")`. */
  function KeepSlugChars(s: string): (r: string)
    ensures forall c :: c in r <==> c in s && (IsSlugChar(c) || IsJavaSpace(c))
    ensures (forall c :: c in s ==> IsSlugChar(c) || IsJavaSpace(c)) ==> r == s
  {
    if s == [] then []
    else if IsSlugChar(s[0]) || IsJavaSpace(s[0]) then
      assert s == [s[0]] + s[1..];
      [s[0]] + KeepSlugChars(s[1..])
    else KeepSlugChars(s[1..])
  }

  /** `replaceAll("\\s+", "-")`: every run of whitespace becomes one '-'.
      The scan remembers whether it is inside a run. */
  function DashSpaces(s: string): string {
    DashFrom(s, false)
  }

  function DashFrom(s: string, inRun: bool): string {
    if s == [] then [] else Emit(s[0], inRun) + DashFrom(s[1..], IsJavaSpace(s[0]))
  }

  /** What one character contributes: itself, or a dash when it opens a run. */
  function Emit(c: char, inRun: bool): string {
    if !IsJavaSpace(c) then [c] else if inRun then [] else "-"
  }

  /** No whitespace is left, every character comes from the input or is a
      new dash, and a string without whitespace is left as it is. */
  lemma {:induction false} DashFromChars(s: string, inRun: bool)
    ensures forall c :: c in DashFrom(s, inRun) ==> !IsJavaSpace(c) && (c in s || c == '-')
    ensures (forall c :: c in s ==> !IsJavaSpace(c)) ==> DashFrom(s, inRun) == s
  {
    if s != [] {
      DashFromChars(s[1..], IsJavaSpace(s[0]));
      assert s == [s[0]] + s[1..];
    }
  }

  lemma DashSpacesChars(s: string)
    ensures forall c :: c in DashSpaces(s) ==> !IsJavaSpace(c) && (c in s || c == '-')
    ensures (forall c :: c in s ==> !IsJavaSpace(c)) ==> DashSpaces(s) == s
  {
    DashFromChars(s, false);
  }

  function SkipDashes(s: string): (r: string)
    ensures |r| <= |s| && r == s[|s| - |r|..]
    ensures r == [] || r[0] != '-'
  {
    if s == [] || s[0] != '-' then s else SkipDashes(s[1..])
  }

  /** `replaceAll("-+", "-")`: every run of dashes becomes one '-'. */
  function CollapseDashes(s: string): (r: string)
    ensures forall c :: c in r ==> c in s
    ensures NoDoubleDash(r)
    ensures s != [] ==> r != [] && (r[0] == '-' <==> s[0] == '-')
    decreases |s|
  {
    if s == [] then []
    else if s[0] == '-' then
      var rest := SkipDashes(s);
      assert forall c :: c in rest ==> c in s;
      "-" + CollapseDashes(rest)
    else
      assert s == [s[0]] + s[1..];
      [s[0]] + CollapseDashes(s[1..])
  }

  /** generateSlug: lower-case, drop what is not a letter, digit, space or
      dash, turn space runs into '-', collapse dash runs, trim. Every
      character left is a slug character, and no two dashes touch. */
  function GenerateSlug(name: string): (r: string)
    ensures IsCleanSlug(r)
  {
    var kept := KeepSlugChars(ToLower(name));
    DashSpacesChars(kept);
    var collapsed := CollapseDashes(DashSpaces(kept));
    TrimKeepsClean(collapsed);
    Trim(collapsed)
  }

  /** Java's trim() leaves a string without characters up to U+0020 alone. */
  lemma TrimKeepsClean(s: string)
    requires forall c :: c in s ==> IsSlugChar(c)
    ensures Trim(s) == s
  {
    if s != [] {
      assert s[0] in s && s[|s| - 1] in s;
    }
    assert TrimLeft(s) == s;
  }

  /** A string with no "--" is its own dash-collapse. */
  lemma {:induction false} CollapseKeepsSingleDashes(s: string)
    requires NoDoubleDash(s)
    ensures CollapseDashes(s) == s
    decreases |s|
  {
    if s != [] {
      assert NoDoubleDash(s[1..]);
      CollapseKeepsSingleDashes(s[1..]);
      if s[0] == '-' {
        assert SkipDashes(s) == s[1..];
      }
    }
  }

  /** A clean slug passes every stage unchanged. */
  lemma CleanSlugIsFixed(s: string)
    requires IsCleanSlug(s)
    ensures GenerateSlug(s) == s
  {
    forall i | 0 <= i < |s| ensures LowerChar(s[i]) == s[i] {
      assert s[i] in s;
    }
    assert ToLower(s) == s;
    assert KeepSlugChars(s) == s;
    DashSpacesChars(s);
    assert DashSpaces(s) == s;
    CollapseKeepsSingleDashes(s);
    TrimKeepsClean(s);
  }

  /** generateSlug is idempotent. */
  lemma SlugIdempotent(name: string)
    ensures GenerateSlug(GenerateSlug(name)) == GenerateSlug(name)
  {
    CleanSlugIsFixed(GenerateSlug(name));
  }

  predicate IsSpaceRun(w: string) {
    w != [] && forall c :: c in w ==> IsJavaSpace(c)
  }

  /** After a part ending in a non-space character the scan starts afresh. */
  lemma {:induction false} DashFromAppend(x: string, z: string, inRun: bool)
    requires x != [] && !IsJavaSpace(x[|x| - 1])
    ensures DashFrom(x + z, inRun) == DashFrom(x, inRun) + DashFrom(z, false)
    decreases |x|
  {
    var s := x + z;
    var b := IsJavaSpace(x[0]);
    assert s[0] == x[0];
    if |x| == 1 {
      assert s[1..] == z;
      assert DashFrom(x, inRun) == Emit(x[0], inRun) + DashFrom([], false);
    } else {
      assert s[1..] == x[1..] + z;
      DashFromAppend(x[1..], z, b);
      calc {
        DashFrom(s, inRun);
        Emit(x[0], inRun) + (DashFrom(x[1..], b) + DashFrom(z, false));
        (Emit(x[0], inRun) + DashFrom(x[1..], b)) + DashFrom(z, false);
      }
    }
  }

  /** Inside a run, further whitespace adds nothing. */
  lemma {:induction false} SkipRun(w: string, y: string)
    requires forall c :: c in w ==> IsJavaSpace(c)
    ensures DashFrom(w + y, true) == DashFrom(y, true)
    decreases |w|
  {
    if w != [] {
      assert w[0] in w;
      assert (w + y)[0] == w[0];
      assert (w + y)[1..] == w[1..] + y;
      SkipRun(w[1..], y);
    } else {
      assert w + y == y;
    }
  }

  /** A run met outside a run gives one dash, after which the scan is back
      outside a run at the next non-space character. */
  lemma RunStartsDash(w: string, y: string)
    requires IsSpaceRun(w) && (y == [] || !IsJavaSpace(y[0]))
    ensures DashFrom(w + y, false) == "-" + DashFrom(y, false)
  {
    assert w[0] in w;
    assert (w + y)[0] == w[0];
    assert (w + y)[1..] == w[1..] + y;
    SkipRun(w[1..], y);
    assert DashFrom(y, true) == DashFrom(y, false);
  }

  /** Each maximal run of whitespace becomes exactly one '-': with a run `w`
      between a part not ending and a part not starting in whitespace, the
      result is the two parts' results joined by a single dash. */
  lemma SpaceRunBecomesOneDash(x: string, w: string, y: string)
    requires IsSpaceRun(w)
    requires x == [] || !IsJavaSpace(x[|x| - 1])
    requires y == [] || !IsJavaSpace(y[0])
    ensures DashSpaces(x + w + y) == DashSpaces(x) + "-" + DashSpaces(y)
  {
    if x == [] {
      assert x + w + y == w + y;
      RunStartsDash(w, y);
      assert DashSpaces(x) + "-" + DashSpaces(y) == "-" + DashSpaces(y);
    } else {
      calc {
        DashSpaces(x + w + y);
        { assert x + w + y == x + (w + y); }
        DashFrom(x + (w + y), false);
        { DashFromAppend(x, w + y, false); }
        DashSpaces(x) + DashFrom(w + y, false);
        { RunStartsDash(w, y); }
        DashSpaces(x) + ("-" + DashSpaces(y));
        DashSpaces(x) + "-" + DashSpaces(y);
      }
    }
  }

  /** A name that is a clean slug `m` between two whitespace characters. */
  predicate IsPaddedSlug(c: char, m: string) {
    IsJavaSpace(c) && IsCleanSlug(m) && m != [] && m[0] != '-' && m[|m| - 1] != '-'
  }

  lemma PaddedNameKept(c: char, m: string)
    requires IsPaddedSlug(c, m)
    ensures KeepSlugChars(ToLower([c] + m + [c])) == [c] + m + [c]
  {
    var name := [c] + m + [c];
    forall i | 0 <= i < |name| ensures LowerChar(name[i]) == name[i] && (IsSlugChar(name[i]) || IsJavaSpace(name[i])) {
      if 0 < i < |name| - 1 {
        assert name[i] == m[i - 1] && m[i - 1] in m;
      }
    }
    assert ToLower(name) == name;
  }

  lemma PaddedNameDashed(c: char, m: string)
    requires IsPaddedSlug(c, m)
    ensures DashSpaces([c] + m + [c]) == "-" + m + "-"
  {
    assert m[0] in m && m[|m| - 1] in m;
    assert (m + [c])[0] == m[0];
    SpaceRunBecomesOneDash([], [c], m + [c]);
    assert [] + [c] + (m + [c]) == [c] + m + [c];
    SpaceRunBecomesOneDash(m, [c], []);
    assert m + [c] + [] == m + [c];
    DashSpacesChars(m);
  }

  lemma PaddedSlugClean(m: string)
    requires m != [] && IsCleanSlug(m) && m[0] != '-' && m[|m| - 1] != '-'
    ensures IsCleanSlug("-" + m + "-")
  {
    var s := "-" + m + "-";
    forall i | 0 <= i < |s| - 1 ensures !(s[i] == '-' && s[i + 1] == '-') {
      if i == 0 {
        assert s[1] == m[0];
      } else if i == |s| - 2 {
        assert s[i] == m[|m| - 1];
      } else {
        assert s[i] == m[i - 1] && s[i + 1] == m[i];
      }
    }
  }

  /** The final trim() removes no dash: whitespace at either end of a name
      survives as a dash at either end of the slug. */
  lemma EdgeSpacesBecomeDashes(c: char, m: string)
    requires IsPaddedSlug(c, m)
    ensures GenerateSlug([c] + m + [c]) == "-" + m + "-"
  {
    PaddedNameKept(c, m);
    PaddedNameDashed(c, m);
    PaddedSlugClean(m);
    CleanAfterDashing([c] + m + [c], "-" + m + "-");
  }

  /** When turning spaces into dashes already gives a clean slug, the later
      stages change nothing. */
  lemma CleanAfterDashing(name: string, dashed: string)
    requires DashSpaces(KeepSlugChars(ToLower(name))) == dashed && IsCleanSlug(dashed)
    ensures GenerateSlug(name) == dashed
  {
    CollapseKeepsSingleDashes(dashed);
    TrimKeepsClean(dashed);
  }

  /** The full entity. */
  datatype CategoryEntity = CategoryEntity(
    id: int,
    name: string,
    description: Option<string>,
    slug: Option<string>,
    iconUrl: Option<string>,
    active: bool,
    displayOrder: int,
    maxParticipantsPerGuide: int)

  /** The slug create and update store: the supplied one unless it is null
      or empty, else the one generated from the name. */
  function ResolveSlug(supplied: Option<string>, name: string): (r: string)
    ensures supplied.Some? && supplied.value != [] ==> r == supplied.value
    ensures (supplied.None? || supplied.value == []) ==> IsCleanSlug(r) && GenerateSlug(r) == r
  {
    if supplied.None? || supplied.value == [] then
      var s := GenerateSlug(name);
      CleanSlugIsFixed(s);
      s
    else supplied.value
  }

  /** The responses of the three operations; a save that breaks the unique
      name or slug column is ConstraintViolation. */
  datatype Reply = Created(saved: CategoryEntity) | Ok(saved: CategoryEntity) | NoContent | NotFound | Conflict
                 | ConstraintViolation

  function FindCategory(cats: seq<CategoryEntity>, id: int): (r: Option<CategoryEntity>)
    ensures r.Some? ==> r.value in cats && r.value.id == id
    ensures r.None? <==> forall c :: c in cats ==> c.id != id
  {
    if cats == [] then None
    else if cats[0].id == id then Some(cats[0])
    else FindCategory(cats[1..], id)
  }

  /** `activityRepository.countByCategoryId`. */
  function CountLinked(activities: seq<Activity>, categoryId: int): (n: nat)
    ensures n == 0 <==> forall a :: a in activities ==> !(a.category.Some? && a.category.value.id == categoryId)
  {
    if activities == [] then 0
    else
      (if activities[0].category.Some? && activities[0].category.value.id == categoryId then 1 else 0)
      + CountLinked(activities[1..], categoryId)
  }

  /** Whether a row other than `id` already holds the name or the slug. */
  predicate Clashes(cats: seq<CategoryEntity>, id: int, name: string, slug: string) {
    exists c :: c in cats && c.id != id && (c.name == name || c.slug == Some(slug))
  }

  /** Distinct rows differ in id, name and slug, and ids are below the
      next one to hand out. */
  predicate CategoriesValid(cats: seq<CategoryEntity>, nextId: int) {
    (forall a, b :: a in cats && b in cats && a != b ==>
      a.id != b.id && a.name != b.name && (a.slug.Some? ==> a.slug != b.slug))
    && (forall c :: c in cats ==> c.id < nextId)
  }

  /** `save` of a stored category: the row with its id is overwritten in
      place, every other row stays. */
  function ReplaceCategory(cats: seq<CategoryEntity>, c: CategoryEntity): (r: seq<CategoryEntity>)
    ensures |r| == |cats|
    ensures forall i :: 0 <= i < |cats| ==> r[i] == (if cats[i].id == c.id then c else cats[i])
  {
    seq(|cats|, i requires 0 <= i < |cats| => if cats[i].id == c.id then c else cats[i])
  }

  /** After the save, looking up the saved id gives the saved category, and
      every other id finds what it found before. */
  lemma {:induction false} FindAfterReplaceCategory(cats: seq<CategoryEntity>, c: CategoryEntity, id: int)
    ensures FindCategory(ReplaceCategory(cats, c), id)
         == (if id == c.id && FindCategory(cats, id).Some? then Some(c) else FindCategory(cats, id))
    decreases |cats|
  {
    if cats != [] {
      assert ReplaceCategory(cats, c)[1..] == ReplaceCategory(cats[1..], c);
      FindAfterReplaceCategory(cats[1..], c, id);
    }
  }

  function DeleteCategoryRow(cats: seq<CategoryEntity>, id: int): (r: seq<CategoryEntity>)
    ensures forall c :: c in r <==> c in cats && c.id != id
  {
    if cats == [] then []
    else if cats[0].id == id then DeleteCategoryRow(cats[1..], id)
    else [cats[0]] + DeleteCategoryRow(cats[1..], id)
  }

  /** A replacement that clashes with no other row keeps the table valid. */
  lemma ReplaceKeepsValid(cats: seq<CategoryEntity>, nextId: int, c: CategoryEntity)
    requires CategoriesValid(cats, nextId) && FindCategory(cats, c.id).Some?
    requires c.slug.Some? && !Clashes(cats, c.id, c.name, c.slug.value)
    ensures CategoriesValid(ReplaceCategory(cats, c), nextId)
  {
    var r := ReplaceCategory(cats, c);
    forall x | x in r ensures x == c || (x in cats && x.id != c.id) {
      var k :| 0 <= k < |r| && r[k] == x;
      assert cats[k] in cats;
    }
  }

  lemma DeleteKeepsValid(cats: seq<CategoryEntity>, nextId: int, id: int)
    requires CategoriesValid(cats, nextId)
    ensures CategoriesValid(DeleteCategoryRow(cats, id), nextId)
  {
  }

  /** The category table. */
  class CategoryStore {
    var categories: seq<CategoryEntity>
    var nextId: int

    predicate Valid()
      reads this
    {
      CategoriesValid(categories, nextId)
    }

    constructor()
      ensures Valid() && categories == [] && nextId == 1
    {
      categories := [];
      nextId := 1;
    }

    /** createCategory: the body's fields under a new id, the slug filled in
        from the name when it is missing. */
    method CreateCategory(request: CategoryEntity) returns (reply: Reply)
      requires Valid()
      modifies this
      ensures Valid()
      ensures var c := request.(id := old(nextId), slug := Some(ResolveSlug(request.slug, request.name)));
        if Clashes(old(categories), c.id, c.name, c.slug.value) then
          reply == ConstraintViolation && categories == old(categories) && nextId == old(nextId)
        else
          reply == Created(c) && categories == old(categories) + [c] && nextId == old(nextId) + 1
    {
      var c := request.(id := nextId, slug := Some(ResolveSlug(request.slug, request.name)));
      if Clashes(categories, c.id, c.name, c.slug.value) {
        return ConstraintViolation;
      }
      categories := categories + [c];
      nextId := nextId + 1;
      reply := Created(c);
    }

    /** updateCategory: name, description, slug, icon, active flag and
        display order come from the request; the guide capacity stays. */
    method UpdateCategory(id: int, details: CategoryEntity) returns (reply: Reply)
      requires Valid()
      modifies this
      ensures Valid() && nextId == old(nextId)
      ensures FindCategory(old(categories), id).None? ==> reply == NotFound && categories == old(categories)
      ensures FindCategory(old(categories), id).Some? ==>
        var c := FindCategory(old(categories), id).value.(
          name := details.name, description := details.description,
          slug := Some(ResolveSlug(details.slug, details.name)), iconUrl := details.iconUrl,
          active := details.active, displayOrder := details.displayOrder);
        if Clashes(old(categories), id, c.name, c.slug.value) then
          reply == ConstraintViolation && categories == old(categories)
        else
          reply == Ok(c) && categories == ReplaceCategory(old(categories), c)
    {
      var found := FindCategory(categories, id);
      if found.None? {
        return NotFound;
      }
      var c := found.value.(
        name := details.name, description := details.description,
        slug := Some(ResolveSlug(details.slug, details.name)), iconUrl := details.iconUrl,
        active := details.active, displayOrder := details.displayOrder);
      if Clashes(categories, id, c.name, c.slug.value) {
        return ConstraintViolation;
      }
      ReplaceKeepsValid(categories, nextId, c);
      categories := ReplaceCategory(categories, c);
      reply := Ok(c);
    }

    /** deleteCategory: refused while any activity is linked to it. */
    method DeleteCategory(id: int, activities: seq<Activity>) returns (reply: Reply)
      requires Valid()
      modifies this
      ensures Valid() && nextId == old(nextId)
      ensures FindCategory(old(categories), id).None? ==> reply == NotFound && categories == old(categories)
      ensures FindCategory(old(categories), id).Some? && CountLinked(activities, id) > 0 ==>
        reply == Conflict && categories == old(categories)
      ensures FindCategory(old(categories), id).Some? && CountLinked(activities, id) == 0 ==>
        reply == NoContent && categories == DeleteCategoryRow(old(categories), id)
    {
      if FindCategory(categories, id).None? {
        return NotFound;
      }
      if CountLinked(activities, id) > 0 {
        return Conflict;
      }
      DeleteKeepsValid(categories, nextId, id);
      categories := DeleteCategoryRow(categories, id);
      reply := NoContent;
    }
  }
}

=== FILE: dateutils.dfy ===
/** The deadline countdown label of the web client
    (frontend/src/utils/dateUtils.ts, formatTimeUntil). The clock is a
    parameter: the label is a function of the signed number of
    milliseconds from now to the deadline, from which the minute and hour
    differences are taken by truncation toward zero, as dayjs's `diff`
    does. */
module TimeUntil {
  import opened Strings

  const MillisPerMinute: int := 60_000
  const MillisPerHour: int := 3_600_000

  /** Integer division rounding toward zero, as dayjs's `diff` truncates:
      the remainder takes the sign of the dividend and is smaller than the
      divisor. */
  function TruncDiv(a: int, b: int): (q: int)
    requires b > 0
    ensures a >= 0 ==> 0 <= a - q * b < b
    ensures a < 0 ==> -b < a - q * b <= 0
  {
    if a >= 0 then a / b else -((-a) / b)
  }

  /** `target.diff(now, 'minute')`. */
  function DiffInMinutes(diffMillis: int): int {
    TruncDiv(diffMillis, MillisPerMinute)
  }

  /** `target.diff(now, 'hour')`. */
  function DiffInHours(diffMillis: int): int {
    TruncDiv(diffMillis, MillisPerHour)
  }

  /** Which of the four forms the label takes, with the number it shows. */
  datatype Bucket = Expired | InMinutes(minutes: int) | InHours(hours: int) | InDays(days: int)

  /** The branch structure of formatTimeUntil. Exactly one form applies to
      every difference; the minute form shows 1 to 59 minutes, the hour form
      1 to 47 hours and the day form at least two days. */
  function Classify(diffMillis: int): (b: Bucket)
    ensures b.Expired? <==> DiffInMinutes(diffMillis) <= 0
    ensures b.InMinutes? ==> b.minutes == DiffInMinutes(diffMillis) && 1 <= b.minutes < 60
    ensures b.InHours? ==> b.hours == DiffInHours(diffMillis) && 1 <= b.hours < 48
    ensures b.InDays? ==> b.days == DiffInHours(diffMillis) / 24 && b.days >= 2
  {
    var minutes := DiffInMinutes(diffMillis);
    var hours := DiffInHours(diffMillis);
    if minutes <= 0 then Expired
    else if hours < 1 then InMinutes(if 1 < minutes then minutes else 1)
    else if hours < 48 then InHours(hours)
    else InDays(hours / 24)
  }

  /** The text of one form, in Romanian for 'ro' and in English otherwise. */
  function Render(b: Bucket, language: string): (r: string)
    requires b.InMinutes? ==> b.minutes >= 1
    requires b.InHours? ==> b.hours >= 1
    requires b.InDays? ==> b.days >= 1
    ensures |r| >= 1
  {
    var ro := language == "ro";
    match b
    case Expired => if ro then "Expirat" else "Expired"
    case InMinutes(m) =>
      if ro then (if m == 1 then "\U{00EE}ntr-un minut" else "\U{00EE}n " + NatToString(m) + " minute")
      else (if m == 1 then "in 1 minute" else "in " + NatToString(m) + " minutes")
    case InHours(h) =>
      if ro then (if h == 1 then "\U{00EE}ntr-o or\U{0103}" else "\U{00EE}n " + NatToString(h) + " ore")
      else (if h == 1 then "in 1 hour" else "in " + NatToString(h) + " hours")
    case InDays(d) =>
      if ro then (if d == 1 then "\U{00EE}ntr-o zi" else "\U{00EE}n " + NatToString(d) + " zile")
      else (if d == 1 then "in 1 day" else "in " + NatToString(d) + " days")
  }

  /** formatTimeUntil. */
  function FormatTimeUntil(diffMillis: int, language: string): (r: string)
    ensures |r| >= 1
  {
    Render(Classify(diffMillis), language)
  }

  /** Once the deadline is at least a minute away, the hour difference is the
      minute difference in whole hours: the two truncations agree. */
  lemma HoursAreWholeMinutes(diffMillis: int)
    requires diffMillis >= 0
    ensures DiffInHours(diffMillis) == DiffInMinutes(diffMillis) / 60
  {
    var m := diffMillis / MillisPerMinute;
    var h := m / 60;
    assert diffMillis == m * MillisPerMinute + diffMillis % MillisPerMinute;
    assert m == h * 60 + m % 60;
    assert diffMillis == h * MillisPerHour + ((m % 60) * MillisPerMinute + diffMillis % MillisPerMinute);
    assert 0 <= (m % 60) * MillisPerMinute + diffMillis % MillisPerMinute < MillisPerHour;
  }

  /** The forms in the order a receding deadline passes through them. */
  function Rank(b: Bucket): nat {
    match b
    case Expired => 0
    case InMinutes(_) => 1
    case InHours(_) => 2
    case InDays(_) => 3
  }

  /** A later deadline never has a smaller minute or hour difference. */
  lemma DiffsMonotone(d1: int, d2: int)
    requires d1 <= d2
    ensures DiffInMinutes(d1) <= DiffInMinutes(d2)
    ensures DiffInHours(d1) <= DiffInHours(d2)
  {
  }

  /** A later deadline never moves the label to an earlier form: the forms
      are ordered expired, minutes, hours, days. */
  lemma FormsAreOrdered(d1: int, d2: int)
    requires d1 <= d2
    ensures Rank(Classify(d1)) <= Rank(Classify(d2))
  {
    DiffsMonotone(d1, d2);
  }

  /** Every language other than 'ro' gets the English text. */
  lemma OtherLanguagesAreEnglish(diffMillis: int, language: string)
    requires language != "ro"
    ensures FormatTimeUntil(diffMillis, language) == FormatTimeUntil(diffMillis, "en")
  {
  }

  /** The label says the deadline has passed exactly when the minute
      difference is not positive. */
  lemma ExpiredIff(diffMillis: int, language: string)
    ensures FormatTimeUntil(diffMillis, language) == "Expired" || FormatTimeUntil(diffMillis, language) == "Expirat"
        <==> DiffInMinutes(diffMillis) <= 0
  {
    var b := Classify(diffMillis);
    var r := FormatTimeUntil(diffMillis, language);
    if !b.Expired? {
      assert r[0] == 'i' || r[0] == '\U{00EE}';
    }
  }

  /** The singular day forms are never produced: the day form starts at
      48 hours, that is two days. */
  lemma NoSingularDay(diffMillis: int, language: string)
    ensures FormatTimeUntil(diffMillis, language) != "in 1 day"
    ensures FormatTimeUntil(diffMillis, language) != "\U{00EE}ntr-o zi"
  {
    var r := FormatTimeUntil(diffMillis, language);
    var b := Classify(diffMillis);
    if b.InDays? {
      var s := NatToString(b.days);
      assert |s| >= 1;
      if language == "ro" {
        assert r == "\U{00EE}n " + s + " zile";
        assert r[|r| - 1] == 'e';
      } else {
        assert r == "in " + s + " days";
        assert r[|r| - 1] == 's';
      }
    } else if !b.Expired? {
      assert r[|r| - 1] in "etsr\U{0103}";
    }
  }

  /** The number a form shows. */
  function Count(b: Bucket): int {
    match b
    case Expired => 0
    case InMinutes(m) => m
    case InHours(h) => h
    case InDays(d) => d
  }

  /** A pending English label is plural, ending in 's', exactly when the
      number it shows is not one. */
  lemma EnglishPluralIff(diffMillis: int)
    requires DiffInMinutes(diffMillis) > 0
    ensures var r := FormatTimeUntil(diffMillis, "en");
      r[|r| - 1] == 's' <==> Count(Classify(diffMillis)) != 1
  {
    var b := Classify(diffMillis);
    var r := FormatTimeUntil(diffMillis, "en");
    var n := Count(b);
    if n != 1 {
      var s := NatToString(n);
      if b.InMinutes? {
        assert r == "in " + s + " minutes";
      } else if b.InHours? {
        assert r == "in " + s + " hours";
      } else {
        assert r == "in " + s + " days";
      }
    }
  }
}

=== FILE: employee_validation.dfy ===
/** Employee account checks (employee/service/EmployeeValidationService.java). */
module EmployeeValidation {
  import opened Wrappers
  import opened Strings
  import opened Staff

  datatype CreateEmployeeRequest = CreateEmployeeRequest(
    username: Option<string>,
    email: Option<string>,
    firstName: Option<string>,
    lastName: Option<string>)

  /** A ValidationException names the offending field and a message. */
  datatype FieldCheck = Valid | Invalid(field: string, message: string)

  /** validateEmployeeData: the four fields must be non-blank, and the first
      blank one in the order username, email, first name, last name is reported. */
  function ValidateEmployeeData(r: CreateEmployeeRequest): (c: FieldCheck)
    ensures c.Valid? <==> !IsBlank(r.username) && !IsBlank(r.email) && !IsBlank(r.firstName) && !IsBlank(r.lastName)
    ensures IsBlank(r.username) ==> c == Invalid("username", "Username is required")
    ensures !IsBlank(r.username) && IsBlank(r.email) ==> c == Invalid("email", "Email is required")
    ensures !IsBlank(r.username) && !IsBlank(r.email) && IsBlank(r.firstName) ==> c == Invalid("firstName", "First name is required")
    ensures !IsBlank(r.username) && !IsBlank(r.email) && !IsBlank(r.firstName) && IsBlank(r.lastName)
      ==> c == Invalid("lastName", "Last name is required")
  {
    if IsBlank(r.username) then Invalid("username", "Username is required")
    else if IsBlank(r.email) then Invalid("email", "Email is required")
    else if IsBlank(r.firstName) then Invalid("firstName", "First name is required")
    else if IsBlank(r.lastName) then Invalid("lastName", "Last name is required")
    else Valid
  }

  function UsernameTaken(username: string): string {
    "Username '" + username + "' already exists"
  }

  /** validateUsernameUnique: refused exactly when some user already has the name. */
  function ValidateUsernameUnique(users: seq<User>, username: string): (r: Outcome)
    ensures r.Pass? <==> forall u :: u in users ==> u.username != username
    ensures r.Fail? ==> r.error == UsernameTaken(username)
  {
    if FindUserByUsername(users, username).Some? then Fail(UsernameTaken(username)) else Pass
  }

  /** validateUsernameUniqueForUpdate: the name may stay with its current owner. */
  function ValidateUsernameUniqueForUpdate(users: seq<User>, username: string, currentUserId: int): (r: Outcome)
    ensures r.Fail? ==> r.error == UsernameTaken(username)
    ensures (forall u :: u in users ==> u.username != username) ==> r.Pass?
    ensures r.Fail? ==> exists u :: u in users && u.username == username && u.id != currentUserId
  {
    match FindUserByUsername(users, username)
    case Some(u) => if u.id != currentUserId then Fail(UsernameTaken(username)) else Pass
    case None => Pass
  }

  /** With unique usernames, the update check refuses exactly when another
      user holds the name. */
  lemma UpdateCheckWithUniqueNames(users: seq<User>, username: string, currentUserId: int)
    requires forall u, v :: u in users && v in users && u.username == v.username ==> u == v
    ensures ValidateUsernameUniqueForUpdate(users, username, currentUserId).Pass?
        <==> forall u :: u in users && u.username == username ==> u.id == currentUserId
  {
  }

  /** validateEmployeeExists. */
  function ValidateEmployeeExists(users: seq<User>, employeeId: int): (r: Result<User>)
    ensures r.Success? ==> r.value in users && r.value.id == employeeId
    ensures r.Failure? <==> forall u :: u in users ==> u.id != employeeId
    ensures r.Failure? ==> r.error == "Employee with ID " + IntToString(employeeId) + " not found"
  {
    match FindUserById(users, employeeId)
    case Some(u) => Success(u)
    case None => Failure("Employee with ID " + IntToString(employeeId) + " not found")
  }
}

=== FILE: media.dfy ===
/** Activity photos and videos (activity/service/MediaService.java,
    activity/entity/Media.java, the media list of activity/entity/Activity.java)
    and the object-storage keys they live under
    (infrastructure/storage/R2StorageService.java). The bucket is modelled as
    the set of its keys; the random UUID of a new object and the configured
    public URL prefix are parameters. */
module MediaLibrary {
  import opened Wrappers
  import opened Strings
  import opened Activities

  datatype MediaKind = Image | Video

  /** What the service reads of an uploaded multipart file: its size in
      bytes and its declared content type, which may be absent. */
  datatype UploadedFile = UploadedFile(size: nat, contentType: Option<string>)

  const FileEmpty: string := "File is empty"
  const SizeExceeded: string := "File size exceeds limit"
  /** validateFile dereferences the content type of a non-empty file without
      a null check; the resulting exception is this failure. */
  const MissingContentType: string := "Content type is missing"
  const NullContentType: string := "Content type cannot be null"
  /** `parts[parts.length - 2]` on a URL with fewer than two segments. */
  const TooFewSegments: string := "Index out of bounds"

  const MaxImageSize: nat := 50_000_000
  const MaxOtherSize: nat := 500_000_000

  const AllowedTypes: seq<string> :=
    ["image/jpeg", "image/png", "image/webp", "image/gif", "video/mp4", "video/webm", "video/quicktime"]

  function TypeNotAllowed(contentType: string): string {
    "File type not allowed: " + contentType
  }

  function UnsupportedType(contentType: string): string {
    "Unsupported media type: " + contentType
  }

  /** The size limit for a content type: images are held to the smaller one. */
  function MaxSize(contentType: string): nat {
    if StartsWith(contentType, "image/") then MaxImageSize else MaxOtherSize
  }

  /** validateFile: emptiness first, then the size limit, then the list of
      allowed types; the first failed check gives the message. */
  function ValidateFile(f: UploadedFile): (r: Outcome)
    ensures r.Pass? <==> f.size > 0 && f.contentType.Some? && f.size <= MaxSize(f.contentType.value)
                         && f.contentType.value in AllowedTypes
    ensures f.size == 0 ==> r == Fail(FileEmpty)
    ensures f.size > 0 && f.contentType.Some? && f.size > MaxSize(f.contentType.value) ==> r == Fail(SizeExceeded)
    ensures (f.size > 0 && f.contentType.Some? && f.size <= MaxSize(f.contentType.value)
             && f.contentType.value !in AllowedTypes) ==> r == Fail(TypeNotAllowed(f.contentType.value))
  {
    if f.size == 0 then Fail(FileEmpty)
    else if f.contentType.None? then Fail(MissingContentType)
    else if f.size > MaxSize(f.contentType.value) then Fail(SizeExceeded)
    else if f.contentType.value !in AllowedTypes then Fail(TypeNotAllowed(f.contentType.value))
    else Pass
  }

  /** determineMediaType: the kind follows the `image/` or `video/` prefix. */
  function DetermineMediaType(contentType: Option<string>): (r: Result<MediaKind>)
    ensures r == Success(Image) <==> contentType.Some? && StartsWith(contentType.value, "image/")
    ensures r == Success(Video) <==>
      contentType.Some? && StartsWith(contentType.value, "video/") && !StartsWith(contentType.value, "image/")
    ensures contentType.None? ==> r == Failure(NullContentType)
    ensures contentType.Some? && r.Failure? ==> r.error == UnsupportedType(contentType.value)
  {
    if contentType.None? then Failure(NullContentType)
    else if StartsWith(contentType.value, "image/") then Success(Image)
    else if StartsWith(contentType.value, "video/") then Success(Video)
    else Failure(UnsupportedType(contentType.value))
  }

  /** Every file validateFile accepts gets a media kind, and an accepted
      image is within the image limit. */
  lemma AcceptedFileHasKind(f: UploadedFile)
    requires ValidateFile(f).Pass?
    ensures DetermineMediaType(f.contentType).Success?
    ensures DetermineMediaType(f.contentType).value == Image ==> f.size <= MaxImageSize
    ensures f.size <= MaxOtherSize
  {
    var t := f.contentType.value;
    assert t in AllowedTypes;
    if t[..6] == "image/" {
      assert StartsWith(t, "image/");
    } else {
      assert t[..6] == "video/";
      assert StartsWith(t, "video/");
    }
  }

  /** The '/'-separated segments of a string, empty ones included. */
  function Segments(s: string): (r: seq<string>)
    ensures |r| >= 1
    ensures forall p :: p in r ==> '/' !in p
  {
    if s == [] then [[]]
    else if s[0] == '/' then [[]] + Segments(s[1..])
    else
      var rest := Segments(s[1..]);
      [[s[0]] + rest[0]] + rest[1..]
  }

  /** Segments joined back with '/'. */
  function JoinSegments(parts: seq<string>): string
    requires |parts| >= 1
  {
    if |parts| == 1 then parts[0] else parts[0] + "/" + JoinSegments(parts[1..])
  }

  /** Splitting and joining are inverse: no character is lost or added. */
  lemma {:induction false} JoinOfSegments(s: string)
    ensures JoinSegments(Segments(s)) == s
  {
    if s != [] {
      JoinOfSegments(s[1..]);
      var rest := Segments(s[1..]);
      if s[0] == '/' {
        assert [[]] + rest == [[]] + Segments(s[1..]);
        assert ([[]] + rest)[1..] == rest;
        assert s == [] + "/" + JoinSegments(rest);
      } else {
        var r := [[s[0]] + rest[0]] + rest[1..];
        if |rest| == 1 {
          assert s == [s[0]] + s[1..];
        } else {
          assert r[1..] == rest[1..];
          assert JoinSegments(rest) == rest[0] + "/" + JoinSegments(rest[1..]);
          assert s == [s[0]] + s[1..];
        }
      }
    }
  }

  lemma {:induction false} SegmentsOfPlain(x: string)
    requires '/' !in x
    ensures Segments(x) == [x]
  {
    if x != [] {
      SegmentsOfPlain(x[1..]);
      assert x == [x[0]] + x[1..];
    }
  }

  /** A separator splits the segments of the two sides apart. */
  lemma {:induction false} SegmentsAround(a: string, b: string)
    ensures Segments(a + "/" + b) == Segments(a) + Segments(b)
  {
    if a == [] {
      assert a + "/" + b == "/" + b;
      assert ("/" + b)[1..] == b;
    } else {
      assert (a + "/" + b)[1..] == a[1..] + "/" + b;
      SegmentsAround(a[1..], b);
    }
  }

  /** `String.split("/")`: without a separator the string itself, otherwise
      the segments with trailing empty ones removed. */
  function JavaSplit(s: string): seq<string> {
    if '/' !in s then [s] else DropTrailingEmpty(Segments(s))
  }

  function DropTrailingEmpty(parts: seq<string>): (r: seq<string>)
    ensures |r| <= |parts| && r == parts[..|r|]
    ensures r != [] ==> r[|r| - 1] != []
  {
    if parts == [] then []
    else if parts[|parts| - 1] == [] then DropTrailingEmpty(parts[..|parts| - 1])
    else parts
  }

  /** extractFileNameFromUrl: the last two segments of the URL joined by '/'.
      A URL without a separator has a single segment and fails. */
  function ExtractFileName(url: string): (r: Result<string>)
    ensures '/' !in url ==> r == Failure(TooFewSegments)
    ensures r.Success? ==> '/' in r.value && r.value[|r.value| - 1] != '/'
  {
    var parts := JavaSplit(url);
    if |parts| < 2 then Failure(TooFewSegments)
    else
      var last := parts[|parts| - 1];
      assert last in Segments(url);
      Success(parts[|parts| - 2] + "/" + last)
  }

  /** The key of a new object: the folder, '/', a random UUID. */
  function StorageKey(folder: string, uuid: string): string {
    folder + "/" + uuid
  }

  /** The public URL of an object: the configured prefix followed by its key. */
  function StorageUrl(prefix: string, key: string): string {
    prefix + key
  }

  /** Deleting media finds the object it uploaded: for a prefix ending in
      '/', a folder without '/' and a non-empty UUID without '/', the name
      extracted from the public URL is the storage key. */
  lemma ExtractStorageKey(prefix: string, folder: string, uuid: string)
    requires |prefix| > 0 && prefix[|prefix| - 1] == '/'
    requires '/' !in folder && '/' !in uuid && uuid != []
    ensures ExtractFileName(StorageUrl(prefix, StorageKey(folder, uuid))) == Success(StorageKey(folder, uuid))
  {
    var head := prefix[..|prefix| - 1];
    var url := StorageUrl(prefix, StorageKey(folder, uuid));
    assert prefix == head + "/";
    assert url == head + "/" + (folder + "/" + uuid);
    SegmentsAround(head, folder + "/" + uuid);
    SegmentsAround(folder, uuid);
    SegmentsOfPlain(folder);
    SegmentsOfPlain(uuid);
    var parts := Segments(head) + [folder] + [uuid];
    assert Segments(url) == parts;
    assert url[|prefix| - 1] == '/';
    assert DropTrailingEmpty(parts) == parts;
  }

  /** A row of the media table. */
  datatype MediaRow = MediaRow(id: int, kind: MediaKind, activityId: int, url: string)

  function MediaNotFound(id: int): string {
    "Media not found with id: " + IntToString(id)
  }

  const DuplicateUrl: string := "Media URL already stored"

  function FindMedia(rows: seq<MediaRow>, id: int): (r: Option<MediaRow>)
    ensures r.Some? ==> r.value in rows && r.value.id == id
    ensures r.None? <==> forall m :: m in rows ==> m.id != id
  {
    if rows == [] then None
    else if rows[0].id == id then Some(rows[0])
    else FindMedia(rows[1..], id)
  }

  /** `findByActivityId`. */
  function MediaOf(rows: seq<MediaRow>, activityId: int): (r: seq<MediaRow>)
    ensures forall m :: m in r <==> m in rows && m.activityId == activityId
  {
    if rows == [] then []
    else if rows[0].activityId == activityId then [rows[0]] + MediaOf(rows[1..], activityId)
    else MediaOf(rows[1..], activityId)
  }

  /** `delete(media)`: every row but the one with that id. */
  function DeleteRow(rows: seq<MediaRow>, id: int): (r: seq<MediaRow>)
    ensures forall m :: m in r <==> m in rows && m.id != id
  {
    if rows == [] then []
    else if rows[0].id == id then DeleteRow(rows[1..], id)
    else [rows[0]] + DeleteRow(rows[1..], id)
  }

  predicate MediaTableValid(rows: seq<MediaRow>, nextId: int) {
    (forall i, j :: 0 <= i < j < |rows| ==> rows[i].id != rows[j].id && rows[i].url != rows[j].url)
    && (forall m :: m in rows ==> m.id < nextId)
  }

  lemma DeleteRowKeepsValid(rows: seq<MediaRow>, nextId: int, id: int)
    requires MediaTableValid(rows, nextId)
    ensures MediaTableValid(DeleteRow(rows, id), nextId)
  {
    if rows != [] {
      assert MediaTableValid(rows[1..], nextId);
      DeleteRowKeepsValid(rows[1..], nextId, id);
      var r := DeleteRow(rows, id);
      if rows[0].id != id {
        var tail := DeleteRow(rows[1..], id);
        assert r == [rows[0]] + tail;
        forall j | 0 <= j < |tail| ensures rows[0].id != tail[j].id && rows[0].url != tail[j].url {
          var k :| 0 <= k < |rows[1..]| && rows[1..][k] == tail[j];
          assert rows[k + 1] == tail[j];
        }
      }
    }
  }

  /** The media table and the bucket. */
  class MediaStore {
    var rows: seq<MediaRow>
    var nextId: int
    var objects: set<string>
    const urlPrefix: string

    predicate Valid()
      reads this
    {
      MediaTableValid(rows, nextId)
    }

    constructor(urlPrefix: string)
      ensures Valid() && rows == [] && nextId == 1 && objects == {} && this.urlPrefix == urlPrefix
    {
      rows := [];
      nextId := 1;
      objects := {};
      this.urlPrefix := urlPrefix;
    }

    /** getMediaByActivityId. */
    function MediaByActivity(activityId: int): (r: seq<MediaRow>)
      reads this
      ensures forall m :: m in r <==> m in rows && m.activityId == activityId
    {
      MediaOf(rows, activityId)
    }

    /** uploadFile: the file is validated and the activity looked up before
        anything is stored; then the object is put under a new key and a
        row records its URL and kind. A URL that is already recorded breaks
        the unique constraint: the row is not saved, but the object is
        already in the bucket. */
    method UploadFile(activities: seq<Activity>, file: UploadedFile, folder: string, activityId: int, uuid: string)
      returns (r: Result<string>)
      requires Valid()
      modifies this
      ensures Valid()
      ensures ValidateFile(file).Fail? ==>
        r == Failure(ValidateFile(file).error) && unchanged(this)
      ensures ValidateFile(file).Pass? && FindActivity(activities, activityId).None? ==>
        r == Failure(ActivityNotFoundWithId(activityId)) && unchanged(this)
      ensures ValidateFile(file).Pass? && FindActivity(activities, activityId).Some? ==>
        var key := StorageKey(folder, uuid);
        var url := StorageUrl(urlPrefix, key);
        objects == old(objects) + {key}
        && (if exists m :: m in old(rows) && m.url == url then
              r == Failure(DuplicateUrl) && rows == old(rows) && nextId == old(nextId)
            else
              r == Success(url) && nextId == old(nextId) + 1
              && rows == old(rows) + [MediaRow(old(nextId), DetermineMediaType(file.contentType).value, activityId, url)])
    {
      var valid := ValidateFile(file);
      if valid.Fail? {
        return Failure(valid.error);
      }
      if FindActivity(activities, activityId).None? {
        return Failure(ActivityNotFoundWithId(activityId));
      }
      var key := StorageKey(folder, uuid);
      objects := objects + {key};
      var url := StorageUrl(urlPrefix, key);
      AcceptedFileHasKind(file);
      var kind := DetermineMediaType(file.contentType).value;
      if exists m :: m in rows && m.url == url {
        return Failure(DuplicateUrl);
      }
      var row := MediaRow(nextId, kind, activityId, url);
      forall i | 0 <= i < |rows| ensures rows[i].id != row.id && rows[i].url != row.url {
        assert rows[i] in rows;
      }
      rows := rows + [row];
      nextId := nextId + 1;
      r := Success(url);
    }

    /** deleteMedia: the object named by the row's URL leaves the bucket and
        the row leaves the table. */
    method DeleteMedia(mediaId: int) returns (r: Outcome)
      requires Valid()
      modifies this
      ensures Valid() && nextId == old(nextId)
      ensures FindMedia(old(rows), mediaId).None? ==> r == Fail(MediaNotFound(mediaId)) && unchanged(this)
      ensures FindMedia(old(rows), mediaId).Some? ==>
        var key := ExtractFileName(FindMedia(old(rows), mediaId).value.url);
        (key.Failure? ==> r == Fail(key.error) && unchanged(this))
        && (key.Success? ==> r == Pass && objects == old(objects) - {key.value} && rows == DeleteRow(old(rows), mediaId))
    {
      var found := FindMedia(rows, mediaId);
      if found.None? {
        return Fail(MediaNotFound(mediaId));
      }
      var key := ExtractFileName(found.value.url);
      if key.Failure? {
        return Fail(key.error);
      }
      objects := objects - {key.value};
      DeleteRowKeepsValid(rows, nextId, mediaId);
      rows := DeleteRow(rows, mediaId);
      r := Pass;
    }
  }

  /** `List.remove(Object)`: drops the first occurrence, if any. */
  function RemoveFirst<T(==)>(s: seq<T>, x: T): (r: seq<T>)
    ensures multiset(r) == multiset(s) - multiset{x}
    ensures x !in s ==> r == s
  {
    if s == [] then []
    else
      assert s == [s[0]] + s[1..];
      if s[0] == x then s[1..]
      else [s[0]] + RemoveFirst(s[1..], x)
  }

  /** Removing what was just appended gives the list back, when it was not
      already in it; and one occurrence at most means none is left. */
  lemma RemoveFirstUndoesAppend<T>(s: seq<T>, x: T)
    requires x !in s
    ensures RemoveFirst(s + [x], x) == s
    ensures x !in RemoveFirst(s + [x], x)
  {
    if s != [] {
      assert (s + [x])[1..] == s[1..] + [x];
      RemoveFirstUndoesAppend(s[1..], x);
    }
  }

  /** A media entity as the activity's list sees it: an object with a link
      back to its activity. */
  class MediaItem {
    var kind: MediaKind
    var url: string
    var activity: ActivityMedia?

    constructor(kind: MediaKind, url: string)
      ensures this.kind == kind && this.url == url && activity == null
    {
      this.kind := kind;
      this.url := url;
      activity := null;
    }
  }

  /** The media list of one activity with the two helpers that keep both
      sides of the link in step. */
  class ActivityMedia {
    const activityId: int
    var mediaList: seq<MediaItem>

    constructor(activityId: int)
      ensures this.activityId == activityId && mediaList == []
    {
      this.activityId := activityId;
      mediaList := [];
    }

    /** addMedia: the item joins the list and points back at this activity. */
    method AddMedia(m: MediaItem)
      modifies this, m
      ensures mediaList == old(mediaList) + [m] && m.activity == this
      ensures m.kind == old(m.kind) && m.url == old(m.url)
    {
      mediaList := mediaList + [m];
      m.activity := this;
    }

    /** removeMedia: the first occurrence leaves the list and the item's
        link is cleared; an item listed once is then no longer listed. */
    method RemoveMedia(m: MediaItem)
      modifies this, m
      ensures mediaList == RemoveFirst(old(mediaList), m) && m.activity == null
      ensures multiset(mediaList) == multiset(old(mediaList)) - multiset{m}
      ensures multiset(old(mediaList))[m] <= 1 ==> m !in mediaList
      ensures m.kind == old(m.kind) && m.url == old(m.url)
    {
      mediaList := RemoveFirst(mediaList, m);
      m.activity := null;
    }
  }
}

=== FILE: monthly.dfy ===
/** The monthly calendar (BookingService.getAvailableDatesForMonth and
    isDayAvailable): a day of the month is offered when it is not in the past,
    someone works that day, and some work window holds a 30-minute-grid slot of
    the activity's duration that overlaps none of that employee's non-cancelled
    bookings of the day. */
module MonthlyAvailability {
  import opened Wrappers
  import opened Strings
  import opened Times
  import opened Activities
  import opened Staff
  import opened Bookings
  import opened SlotScan

  /** The day's bookings of one employee (the stream filter on employee id). */
  function BookingsOfEmployee(bookings: seq<Booking>, employeeId: int): (r: seq<Booking>)
    ensures forall b :: b in r <==> b in bookings && b.employee.id == employeeId
  {
    if bookings == [] then []
    else if bookings[0].employee.id == employeeId then [bookings[0]] + BookingsOfEmployee(bookings[1..], employeeId)
    else BookingsOfEmployee(bookings[1..], employeeId)
  }

  /** `findByBookingDateBetweenAndStatusNot(..., CANCELLED)` grouped by date. */
  function ActiveBookingsOn(bookings: seq<Booking>, date: Date): (r: seq<Booking>)
    ensures forall b :: b in r <==> b in bookings && b.bookingDate == date && b.status != Cancelled
  {
    if bookings == [] then []
    else if bookings[0].bookingDate == date && bookings[0].status != Cancelled then [bookings[0]] + ActiveBookingsOn(bookings[1..], date)
    else ActiveBookingsOn(bookings[1..], date)
  }

  /** No booking of the list overlaps [start, end). */
  predicate SlotFree(bookings: seq<Booking>, start: TimeOfDay, end: TimeOfDay) {
    forall b :: b in bookings ==> !Overlaps(start, end, b.startTime, b.endTime)
  }

  predicate FreeSlotAt(w: WorkHour, d: int, bookings: seq<Booking>, t: TimeOfDay) {
    SlotFree(BookingsOfEmployee(bookings, w.employee.id), t, PlusMinutes(t, d))
  }

  /** Some window has a grid start whose slot is free for its employee. */
  predicate DayAvailable(d: int, workHours: seq<WorkHour>, bookings: seq<Booking>) {
    exists w, t :: w in workHours && t in ScanStarts(w.startTime, d, w.endTime) && FreeSlotAt(w, d, bookings, t)
  }

  /** isDayAvailable, with the scan guard that stops at the end of the day. The
      party size is not consulted, as in the source. */
  method IsDayAvailable(date: Date, activity: Activity, participants: int, workHours: seq<WorkHour>, bookings: seq<Booking>)
    returns (available: bool)
    ensures available <==> DayAvailable(activity.durationMinutes, workHours, bookings)
  {
    var d := activity.durationMinutes;
    var i := 0;
    while i < |workHours|
      invariant 0 <= i <= |workHours|
      invariant forall j, t :: 0 <= j < i && t in ScanStarts(workHours[j].startTime, d, workHours[j].endTime)
                               ==> !FreeSlotAt(workHours[j], d, bookings, t)
    {
      var w := workHours[i];
      var own := BookingsOfEmployee(bookings, w.employee.id);
      var scan: int := w.startTime;
      while scan < MinutesPerDay && scan + d <= w.endTime
        invariant w.startTime <= scan && (scan - w.startTime) % ScanStep == 0
        invariant forall t :: t in ScanStarts(w.startTime, d, w.endTime) && t !in ScanStarts(scan, d, w.endTime)
                              ==> !FreeSlotAt(w, d, bookings, t)
        decreases MinutesPerDay - scan
      {
        var slotEnd := PlusMinutes(scan, d);
        var isSlotFree := true;
        var k := 0;
        while k < |own|
          invariant 0 <= k <= |own|
          invariant isSlotFree <==> forall m :: 0 <= m < k ==> !Overlaps(scan, slotEnd, own[m].startTime, own[m].endTime)
        {
          if Overlaps(scan, slotEnd, own[k].startTime, own[k].endTime) {
            isSlotFree := false;
            break;
          }
          k := k + 1;
        }
        assert isSlotFree <==> SlotFree(own, scan, slotEnd);
        if isSlotFree {
          assert scan in ScanStarts(w.startTime, d, w.endTime) by {
            ScanStartsMembership(scan, d, w.endTime, scan);
            TailOfScan(w.startTime, scan, d, w.endTime);
          }
          return true;
        }
        assert ScanStarts(scan, d, w.endTime) == [scan as TimeOfDay] + ScanStarts(scan + ScanStep, d, w.endTime);
        scan := scan + ScanStep;
      }
      assert ScanStarts(scan, d, w.endTime) == [];
      i := i + 1;
    }
    return false;
  }

  /** A start still ahead in the scan is one of the window's starts. */
  lemma TailOfScan(start: TimeOfDay, cur: int, d: int, end: TimeOfDay)
    requires start <= cur && (cur - start) % ScanStep == 0
    ensures forall t :: t in ScanStarts(cur, d, end) ==> t in ScanStarts(start, d, end)
  {
    forall t | t in ScanStarts(cur, d, end)
      ensures t in ScanStarts(start, d, end)
    {
      ScanStartsMembership(cur, d, end, t);
      ScanStartsMembership(start, d, end, t);
    }
  }

  /** The days getAvailableDatesForMonth offers. */
  predicate DateOffered(activity: Activity, today: Date, workHours: seq<WorkHour>, bookings: seq<Booking>, day: Date) {
    !DateBefore(day, today)
    && WorkHoursOn(workHours, day) != []
    && DayAvailable(activity.durationMinutes, WorkHoursOn(workHours, day), ActiveBookingsOn(bookings, day))
  }

  /** getAvailableDatesForMonth: an unknown activity id is refused with the
      not-found message; otherwise the offered days of the month of `date`,
      in calendar order. Dates are returned as values; their ISO text form is
      not modelled. */
  method GetAvailableDatesForMonth(activities: seq<Activity>, activityId: int, date: Date, today: Date,
                                   participants: int, workHours: seq<WorkHour>, bookings: seq<Booking>)
    returns (r: Result<seq<Date>>)
    requires ValidDate(date)
    ensures FindActivity(activities, activityId).None? ==> r == Failure(ActivityNotFound(activityId))
    ensures FindActivity(activities, activityId).Some? ==>
      var activity := FindActivity(activities, activityId).value;
      r.Success?
      && (forall x :: x in r.value <==> (ValidDate(x) && x.year == date.year && x.month == date.month
                                         && DateOffered(activity, today, workHours, bookings, x)))
      && (forall i, j :: 0 <= i < j < |r.value| ==> DateBefore(r.value[i], r.value[j]))
  {
    var activity := FindActivity(activities, activityId);
    if activity.None? {
      return Failure(ActivityNotFound(activityId));
    }
    var dates := ScanMonth(activity.value, date, today, participants, workHours, bookings);
    r := Success(dates);
  }

  /** The day loop of getAvailableDatesForMonth, for a found activity. */
  method ScanMonth(activity: Activity, date: Date, today: Date, participants: int,
                   workHours: seq<WorkHour>, bookings: seq<Booking>)
    returns (dates: seq<Date>)
    requires ValidDate(date)
    ensures forall x :: x in dates <==> (ValidDate(x) && x.year == date.year && x.month == date.month
                                         && DateOffered(activity, today, workHours, bookings, x))
    ensures forall i, j :: 0 <= i < j < |dates| ==> DateBefore(dates[i], dates[j])
  {
    var days := DaysOfMonth(date.year, date.month);
    dates := [];
    var day := 1;
    while day <= |days|
      invariant 1 <= day <= |days| + 1
      invariant MonthPrefix(activity, today, workHours, bookings, date, days, day - 1, dates)
    {
      var current := days[day - 1];
      var offered := false;
      if !DateBefore(current, today) {
        var windows := WorkHoursOn(workHours, current);
        if windows != [] {
          offered := IsDayAvailable(current, activity, participants, windows, ActiveBookingsOn(bookings, current));
        }
      }
      MonthPrefixExtend(activity, today, workHours, bookings, date, days, day - 1, dates, offered);
      if offered {
        dates := dates + [current];
      }
      day := day + 1;
    }
    MonthPrefixComplete(activity, today, workHours, bookings, date, days, dates);
  }

  /** The scan of getAvailableDatesForMonth after the first `k` days of the
      month: `dates` holds, in order, exactly the offered ones among them. */
  ghost predicate MonthPrefix(activity: Activity, today: Date, workHours: seq<WorkHour>, bookings: seq<Booking>,
                              date: Date, days: seq<Date>, k: nat, dates: seq<Date>)
  {
    k <= |days|
    && (forall x :: x in dates <==> (x in days[..k] && DateOffered(activity, today, workHours, bookings, x)))
    && (forall x :: x in dates ==> x.year == date.year && x.month == date.month && x.day <= k)
    && (forall i, j :: 0 <= i < j < |dates| ==> DateBefore(dates[i], dates[j]))
  }

  lemma MonthPrefixExtend(activity: Activity, today: Date, workHours: seq<WorkHour>, bookings: seq<Booking>,
                          date: Date, days: seq<Date>, k: nat, dates: seq<Date>, offered: bool)
    requires ValidDate(date) && days == DaysOfMonth(date.year, date.month) && k < |days|
    requires MonthPrefix(activity, today, workHours, bookings, date, days, k, dates)
    requires offered == DateOffered(activity, today, workHours, bookings, days[k])
    ensures MonthPrefix(activity, today, workHours, bookings, date, days, k + 1,
                        if offered then dates + [days[k]] else dates)
  {
    var current := days[k];
    assert days[..k + 1] == days[..k] + [current];
    assert current == Date(date.year, date.month, k + 1);
    if offered {
      var next := dates + [current];
      forall x | x in next
        ensures x.year == date.year && x.month == date.month && x.day <= k + 1
      {
        if x != current {
          assert x in dates;
        }
      }
      forall i, j | 0 <= i < j < |next|
        ensures DateBefore(next[i], next[j])
      {
        if j == |dates| {
          assert next[i] in dates;
        } else {
          assert next[i] == dates[i] && next[j] == dates[j];
        }
      }
    }
  }

  lemma MonthPrefixComplete(activity: Activity, today: Date, workHours: seq<WorkHour>, bookings: seq<Booking>,
                            date: Date, days: seq<Date>, dates: seq<Date>)
    requires ValidDate(date) && days == DaysOfMonth(date.year, date.month)
    requires MonthPrefix(activity, today, workHours, bookings, date, days, |days|, dates)
    ensures forall x :: x in dates <==> (ValidDate(x) && x.year == date.year && x.month == date.month
                                         && DateOffered(activity, today, workHours, bookings, x))
    ensures forall i, j :: 0 <= i < j < |dates| ==> DateBefore(dates[i], dates[j])
  {
    assert days[..|days|] == days;
  }

  /** A day on which some employee works a window long enough for the activity
      and has no active booking that day is offered, unless it is past. */
  lemma IdleEmployeeOpensTheDay(activity: Activity, today: Date, workHours: seq<WorkHour>, bookings: seq<Booking>,
                                day: Date, w: WorkHour)
    requires !DateBefore(day, today)
    requires w in workHours && w.workDate == day
    requires w.startTime + activity.durationMinutes <= w.endTime
    requires forall b :: b in bookings && b.bookingDate == day && b.status != Cancelled ==> b.employee.id != w.employee.id
    ensures DateOffered(activity, today, workHours, bookings, day)
  {
    var windows := WorkHoursOn(workHours, day);
    assert w in windows;
    ScanStartsMembership(w.startTime, activity.durationMinutes, w.endTime, w.startTime);
    assert FreeSlotAt(w, activity.durationMinutes, ActiveBookingsOn(bookings, day), w.startTime);
  }

  /** Cancelled bookings never close a day. */
  lemma CancelledBookingsIgnored(activity: Activity, today: Date, workHours: seq<WorkHour>, bookings: seq<Booking>,
                                 day: Date, cancelled: Booking)
    requires cancelled.status == Cancelled
    ensures DateOffered(activity, today, workHours, bookings + [cancelled], day)
        == DateOffered(activity, today, workHours, bookings, day)
  {
    ActiveBookingsOnAppend(bookings, cancelled, day);
  }

  lemma {:induction false} ActiveBookingsOnAppend(bookings: seq<Booking>, b: Booking, day: Date)
    requires b.status == Cancelled
    ensures ActiveBookingsOn(bookings + [b], day) == ActiveBookingsOn(bookings, day)
  {
    if bookings != [] {
      assert (bookings + [b])[1..] == bookings[1..] + [b];
      ActiveBookingsOnAppend(bookings[1..], b, day);
    } else {
      assert bookings + [b] == [b];
    }
  }
}

=== FILE: numerics.dfy ===
/** Integer arithmetic with Java's meaning. Dafny's `/` is Euclidean, while
    BigDecimal's HALF_UP mode rounds a tie away from zero and `Math.round`
    rounds a tie up. */
module Numerics {

  function Abs(x: int): (r: nat)
    ensures r == x || r == -x
  {
    if x < 0 then -x else x
  }

  /** BigDecimal's `divide(b, scale, RoundingMode.HALF_UP)` on integers: the
      integer nearest to a/b, a tie going away from zero. */
  function RoundHalfUp(a: int, b: int): (q: int)
    requires b > 0
    ensures -b <= 2 * (q * b - a) <= b
    ensures 2 * (q * b - a) == b ==> a >= 0
    ensures 2 * (q * b - a) == -b ==> a < 0
  {
    if a >= 0 then
      DivBounds(2 * a + b, 2 * b);
      (2 * a + b) / (2 * b)
    else
      DivBounds(-2 * a + b, 2 * b);
      -((-2 * a + b) / (2 * b))
  }

  /** The rounding is symmetric around zero, as HALF_UP is. */
  lemma RoundHalfUpOdd(a: int, b: int)
    requires b > 0
    ensures RoundHalfUp(-a, b) == -RoundHalfUp(a, b)
  {
  }

  /** Java's `Math.round(a / b)`: the nearest integer, a tie going up. */
  function RoundHalfCeiling(a: int, b: int): (q: int)
    requires b > 0
    ensures -b < 2 * (q * b - a) <= b
  {
    DivBounds(2 * a + b, 2 * b);
    (2 * a + b) / (2 * b)
  }

  lemma DivBounds(a: int, b: int)
    requires b > 0
    ensures (a / b) * b <= a < (a / b) * b + b
  {
  }
}

=== FILE: payment.dfy ===
/** Payment bookkeeping (payment/service/PaymentService.java): a card payment
    is opened for a booking's deposit, remainder or full price; when the
    gateway reports success the payment completes and the booking's paid
    and remaining amounts and its statuses move on; a remainder can also be
    paid, or promised, in cash. Amounts are in cents. The payment gateway
    is outside the model: the intent id and client secret it returns are
    parameters. */
module Payments {
  import opened Wrappers
  import opened Strings
  import opened Times
  import opened Bookings
  import opened Repository

  /** PaymentIntentRequest.PaymentType and Payment.PaymentType. */
  datatype PaymentType = Deposit | Remaining | Full

  datatype PaymentMethod = Card | Cash

  /** Payment.PaymentStatus. */
  datatype PaymentState = PaymentPending | PaymentCompleted | PaymentFailed | PaymentRefunded

  /** The Payment entity; the booking it belongs to is referenced by id. */
  datatype Payment = Payment(
    id: int,
    bookingId: int,
    amount: int,
    paymentType: PaymentType,
    paymentMethod: PaymentMethod,
    status: PaymentState,
    stripePaymentIntentId: Option<string>,
    stripeClientSecret: Option<string>,
    createdAt: DateTime,
    completedAt: Option<DateTime>,
    failureReason: Option<string>)

  /** PaymentIntentResponse. */
  datatype IntentResponse = IntentResponse(clientSecret: string, paymentId: int, paymentIntentId: string)

  const InvalidAmount: string := "Invalid payment amount"
  /** The intent id and client secret columns are unique; storing a second
      payment with the same intent id or the same client secret is refused by
      the table. */
  const DuplicateIntent: string := "Payment intent already recorded"

  /** BookingNotFoundException's message. */
  function BookingNotFound(id: int): string {
    "Booking with ID " + IntToString(id) + " not found"
  }

  function PaymentNotFound(intentId: string): string {
    "Payment not found for PaymentIntent: " + intentId
  }

  /** calculatePaymentAmount. */
  function PaymentAmount(b: Booking, t: PaymentType): int {
    match t
    case Deposit => b.depositPaid
    case Remaining => b.remainingAmount
    case Full => b.totalPrice
  }

  /** On a stored booking the three amounts agree: paying the remainder on
      top of what is paid makes the full price, and before any payment the
      remainder is the full price. */
  lemma PaymentAmountsAgree(b: Booking)
    requires Settled(b)
    ensures PaymentAmount(b, Remaining) + b.paidAmount == PaymentAmount(b, Full)
    ensures b.paidAmount == 0 ==> PaymentAmount(b, Remaining) == PaymentAmount(b, Full)
    ensures PaymentAmount(b, Remaining) > 0 <==> b.paidAmount < b.totalPrice
  {
  }

  /** `findByStripePaymentIntentId`. */
  function FindByIntent(payments: seq<Payment>, intentId: string): (r: Option<Payment>)
    ensures r.Some? ==> r.value in payments && r.value.stripePaymentIntentId == Some(intentId)
    ensures r.None? <==> forall p :: p in payments ==> p.stripePaymentIntentId != Some(intentId)
  {
    if payments == [] then None
    else if payments[0].stripePaymentIntentId == Some(intentId) then Some(payments[0])
    else FindByIntent(payments[1..], intentId)
  }

  /** `save` of a stored payment. */
  function ReplacePayment(payments: seq<Payment>, p: Payment): (r: seq<Payment>)
    ensures |r| == |payments|
    ensures forall i :: 0 <= i < |payments| ==> (r[i].stripePaymentIntentId ==
      (if payments[i].id == p.id then p.stripePaymentIntentId else payments[i].stripePaymentIntentId))
    ensures forall q :: q in r ==> q == p || q in payments
  {
    if payments == [] then []
    else [if payments[0].id == p.id then p else payments[0]] + ReplacePayment(payments[1..], p)
  }

  /** After a save of a payment that keeps its intent id, looking that
      intent up gives the saved payment. */
  lemma {:induction false} FindAfterReplace(payments: seq<Payment>, p: Payment, intentId: string)
    requires FindByIntent(payments, intentId).Some? && FindByIntent(payments, intentId).value.id == p.id
    requires p.stripePaymentIntentId == Some(intentId)
    ensures FindByIntent(ReplacePayment(payments, p), intentId) == Some(p)
  {
    if payments[0].stripePaymentIntentId != Some(intentId) {
      FindAfterReplace(payments[1..], p, intentId);
    }
  }

  /** Every payment belongs to a stored booking (the booking column is NOT
      NULL and references the booking table). */
  predicate References(payments: seq<Payment>, bookings: seq<Booking>) {
    forall p :: p in payments ==> FindBooking(bookings, p.bookingId).Some?
  }

  /** Saving a booking keeps every reference valid. */
  lemma UpdateKeepsReferences(payments: seq<Payment>, bookings: seq<Booking>, b: Booking)
    requires References(payments, bookings) && UniqueIds(bookings) && FindBooking(bookings, b.id).Some?
    ensures References(payments, ReplaceById(bookings, b))
  {
    forall p | p in payments
      ensures FindBooking(ReplaceById(bookings, b), p.bookingId).Some?
    {
      ReplaceThenFind(bookings, b, p.bookingId);
    }
  }

  /** The booking after a successful payment of `amount`: the amount is
      added to what is paid, the remainder recalculated, the payment status
      follows the remainder, and a pending booking with money received is
      confirmed. */
  function ApplyPaymentSuccess(b: Booking, amount: int): (r: Booking)
    ensures Settled(r) && r.id == b.id
  {
    var paid := b.(paidAmount := b.paidAmount + amount);
    var settled := RecalculateRemaining(paid);
    var marked :=
      if settled.remainingAmount == 0 then settled.(paymentStatus := FullyPaid)
      else if settled.paidAmount > 0 then settled.(paymentStatus := DepositPaid)
      else settled;
    if marked.status == Pending && marked.paymentStatus != Unpaid then marked.(status := Confirmed) else marked
  }

  /** What handlePaymentSuccess promises about the booking. */
  lemma PaymentSuccessFacts(b: Booking, amount: int)
    ensures var r := ApplyPaymentSuccess(b, amount);
      r.paidAmount == b.paidAmount + amount && Settled(r)
      && (r.paidAmount == b.totalPrice ==> r.paymentStatus == FullyPaid)
      && (r.paidAmount != b.totalPrice && r.paidAmount > 0 ==> r.paymentStatus == DepositPaid)
      && (r.paidAmount != b.totalPrice && r.paidAmount <= 0 ==> r.paymentStatus == b.paymentStatus)
      && (b.status == Pending && r.paymentStatus != Unpaid ==> r.status == Confirmed)
      && (!(b.status == Pending && r.paymentStatus != Unpaid) ==> r.status == b.status)
      && r.(paidAmount := b.paidAmount, remainingAmount := b.remainingAmount, paymentStatus := b.paymentStatus,
            status := b.status) == b
  {
  }

  /** Nothing guards against the same success being reported twice: the
      amount is added again, and a booking paid in full by one report ends
      with a negative remainder after the second. */
  lemma ReplayPaysTwice(b: Booking, amount: int)
    requires Settled(b) && amount == b.remainingAmount && amount > 0
    ensures ApplyPaymentSuccess(b, amount).remainingAmount == 0
    ensures ApplyPaymentSuccess(ApplyPaymentSuccess(b, amount), amount).paidAmount == b.totalPrice + amount
    ensures ApplyPaymentSuccess(ApplyPaymentSuccess(b, amount), amount).remainingAmount == -amount
  {
    PaymentSuccessFacts(b, amount);
    PaymentSuccessFacts(ApplyPaymentSuccess(b, amount), amount);
  }

  /** The booking after recordCashPayment: everything is paid. */
  function ApplyCashPayment(b: Booking): (r: Booking)
  {
    b.(paidAmount := b.totalPrice, remainingAmount := 0, paymentStatus := FullyPaid)
  }

  /** The cash payment recorded is exactly what was missing: together with
      what had been paid it makes the full price, and the booking is then
      settled and fully paid. */
  lemma CashPaymentCoversRemainder(b: Booking)
    requires Settled(b)
    ensures b.paidAmount + PaymentAmount(b, Remaining) == ApplyCashPayment(b).paidAmount
    ensures Settled(ApplyCashPayment(b)) && ApplyCashPayment(b).paymentStatus == FullyPaid
    ensures RecalculateRemaining(ApplyCashPayment(b)) == ApplyCashPayment(b)
  {
  }

  /** No two stored payments share a gateway intent id. */
  predicate UniqueIntents(payments: seq<Payment>) {
    forall p, q :: (p in payments && q in payments && p.stripePaymentIntentId.Some?
                    && p.stripePaymentIntentId == q.stripePaymentIntentId) ==> p == q
  }

  /** No two stored payments share a client secret. */
  predicate UniqueSecrets(payments: seq<Payment>) {
    forall p, q :: (p in payments && q in payments && p.stripeClientSecret.Some?
                    && p.stripeClientSecret == q.stripeClientSecret) ==> p == q
  }

  /** Some stored payment carries the client secret. */
  predicate SecretStored(payments: seq<Payment>, secret: string) {
    exists p :: p in payments && p.stripeClientSecret == Some(secret)
  }

  /** Saving the payment found by an intent id, keeping its client secret,
      keeps the client secrets unique. */
  lemma ReplaceKeepsUniqueSecrets(payments: seq<Payment>, p: Payment, intentId: string)
    requires UniqueSecrets(payments)
    requires FindByIntent(payments, intentId).Some? && FindByIntent(payments, intentId).value.id == p.id
    requires p.stripeClientSecret == FindByIntent(payments, intentId).value.stripeClientSecret
    ensures UniqueSecrets(ReplacePayment(payments, p))
  {
    var before := FindByIntent(payments, intentId).value;
    var after := ReplacePayment(payments, p);
    forall x, y | x in after && y in after && x.stripeClientSecret.Some?
                  && x.stripeClientSecret == y.stripeClientSecret
      ensures x == y
    {
      if x != p && y == p {
        SavedRowGone(payments, p, x);
      } else if x == p && y != p {
        SavedRowGone(payments, p, y);
      }
    }
  }

  /** Saving the payment found by an intent id, keeping that id, keeps the
      intent ids unique. */
  lemma ReplaceKeepsUniqueIntents(payments: seq<Payment>, p: Payment, intentId: string)
    requires UniqueIntents(payments)
    requires FindByIntent(payments, intentId).Some? && FindByIntent(payments, intentId).value.id == p.id
    requires p.stripePaymentIntentId == Some(intentId)
    ensures UniqueIntents(ReplacePayment(payments, p))
  {
    var before := FindByIntent(payments, intentId).value;
    var after := ReplacePayment(payments, p);
    forall x, y | x in after && y in after && x.stripePaymentIntentId.Some?
                  && x.stripePaymentIntentId == y.stripePaymentIntentId
      ensures x == y
    {
      if x != p && y == p {
        SavedRowGone(payments, p, x);
      } else if x == p && y != p {
        SavedRowGone(payments, p, y);
      }
    }
  }

  /** Completing or failing a payment keeps every payment's booking. */
  lemma SaveKeepsReferences(payments: seq<Payment>, bookings: seq<Booking>, p: Payment, intentId: string)
    requires References(payments, bookings)
    requires FindByIntent(payments, intentId).Some? && FindByIntent(payments, intentId).value.bookingId == p.bookingId
    ensures References(ReplacePayment(payments, p), bookings)
  {
  }

  /** Every stored id was handed out before the next one, and no two stored
      payments share an intent id or a client secret. */
  predicate LedgerInvariant(payments: seq<Payment>, nextId: int) {
    (forall p :: p in payments ==> p.id < nextId) && UniqueIntents(payments) && UniqueSecrets(payments)
  }

  /** Saving the payment found by an intent id, keeping its id and intent id,
      keeps the table's invariant, and the intent then finds the saved row. */
  lemma ReplaceKeepsLedger(payments: seq<Payment>, nextId: int, p: Payment, intentId: string)
    requires LedgerInvariant(payments, nextId)
    requires FindByIntent(payments, intentId).Some? && FindByIntent(payments, intentId).value.id == p.id
    requires p.stripePaymentIntentId == Some(intentId)
    requires p.stripeClientSecret == FindByIntent(payments, intentId).value.stripeClientSecret
    ensures LedgerInvariant(ReplacePayment(payments, p), nextId)
    ensures FindByIntent(ReplacePayment(payments, p), intentId) == Some(p)
  {
    FindAfterReplace(payments, p, intentId);
    ReplaceKeepsUniqueIntents(payments, p, intentId);
    ReplaceKeepsUniqueSecrets(payments, p, intentId);
  }

  /** The payment table. */
  class PaymentRepository {
    var payments: seq<Payment>
    var nextId: int

    predicate Valid()
      reads this
    {
      LedgerInvariant(payments, nextId)
    }

    constructor()
      ensures Valid() && payments == [] && nextId == 1
    {
      payments := [];
      nextId := 1;
    }

    /** `save` of a new payment: it receives the next id. */
    method Insert(p: Payment) returns (saved: Payment)
      requires Valid()
      requires p.stripePaymentIntentId.Some? ==> FindByIntent(payments, p.stripePaymentIntentId.value).None?
      requires p.stripeClientSecret.Some? ==> !SecretStored(payments, p.stripeClientSecret.value)
      modifies this
      ensures Valid()
      ensures saved == p.(id := old(nextId)) && payments == old(payments) + [saved] && nextId == old(nextId) + 1
    {
      saved := p.(id := nextId);
      payments := payments + [saved];
      nextId := nextId + 1;
    }

    /** `save` of the payment found by its intent id, keeping that id. */
    method Update(p: Payment, intentId: string)
      requires Valid()
      requires FindByIntent(payments, intentId).Some? && FindByIntent(payments, intentId).value.id == p.id
      requires p.stripePaymentIntentId == Some(intentId)
      requires p.stripeClientSecret == FindByIntent(payments, intentId).value.stripeClientSecret
      modifies this
      ensures Valid()
      ensures payments == ReplacePayment(old(payments), p) && nextId == old(nextId)
      ensures FindByIntent(payments, intentId) == Some(p)
    {
      ReplaceKeepsLedger(payments, nextId, p, intentId);
      payments := ReplacePayment(payments, p);
    }
  }

  /** A row still present after saving p either is p or carries another id. */
  lemma {:induction false} SavedRowGone(payments: seq<Payment>, p: Payment, x: Payment)
    requires x in ReplacePayment(payments, p) && x != p
    ensures x.id != p.id
  {
    if payments != [] {
      if x != ([if payments[0].id == p.id then p else payments[0]])[0] {
        assert x in ReplacePayment(payments[1..], p);
        SavedRowGone(payments[1..], p, x);
      }
    }
  }

  /** createPaymentIntent: the amount the payment type asks for must be
      positive; only then is the gateway asked and a pending card payment
      stored. */
  method CreatePaymentIntent(ledger: PaymentRepository, repo: BookingRepository, bookingId: int, t: PaymentType,
                             intentId: string, clientSecret: string, now: DateTime) returns (r: Result<IntentResponse>)
    requires ledger.Valid() && repo.Valid() && References(ledger.payments, repo.bookings)
    modifies ledger
    ensures ledger.Valid() && References(ledger.payments, repo.bookings)
    ensures r.Failure? ==> ledger.payments == old(ledger.payments) && ledger.nextId == old(ledger.nextId)
    ensures FindBooking(repo.bookings, bookingId).None? ==> r == Failure(BookingNotFound(bookingId))
    ensures FindBooking(repo.bookings, bookingId).Some? ==>
      var b := FindBooking(repo.bookings, bookingId).value;
      (PaymentAmount(b, t) <= 0 ==> r == Failure(InvalidAmount))
      && (PaymentAmount(b, t) > 0
          && (FindByIntent(old(ledger.payments), intentId).Some? || SecretStored(old(ledger.payments), clientSecret))
          ==> r == Failure(DuplicateIntent))
      && (PaymentAmount(b, t) > 0
          && FindByIntent(old(ledger.payments), intentId).None? && !SecretStored(old(ledger.payments), clientSecret) ==>
            r == Success(IntentResponse(clientSecret, old(ledger.nextId), intentId))
            && ledger.payments == old(ledger.payments) + [Payment(old(ledger.nextId), bookingId, PaymentAmount(b, t), t,
                                                                   Card, PaymentPending, Some(intentId),
                                                                   Some(clientSecret), now, None, None)])
  {
    var found := FindBooking(repo.bookings, bookingId);
    if found.None? {
      return Failure(BookingNotFound(bookingId));
    }
    var amount := PaymentAmount(found.value, t);
    if amount <= 0 {
      return Failure(InvalidAmount);
    }
    if FindByIntent(ledger.payments, intentId).Some? || SecretStored(ledger.payments, clientSecret) {
      return Failure(DuplicateIntent);
    }
    var saved := ledger.Insert(Payment(0, bookingId, amount, t, Card, PaymentPending, Some(intentId), Some(clientSecret),
                                       now, None, None));
    r := Success(IntentResponse(clientSecret, saved.id, intentId));
  }

  /** handlePaymentSuccess: the payment completes and the booking it belongs
      to takes the amount; no check that the payment was still pending. */
  method HandlePaymentSuccess(ledger: PaymentRepository, repo: BookingRepository, intentId: string, now: DateTime)
    returns (r: Outcome)
    requires ledger.Valid() && repo.Valid() && References(ledger.payments, repo.bookings)
    modifies ledger, repo
    ensures ledger.Valid() && repo.Valid() && References(ledger.payments, repo.bookings)
    ensures repo.nextId == old(repo.nextId) && ledger.nextId == old(ledger.nextId)
    ensures FindByIntent(old(ledger.payments), intentId).None? ==>
      r == Fail(PaymentNotFound(intentId)) && ledger.payments == old(ledger.payments)
      && repo.bookings == old(repo.bookings)
    ensures FindByIntent(old(ledger.payments), intentId).Some? ==>
      var p := FindByIntent(old(ledger.payments), intentId).value;
      var b := FindBooking(old(repo.bookings), p.bookingId).value;
      var completed := p.(status := PaymentCompleted, completedAt := Some(now));
      r == Pass
      && ledger.payments == ReplacePayment(old(ledger.payments), completed)
      && FindByIntent(ledger.payments, intentId) == Some(completed)
      && repo.bookings == ReplaceById(old(repo.bookings), ApplyPaymentSuccess(b, p.amount))
  {
    var found := FindByIntent(ledger.payments, intentId);
    if found.None? {
      return Fail(PaymentNotFound(intentId));
    }
    var p := found.value;
    var completed := p.(status := PaymentCompleted, completedAt := Some(now));
    SaveKeepsReferences(ledger.payments, repo.bookings, completed, intentId);
    ledger.Update(completed, intentId);
    var b := FindBooking(repo.bookings, p.bookingId).value;
    SaveSettled(repo, ledger.payments, ApplyPaymentSuccess(b, p.amount));
    r := Pass;
  }

  /** Saves a booking whose amounts already add up, so the save hook leaves
      it as it is; the payments keep their bookings. */
  method SaveSettled(repo: BookingRepository, payments: seq<Payment>, b: Booking)
    requires repo.Valid() && References(payments, repo.bookings)
    requires FindBooking(repo.bookings, b.id).Some? && Settled(b)
    modifies repo
    ensures repo.Valid() && References(payments, repo.bookings) && repo.nextId == old(repo.nextId)
    ensures repo.bookings == ReplaceById(old(repo.bookings), b)
  {
    assert RecalculateRemaining(b) == b;
    UpdateKeepsReferences(payments, repo.bookings, b);
    var _ := repo.Update(b);
  }

  /** handlePaymentFailure: the payment fails with the reason; the booking
      is untouched. */
  method HandlePaymentFailure(ledger: PaymentRepository, intentId: string, reason: string) returns (r: Outcome)
    requires ledger.Valid()
    modifies ledger
    ensures ledger.Valid() && ledger.nextId == old(ledger.nextId)
    ensures FindByIntent(old(ledger.payments), intentId).None? ==>
      r == Fail(PaymentNotFound(intentId)) && ledger.payments == old(ledger.payments)
    ensures FindByIntent(old(ledger.payments), intentId).Some? ==>
      var failed := FindByIntent(old(ledger.payments), intentId).value.(status := PaymentFailed,
                                                                        failureReason := Some(reason));
      r == Pass && ledger.payments == ReplacePayment(old(ledger.payments), failed)
      && FindByIntent(ledger.payments, intentId) == Some(failed)
  {
    var found := FindByIntent(ledger.payments, intentId);
    if found.None? {
      return Fail(PaymentNotFound(intentId));
    }
    var failed := found.value.(status := PaymentFailed, failureReason := Some(reason));
    ledger.Update(failed, intentId);
    r := Pass;
  }

  /** markRemainingAsCash: only the cash promise changes. */
  method MarkRemainingAsCash(repo: BookingRepository, bookingId: int) returns (r: Outcome)
    requires repo.Valid()
    modifies repo
    ensures repo.Valid() && repo.nextId == old(repo.nextId)
    ensures FindBooking(old(repo.bookings), bookingId).None? ==>
      r == Fail(BookingNotFound(bookingId)) && repo.bookings == old(repo.bookings)
    ensures FindBooking(old(repo.bookings), bookingId).Some? ==>
      r == Pass
      && repo.bookings == ReplaceById(old(repo.bookings),
                                      FindBooking(old(repo.bookings), bookingId).value.(willPayRemainingCash := true))
  {
    var found := FindBooking(repo.bookings, bookingId);
    if found.None? {
      return Fail(BookingNotFound(bookingId));
    }
    var updated := found.value.(willPayRemainingCash := true);
    assert Settled(found.value);
    assert RecalculateRemaining(updated) == updated;
    var _ := repo.Update(updated);
    r := Pass;
  }

  /** recordCashPayment: a completed cash payment of the remainder is stored
      and the booking becomes fully paid. */
  method RecordCashPayment(ledger: PaymentRepository, repo: BookingRepository, bookingId: int, now: DateTime)
    returns (r: Outcome)
    requires ledger.Valid() && repo.Valid() && References(ledger.payments, repo.bookings)
    modifies ledger, repo
    ensures ledger.Valid() && repo.Valid() && References(ledger.payments, repo.bookings)
    ensures repo.nextId == old(repo.nextId)
    ensures FindBooking(old(repo.bookings), bookingId).None? ==>
      r == Fail(BookingNotFound(bookingId)) && repo.bookings == old(repo.bookings)
      && ledger.payments == old(ledger.payments) && ledger.nextId == old(ledger.nextId)
    ensures FindBooking(old(repo.bookings), bookingId).Some? ==>
      var b := FindBooking(old(repo.bookings), bookingId).value;
      r == Pass
      && ledger.payments == old(ledger.payments) + [Payment(old(ledger.nextId), bookingId, b.remainingAmount, Remaining,
                                                             Cash, PaymentCompleted, None, None, now, Some(now), None)]
      && ledger.nextId == old(ledger.nextId) + 1
      && repo.bookings == ReplaceById(old(repo.bookings), ApplyCashPayment(b))
  {
    var found := FindBooking(repo.bookings, bookingId);
    if found.None? {
      return Fail(BookingNotFound(bookingId));
    }
    var b := found.value;
    var _ := ledger.Insert(Payment(0, bookingId, b.remainingAmount, Remaining, Cash, PaymentCompleted, None, None, now,
                                   Some(now), None));
    var updated := ApplyCashPayment(b);
    assert RecalculateRemaining(updated) == updated;
    UpdateKeepsReferences(ledger.payments, repo.bookings, updated);
    var _ := repo.Update(updated);
    r := Pass;
  }
}

=== FILE: repository.dfy ===
/** The booking table (booking/repository/BookingRepository.java) as the
    services see it: bookings in insertion order, each with its own id. Every
    save runs the entity's `calculateRemainingAmount` hook first, so a stored
    booking's paid and remaining amounts always add up to its total. */
module Repository {
  import opened Wrappers
  import opened Bookings

  predicate UniqueIds(store: seq<Booking>) {
    forall i, j :: 0 <= i < j < |store| ==> store[i].id != store[j].id
  }

  /** The amounts a booking has after its save hook ran. */
  predicate Settled(b: Booking) {
    b.paidAmount + b.remainingAmount == b.totalPrice
  }

  /** `save` of an entity that is already stored: the row with its id is
      overwritten, every other row stays. */
  function ReplaceById(store: seq<Booking>, b: Booking): (r: seq<Booking>)
    ensures |r| == |store|
    ensures forall i :: 0 <= i < |store| ==> r[i].id == store[i].id
  {
    seq(|store|, i requires 0 <= i < |store| => if store[i].id == b.id then b else store[i])
  }

  /** After a replace, looking the id up gives the new booking and every other
      id still finds what it found before. */
  lemma ReplaceThenFind(store: seq<Booking>, b: Booking, id: int)
    requires UniqueIds(store) && FindBooking(store, b.id).Some?
    ensures UniqueIds(ReplaceById(store, b))
    ensures FindBooking(ReplaceById(store, b), b.id) == Some(b)
    ensures id != b.id ==> FindBooking(ReplaceById(store, b), id) == FindBooking(store, id)
  {
    var r := ReplaceById(store, b);
    FindIsPosition(r, b.id);
    FindIsPosition(store, id);
    FindIsPosition(r, id);
  }

  /** A lookup returns the first row carrying the id, and finds one whenever
      a row carries it. */
  lemma {:induction false} FindIsPosition(store: seq<Booking>, id: int)
    ensures FindBooking(store, id).Some? ==> exists k :: (0 <= k < |store| && store[k] == FindBooking(store, id).value
      && forall j :: 0 <= j < k ==> store[j].id != id)
    ensures (exists k :: 0 <= k < |store| && store[k].id == id) ==> FindBooking(store, id).Some?
  {
    if store != [] && store[0].id != id {
      FindIsPosition(store[1..], id);
      if FindBooking(store, id).Some? {
        var k :| 0 <= k < |store[1..]| && store[1..][k] == FindBooking(store, id).value
          && forall j :: 0 <= j < k ==> store[1..][j].id != id;
        assert store[k + 1] == FindBooking(store, id).value;
      }
      if exists k :: 0 <= k < |store| && store[k].id == id {
        var k :| 0 <= k < |store| && store[k].id == id;
        assert store[1..][k - 1].id == id;
      }
    }
  }

  /** With unique ids, the lookup by a stored booking's id finds that booking. */
  lemma {:induction false} FindUnique(store: seq<Booking>, k: int)
    requires UniqueIds(store) && 0 <= k < |store|
    ensures FindBooking(store, store[k].id) == Some(store[k])
  {
    if k > 0 {
      assert store[0].id != store[k].id;
      assert store[1..][k - 1] == store[k];
      FindUnique(store[1..], k - 1);
    }
  }

  class BookingRepository {
    var bookings: seq<Booking>
    var nextId: int

    predicate Valid()
      reads this
    {
      UniqueIds(bookings)
      && (forall b :: b in bookings ==> b.id < nextId)
      && (forall b :: b in bookings ==> Settled(b))
    }

    constructor()
      ensures Valid() && bookings == [] && nextId == 1
    {
      bookings := [];
      nextId := 1;
    }

    /** `save` of a new entity: it receives the next id and goes to the end. */
    method Insert(b: Booking) returns (saved: Booking)
      requires Valid()
      modifies this
      ensures Valid()
      ensures saved == RecalculateRemaining(b.(id := old(nextId)))
      ensures bookings == old(bookings) + [saved] && nextId == old(nextId) + 1
    {
      saved := RecalculateRemaining(b.(id := nextId));
      bookings := bookings + [saved];
      nextId := nextId + 1;
    }

    /** `save` of a stored entity. */
    method Update(b: Booking) returns (saved: Booking)
      requires Valid() && FindBooking(bookings, b.id).Some?
      modifies this
      ensures Valid()
      ensures saved == RecalculateRemaining(b)
      ensures bookings == ReplaceById(old(bookings), saved) && nextId == old(nextId)
    {
      saved := RecalculateRemaining(b);
      var found := FindBooking(bookings, b.id).value;
      ReplaceThenFind(bookings, saved, saved.id);
      bookings := ReplaceById(bookings, saved);
      assert found.id < nextId;
      forall x | x in bookings
        ensures x.id < nextId && Settled(x)
      {
        var k :| 0 <= k < |bookings| && bookings[k] == x;
      }
    }
  }
}

=== FILE: scan.dfy ===
/** The 30-minute scan over a work window that both the time-slot listing
    (BookingSchedulingService.getAvailableTimeSlots) and the monthly calendar
    (BookingService.isDayAvailable) run: candidate starts from the window's
    start, every 30 minutes, while a slot of the activity's duration still ends
    within the window. */
module SlotScan {
  import opened Times

  const ScanStep: int := 30

  /** The source's loop guard, `cur.plusMinutes(d)` before or equal to `end`,
      computed on LocalTime and therefore modulo one day. */
  predicate ScanGuardAsWritten(cur: TimeOfDay, d: int, end: TimeOfDay) {
    PlusMinutes(cur, d) <= end
  }

  /** The source's step, `cur.plusMinutes(30)`. */
  function ScanStepAsWritten(cur: TimeOfDay): (r: TimeOfDay)
    ensures cur + ScanStep < MinutesPerDay ==> r == cur + ScanStep
    ensures cur + ScanStep >= MinutesPerDay ==> r == cur + ScanStep - MinutesPerDay
  {
    PlusMinutes(cur, ScanStep)
  }

  /** The scan as written never leaves a window that ends at 23:59: whatever the
      current time, the wrapped slot end is before or at 23:59, so the guard
      holds again after every step. */
  lemma AsWrittenScanNeverEnds(cur: TimeOfDay, d: int, steps: nat)
    ensures ScanGuardAsWritten(AsWrittenAfter(cur, steps), d, MinutesPerDay - 1)
  {
  }

  /** The current time after some iterations of the source's loop. */
  function AsWrittenAfter(cur: TimeOfDay, steps: nat): TimeOfDay
    decreases steps
  {
    if steps == 0 then cur else AsWrittenAfter(ScanStepAsWritten(cur), steps - 1)
  }

  /** Windows that close before 23:59 do not escape either: with a 30-minute
      activity and a window closing at 23:45 (09:00 to 23:45, say), a scan
      starting on the half hour passes the guard at every step, because the
      slot starting 23:30 ends at the wrapped time 00:00, and after 48 steps it
      is back where it started. */
  lemma AsWrittenScanCycles(start: TimeOfDay, k: nat)
    requires start % ScanStep == 0
    ensures ScanGuardAsWritten(AsWrittenAfter(start, k), 30, 1425)
    ensures AsWrittenAfter(start, 48) == start
  {
    AfterOnGrid(start, k);
    GridGuard(AsWrittenAfter(start, k));
    FullDayCycle(start);
  }

  /** Where the scan as written does stop, it can list slots outside the
      window: for a 360-minute activity in an 18:00 to 23:00 window the first
      slot ends at the wrapped time 00:00, so the guard holds; the scan goes on
      through 02:00, whose slot 02:00 to 08:00 lies wholly outside the window,
      and stops only at 17:30, after 47 listed starts. The intended scan
      lists none. */
  lemma AsWrittenScanLeavesWindow()
    ensures forall k :: 0 <= k <= 46 ==> ScanGuardAsWritten(AsWrittenAfter(1080, k), 360, 1380)
    ensures AsWrittenAfter(1080, 16) == 120 && PlusMinutes(120, 360) == 480
    ensures !ScanGuardAsWritten(AsWrittenAfter(1080, 47), 360, 1380)
    ensures ScanStarts(1080, 360, 1380) == []
  {
    forall k | 0 <= k <= 46
      ensures ScanGuardAsWritten(AsWrittenAfter(1080, k), 360, 1380)
    {
      AfterFormula(1080, k);
      if k < 12 {
        assert AsWrittenAfter(1080, k) == 1080 + ScanStep * k;
      } else {
        assert AsWrittenAfter(1080, k) == ScanStep * k - 360;
      }
    }
    AfterFormula(1080, 16);
    AfterFormula(1080, 47);
  }

  lemma FullDayCycle(start: TimeOfDay)
    ensures AsWrittenAfter(start, 48) == start
  {
    AfterFormula(start, 48);
    assert start + ScanStep * 48 == start + MinutesPerDay;
  }

  lemma GridGuard(c: TimeOfDay)
    requires c % ScanStep == 0
    ensures ScanGuardAsWritten(c, 30, 1425)
  {
    if c > 1380 {
      assert c == 1410;
    }
  }

  lemma {:induction false} AfterOnGrid(start: TimeOfDay, k: nat)
    requires start % ScanStep == 0
    ensures AsWrittenAfter(start, k) % ScanStep == 0
    decreases k
  {
    if k > 0 {
      AfterOnGrid(start, k - 1);
      AfterShift(start, k - 1);
    }
  }

  /** After k steps of 30 minutes the current time is the start plus 30k
      minutes, modulo one day. */
  lemma {:induction false} AfterFormula(cur: TimeOfDay, k: nat)
    ensures AsWrittenAfter(cur, k) == (cur + ScanStep * k) % MinutesPerDay
    decreases k
  {
    if k > 0 {
      AfterFormula(cur, k - 1);
      AfterShift(cur, k - 1);
      var p := AsWrittenAfter(cur, k - 1);
      assert p == (cur + ScanStep * (k - 1)) % MinutesPerDay;
      ModStep(cur + ScanStep * (k - 1));
    }
  }

  lemma ModStep(a: int)
    ensures (a % MinutesPerDay + ScanStep) % MinutesPerDay == (a + ScanStep) % MinutesPerDay
  {
    var q := a / MinutesPerDay;
    assert a == q * MinutesPerDay + a % MinutesPerDay;
  }

  lemma {:induction false} AfterShift(cur: TimeOfDay, k: nat)
    ensures AsWrittenAfter(cur, k + 1) == ScanStepAsWritten(AsWrittenAfter(cur, k))
    decreases k
  {
    if k > 0 {
      AfterShift(ScanStepAsWritten(cur), k - 1);
    }
  }

  /** The intended scan: candidate starts of slots that end within the window
      on the same day. */
  function ScanStarts(cur: int, d: int, end: TimeOfDay): (r: seq<TimeOfDay>)
    requires cur >= 0
    decreases MinutesPerDay - cur
  {
    if cur < MinutesPerDay && cur + d <= end then [cur as TimeOfDay] + ScanStarts(cur + ScanStep, d, end) else []
  }

  /** A time is a candidate start exactly when it lies on the 30-minute grid
      from the window start and its slot still fits in the window. */
  lemma {:induction false} ScanStartsMembership(cur: int, d: int, end: TimeOfDay, t: int)
    requires cur >= 0
    ensures t in ScanStarts(cur, d, end)
        <==> cur <= t < MinutesPerDay && (t - cur) % ScanStep == 0 && t + d <= end
    decreases MinutesPerDay - cur
  {
    if cur < MinutesPerDay && cur + d <= end {
      ScanStartsMembership(cur + ScanStep, d, end, t);
      if t != cur && cur <= t && (t - cur) % ScanStep == 0 {
        assert cur + ScanStep <= t;
        assert (t - (cur + ScanStep)) % ScanStep == 0;
      }
    }
  }

  /** Candidate starts ascend strictly, 30 minutes apart. */
  lemma {:induction false} ScanStartsAscending(cur: int, d: int, end: TimeOfDay)
    requires cur >= 0
    ensures forall i :: 0 <= i < |ScanStarts(cur, d, end)| ==> ScanStarts(cur, d, end)[i] == cur + ScanStep * i
    decreases MinutesPerDay - cur
  {
    if cur < MinutesPerDay && cur + d <= end {
      ScanStartsAscending(cur + ScanStep, d, end);
    }
  }

  /** Where the slot end does not pass midnight, the source's guard and the
      intended one agree, so the two scans visit the same starts. */
  lemma GuardsAgreeWithoutWrap(cur: TimeOfDay, d: int, end: TimeOfDay)
    requires 0 <= cur + d < MinutesPerDay
    ensures ScanGuardAsWritten(cur, d, end) <==> cur + d <= end
  {
  }
}

=== FILE: scheduling.dfy ===
/** Time-slot listing (booking/service/BookingSchedulingService.java): every
    work window of the day is scanned in 30-minute steps, and each candidate
    slot is marked available when at least one enabled employee could take the
    requested party at that time. */
module Scheduling {
  import opened Wrappers
  import opened Times
  import opened Activities
  import opened Staff
  import opened Bookings
  import opened Capacity
  import opened SlotScan

  /** TimeSlotDTO; being a value with structural equality, duplicates collapse in the set. */
  datatype TimeSlot = TimeSlot(startTime: TimeOfDay, endTime: TimeOfDay, available: bool)

  /** Some employee of the list can take the booking. */
  predicate SomeoneCanHandle(store: seq<Booking>, employees: seq<User>, date: Date, start: TimeOfDay, end: TimeOfDay,
                             activity: Activity, participants: int)
  {
    exists e :: e in employees && CanEmployeeHandleBooking(store, e, date, start, end, activity, participants, None)
  }

  /** isTimeSlotAvailableForParticipants. */
  method IsTimeSlotAvailableForParticipants(store: seq<Booking>, start: TimeOfDay, end: TimeOfDay, date: Date,
                                            employees: seq<User>, activity: Activity, participants: int)
    returns (available: bool)
    ensures available <==> SomeoneCanHandle(store, employees, date, start, end, activity, participants)
  {
    var i := 0;
    while i < |employees|
      invariant 0 <= i <= |employees|
      invariant forall j :: 0 <= j < i ==> !CanEmployeeHandleBooking(store, employees[j], date, start, end, activity, participants, None)
    {
      if CanEmployeeHandleBooking(store, employees[i], date, start, end, activity, participants, None) {
        return true;
      }
      i := i + 1;
    }
    return false;
  }

  /** isTimeSlotAvailable: the same question for the activity's minimum party. */
  method IsTimeSlotAvailable(store: seq<Booking>, start: TimeOfDay, end: TimeOfDay, date: Date,
                             employees: seq<User>, activity: Activity)
    returns (available: bool)
    ensures available <==> SomeoneCanHandle(store, employees, date, start, end, activity, activity.minParticipants)
  {
    var i := 0;
    while i < |employees|
      invariant 0 <= i <= |employees|
      invariant forall j :: 0 <= j < i ==> !CanEmployeeHandleBooking(store, employees[j], date, start, end, activity, activity.minParticipants, None)
    {
      if CanEmployeeHandleBooking(store, employees[i], date, start, end, activity, activity.minParticipants, None) {
        return true;
      }
      i := i + 1;
    }
    return false;
  }

  /** The requested party size, or the activity's minimum when none (or a
      non-positive one) is given. */
  function ParticipantCount(requested: Option<int>, activity: Activity): (n: int)
    ensures requested.Some? && requested.value > 0 ==> n == requested.value
    ensures !(requested.Some? && requested.value > 0) ==> n == activity.minParticipants
  {
    if requested.Some? && requested.value > 0 then requested.value else activity.minParticipants
  }

  /** The slot listed for a candidate start. */
  function SlotAt(store: seq<Booking>, employees: seq<User>, date: Date, activity: Activity, participants: int,
                  t: TimeOfDay): TimeSlot
  {
    var end := PlusMinutes(t, activity.durationMinutes);
    TimeSlot(t, end, SomeoneCanHandle(store, employees, date, t, end, activity, participants))
  }

  function WindowSlots(store: seq<Booking>, employees: seq<User>, date: Date, activity: Activity, participants: int,
                       starts: seq<TimeOfDay>): set<TimeSlot>
  {
    set t | t in starts :: SlotAt(store, employees, date, activity, participants, t)
  }

  /** The slots of a list of windows: the union over the windows. */
  function SlotsOf(store: seq<Booking>, employees: seq<User>, date: Date, activity: Activity, participants: int,
                   windows: seq<WorkHour>): set<TimeSlot>
  {
    if windows == [] then {}
    else
      var w := windows[|windows| - 1];
      SlotsOf(store, employees, date, activity, participants, windows[..|windows| - 1])
        + WindowSlots(store, employees, date, activity, participants, ScanStarts(w.startTime, activity.durationMinutes, w.endTime))
  }

  /** What getAvailableTimeSlots returns for a date once the role table has
      its ROLE_EMPLOYEE row. */
  function AvailableSlots(workHours: seq<WorkHour>, store: seq<Booking>, users: seq<User>, date: Date,
                          requested: Option<int>, activity: Activity): set<TimeSlot>
  {
    var employees := ActiveEmployees(users);
    if employees == [] then {}
    else SlotsOf(store, employees, date, activity, ParticipantCount(requested, activity), WorkHoursOn(workHours, date))
  }

  /** getAvailableTimeSlots, with the scan guard that stops at the end of the
      day (see SlotScan.AsWrittenScanNeverEnds for the source's guard). It fails
      when the role table (`roleNames`, the names of its rows) has no
      ROLE_EMPLOYEE row, before the employee list is built. */
  method GetAvailableTimeSlots(workHours: seq<WorkHour>, store: seq<Booking>, users: seq<User>,
                               roleNames: set<string>, date: Date, requested: Option<int>, activity: Activity)
    returns (r: Result<set<TimeSlot>>)
    ensures RoleEmployee !in roleNames ==> r == Failure(RoleNotFoundMessage)
    ensures RoleEmployee in roleNames ==> r == Success(AvailableSlots(workHours, store, users, date, requested, activity))
  {
    var windows := WorkHoursOn(workHours, date);
    if RoleEmployee !in roleNames {
      return Failure(RoleNotFoundMessage);
    }
    var employees := ActiveEmployees(users);
    if employees == [] {
      return Success({});
    }
    var count := ParticipantCount(requested, activity);
    var slots := {};
    var i := 0;
    while i < |windows|
      invariant 0 <= i <= |windows|
      invariant slots == SlotsOf(store, employees, date, activity, count, windows[..i])
    {
      var found := ScanWindow(store, employees, date, activity, count, windows[i]);
      slots := slots + found;
      SlotsOfPrefix(store, employees, date, activity, count, windows, i);
      i := i + 1;
    }
    assert windows[..i] == windows;
    r := Success(slots);
  }

  /** The inner loop of getAvailableTimeSlots: one work window, scanned in
      30-minute steps. */
  method ScanWindow(store: seq<Booking>, employees: seq<User>, date: Date, activity: Activity, count: int, w: WorkHour)
    returns (slots: set<TimeSlot>)
    ensures slots == WindowSlots(store, employees, date, activity, count,
                                 ScanStarts(w.startTime, activity.durationMinutes, w.endTime))
  {
    var d := activity.durationMinutes;
    slots := {};
    var cur: int := w.startTime;
    while cur < MinutesPerDay && cur + d <= w.endTime
      invariant cur >= 0
      invariant slots + WindowSlots(store, employees, date, activity, count, ScanStarts(cur, d, w.endTime))
             == WindowSlots(store, employees, date, activity, count, ScanStarts(w.startTime, d, w.endTime))
      decreases MinutesPerDay - cur
    {
      var end := PlusMinutes(cur, d);
      var available := IsTimeSlotAvailableForParticipants(store, cur, end, date, employees, activity, count);
      ScanAdvance(store, employees, date, activity, count, cur, w.endTime, slots, TimeSlot(cur, end, available));
      slots := slots + {TimeSlot(cur, end, available)};
      cur := cur + ScanStep;
    }
    assert ScanStarts(cur, d, w.endTime) == [];
  }

  lemma SlotsOfPrefix(store: seq<Booking>, employees: seq<User>, date: Date, activity: Activity, participants: int,
                      windows: seq<WorkHour>, i: nat)
    requires i < |windows|
    ensures SlotsOf(store, employees, date, activity, participants, windows[..i + 1])
         == SlotsOf(store, employees, date, activity, participants, windows[..i])
            + WindowSlots(store, employees, date, activity, participants,
                          ScanStarts(windows[i].startTime, activity.durationMinutes, windows[i].endTime))
  {
    assert windows[..i + 1][..i] == windows[..i];
  }

  /** One step of the scan: the slot at the current start moves from the
      part still to scan to the part found. */
  lemma ScanAdvance(store: seq<Booking>, employees: seq<User>, date: Date, activity: Activity, participants: int,
                    cur: TimeOfDay, end: TimeOfDay, found: set<TimeSlot>, s: TimeSlot)
    requires cur + activity.durationMinutes <= end
    requires s == SlotAt(store, employees, date, activity, participants, cur)
    ensures found + WindowSlots(store, employees, date, activity, participants, ScanStarts(cur, activity.durationMinutes, end))
         == (found + {s}) + WindowSlots(store, employees, date, activity, participants,
                                        ScanStarts(cur + ScanStep, activity.durationMinutes, end))
  {
    WindowSlotsUnfold(store, employees, date, activity, participants, cur, end);
  }

  lemma WindowSlotsUnfold(store: seq<Booking>, employees: seq<User>, date: Date, activity: Activity, participants: int,
                          cur: TimeOfDay, end: TimeOfDay)
    requires cur + activity.durationMinutes <= end
    ensures WindowSlots(store, employees, date, activity, participants, ScanStarts(cur, activity.durationMinutes, end))
         == {SlotAt(store, employees, date, activity, participants, cur)}
            + WindowSlots(store, employees, date, activity, participants, ScanStarts(cur + ScanStep, activity.durationMinutes, end))
  {
    assert ScanStarts(cur, activity.durationMinutes, end) == [cur] + ScanStarts(cur + ScanStep, activity.durationMinutes, end);
  }

  lemma {:induction false} SlotsOfMembership(store: seq<Booking>, employees: seq<User>, date: Date, activity: Activity,
                                             participants: int, windows: seq<WorkHour>, s: TimeSlot)
    ensures s in SlotsOf(store, employees, date, activity, participants, windows)
        <==> exists w, t :: w in windows && t in ScanStarts(w.startTime, activity.durationMinutes, w.endTime)
                           && s == SlotAt(store, employees, date, activity, participants, t)
  {
    if windows != [] {
      var init := windows[..|windows| - 1];
      SlotsOfMembership(store, employees, date, activity, participants, init, s);
      assert windows == init + [windows[|windows| - 1]];
    }
  }

  /** The window and the start a listed slot comes from. */
  lemma {:induction false} SlotSource(store: seq<Booking>, employees: seq<User>, date: Date, activity: Activity,
                                      participants: int, windows: seq<WorkHour>, s: TimeSlot)
    returns (w: WorkHour, t: TimeOfDay)
    requires s in SlotsOf(store, employees, date, activity, participants, windows)
    ensures w in windows && t in ScanStarts(w.startTime, activity.durationMinutes, w.endTime)
    ensures s == SlotAt(store, employees, date, activity, participants, t)
  {
    var init := windows[..|windows| - 1];
    var last := windows[|windows| - 1];
    if s in SlotsOf(store, employees, date, activity, participants, init) {
      w, t := SlotSource(store, employees, date, activity, participants, init, s);
      assert w in windows by { assert windows == init + [last]; }
    } else {
      w := last;
      t :| t in ScanStarts(w.startTime, activity.durationMinutes, w.endTime)
           && s == SlotAt(store, employees, date, activity, participants, t);
    }
  }

  /** Every listed slot starts on the 30-minute grid of a work window of that
      date, lasts the activity's duration and ends within the window; it is
      marked available exactly when some enabled employee can take the party
      (the requested size, or the activity's minimum) at that time. */
  lemma ListedSlotsAreWellFormed(workHours: seq<WorkHour>, store: seq<Booking>, users: seq<User>, date: Date,
                                 requested: Option<int>, activity: Activity, s: TimeSlot)
    requires activity.durationMinutes >= 0
    requires s in AvailableSlots(workHours, store, users, date, requested, activity)
    ensures exists w :: (w in workHours && w.workDate == date
      && w.startTime <= s.startTime && (s.startTime - w.startTime) % ScanStep == 0
      && s.endTime == s.startTime + activity.durationMinutes <= w.endTime)
    ensures s.available <==> SomeoneCanHandle(store, ActiveEmployees(users), date, s.startTime, s.endTime, activity,
                                              ParticipantCount(requested, activity))
  {
    var w, t := ListedSlotSource(workHours, store, users, date, requested, activity, s);
    ListedSlotFits(workHours, date, w, t, activity.durationMinutes, s);
  }

  /** The work window of that date and the start a listed slot comes from. */
  lemma ListedSlotSource(workHours: seq<WorkHour>, store: seq<Booking>, users: seq<User>, date: Date,
                         requested: Option<int>, activity: Activity, s: TimeSlot)
    returns (w: WorkHour, t: TimeOfDay)
    requires s in AvailableSlots(workHours, store, users, date, requested, activity)
    ensures w in workHours && w.workDate == date && t in ScanStarts(w.startTime, activity.durationMinutes, w.endTime)
    ensures s.startTime == t && s.endTime == PlusMinutes(t, activity.durationMinutes)
    ensures s.available <==> SomeoneCanHandle(store, ActiveEmployees(users), date, s.startTime, s.endTime, activity,
                                              ParticipantCount(requested, activity))
  {
    var employees := ActiveEmployees(users);
    var windows := WorkHoursOn(workHours, date);
    assert employees != [];
    w, t := SlotSource(store, employees, date, activity, ParticipantCount(requested, activity), windows, s);
  }

  /** A slot at a candidate start of a window of that date lies on the
      window's grid and ends within it. */
  lemma ListedSlotFits(workHours: seq<WorkHour>, date: Date, w: WorkHour, t: TimeOfDay, d: int, s: TimeSlot)
    requires w in workHours && w.workDate == date
    requires d >= 0 && t in ScanStarts(w.startTime, d, w.endTime)
    requires s.startTime == t && s.endTime == PlusMinutes(t, d)
    ensures exists w :: (w in workHours && w.workDate == date
      && w.startTime <= s.startTime && (s.startTime - w.startTime) % ScanStep == 0
      && s.endTime == s.startTime + d <= w.endTime)
  {
    ScanStartsMembership(w.startTime, d, w.endTime, t);
  }

  /** Conversely, every grid start whose slot fits in a work window of that
      date is listed, with its availability. */
  lemma EveryFittingStartIsListed(workHours: seq<WorkHour>, store: seq<Booking>, users: seq<User>, date: Date,
                                  requested: Option<int>, activity: Activity, w: WorkHour, t: TimeOfDay)
    requires ActiveEmployees(users) != []
    requires w in workHours && w.workDate == date
    requires w.startTime <= t && (t - w.startTime) % ScanStep == 0 && t + activity.durationMinutes <= w.endTime
    ensures SlotAt(store, ActiveEmployees(users), date, activity, ParticipantCount(requested, activity), t)
            in AvailableSlots(workHours, store, users, date, requested, activity)
  {
    var employees := ActiveEmployees(users);
    var count := ParticipantCount(requested, activity);
    var windows := WorkHoursOn(workHours, date);
    ScanStartsMembership(w.startTime, activity.durationMinutes, w.endTime, t);
    SlotsOfMembership(store, employees, date, activity, count, windows, SlotAt(store, employees, date, activity, count, t));
  }

  /** Without an enabled employee nothing is listed. */
  lemma NoEmployeesNoSlots(workHours: seq<WorkHour>, store: seq<Booking>, users: seq<User>, date: Date,
                           requested: Option<int>, activity: Activity)
    requires forall u :: u in users ==> !IsActiveEmployee(u)
    ensures AvailableSlots(workHours, store, users, date, requested, activity) == {}
  {
  }

  /** A slot's availability depends only on its times, not on which window
      produced it: the set never lists the same times both available and not. */
  lemma SlotAvailabilityIsConsistent(workHours: seq<WorkHour>, store: seq<Booking>, users: seq<User>, date: Date,
                                     requested: Option<int>, activity: Activity, s1: TimeSlot, s2: TimeSlot)
    requires s1 in AvailableSlots(workHours, store, users, date, requested, activity)
    requires s2 in AvailableSlots(workHours, store, users, date, requested, activity)
    requires s1.startTime == s2.startTime
    ensures s1 == s2
  {
    var employees := ActiveEmployees(users);
    var count := ParticipantCount(requested, activity);
    var windows := WorkHoursOn(workHours, date);
    SlotsOfMembership(store, employees, date, activity, count, windows, s1);
    SlotsOfMembership(store, employees, date, activity, count, windows, s2);
  }
}

=== FILE: staff.dfy ===
/** Users, their roles, and the work windows employees are scheduled for
    (EmployeeWorkHour). The User entity is not part of this model's source
    files; its fields are the ones the services read. */
module Staff {
  import opened Wrappers
  import opened Times

  const RoleAdmin: string := "ROLE_ADMIN"
  const RoleEmployee: string := "ROLE_EMPLOYEE"
  const RoleUser: string := "ROLE_USER"

  /** The message of `ResourceNotFoundException("Role", "ROLE_EMPLOYEE")`,
      thrown when the role table has no employee row. */
  const RoleNotFoundMessage: string := "Role '" + RoleEmployee + "' not found"

  datatype User = User(
    id: int,
    username: string,
    firstName: string,
    lastName: string,
    email: string,
    roles: set<string>,
    enabled: bool)

  /** The filter both schedulers apply to `userRepository.findAll()`. */
  predicate IsActiveEmployee(u: User) {
    RoleEmployee in u.roles && u.enabled
  }

  /** The enabled users holding ROLE_EMPLOYEE, in repository order. */
  function ActiveEmployees(users: seq<User>): (r: seq<User>)
    ensures forall u :: u in r <==> u in users && IsActiveEmployee(u)
    ensures r == [] <==> forall u :: u in users ==> !IsActiveEmployee(u)
    ensures |r| <= |users|
  {
    if users == [] then []
    else if IsActiveEmployee(users[0]) then [users[0]] + ActiveEmployees(users[1..])
    else ActiveEmployees(users[1..])
  }

  /** An employee's work window on one day. */
  datatype WorkHour = WorkHour(
    id: int,
    employee: User,
    workDate: Date,
    startTime: TimeOfDay,
    endTime: TimeOfDay,
    isAvailable: bool)

  /** `findByWorkDate`: every window on the date, whatever its availability flag. */
  function WorkHoursOn(workHours: seq<WorkHour>, date: Date): (r: seq<WorkHour>)
    ensures forall w :: w in r <==> w in workHours && w.workDate == date
  {
    if workHours == [] then []
    else if workHours[0].workDate == date then [workHours[0]] + WorkHoursOn(workHours[1..], date)
    else WorkHoursOn(workHours[1..], date)
  }

  /** `userRepository.findById`: the user with that id, if any. */
  function FindUserById(users: seq<User>, id: int): (r: Option<User>)
    ensures r.Some? ==> r.value in users && r.value.id == id
    ensures r.None? <==> forall u :: u in users ==> u.id != id
  {
    if users == [] then None
    else if users[0].id == id then Some(users[0])
    else FindUserById(users[1..], id)
  }

  /** `userRepository.findByUsername`: the user with that username, if any. */
  function FindUserByUsername(users: seq<User>, username: string): (r: Option<User>)
    ensures r.Some? ==> r.value in users && r.value.username == username
    ensures r.None? <==> forall u :: u in users ==> u.username != username
  {
    if users == [] then None
    else if users[0].username == username then Some(users[0])
    else FindUserByUsername(users[1..], username)
  }
}

=== FILE: strings.dfy ===
/** String helpers with Java's meaning, restricted to what the services use:
    `trim()` drops every character up to U+0020 at both ends, `toLowerCase()` and
    `toUpperCase()` are modelled over ASCII letters, and decimal rendering of
    integers is `String.valueOf`. */
module Strings {
  import opened Wrappers

  /** Characters Java's String.trim() strips (code point <= U+0020). */
  predicate IsTrimmed(c: char) {
    c <= ' '
  }

  function TrimLeft(s: string): (r: string)
    ensures |r| <= |s| && r == s[|s| - |r|..]
    ensures forall i :: 0 <= i < |s| - |r| ==> IsTrimmed(s[i])
    ensures r == [] || !IsTrimmed(r[0])
  {
    if s == [] || !IsTrimmed(s[0]) then s else TrimLeft(s[1..])
  }

  function TrimRight(s: string): (r: string)
    ensures |r| <= |s| && r == s[..|r|]
    ensures forall i :: |r| <= i < |s| ==> IsTrimmed(s[i])
    ensures r == [] || !IsTrimmed(r[|r| - 1])
  {
    if s == [] || !IsTrimmed(s[|s| - 1]) then s else TrimRight(s[..|s| - 1])
  }

  /** Java `s.trim()`. */
  function Trim(s: string): (r: string)
    ensures |r| <= |s|
    ensures r == [] || (!IsTrimmed(r[0]) && !IsTrimmed(r[|r| - 1]))
  {
    TrimRight(TrimLeft(s))
  }

  /** `s.trim().isEmpty()` holds exactly for strings made only of characters <= U+0020. */
  lemma {:induction false} TrimEmptyIff(s: string)
    ensures Trim(s) == [] <==> forall i :: 0 <= i < |s| ==> IsTrimmed(s[i])
  {
    var l := TrimLeft(s);
    if !forall i :: 0 <= i < |s| ==> IsTrimmed(s[i]) {
      var k :| 0 <= k < |s| && !IsTrimmed(s[k]);
      assert |s| - |l| <= k;
      assert l[k - (|s| - |l|)] == s[k];
    }
  }

  /** Java's `value == null || value.trim().isEmpty()`. */
  predicate IsBlank(s: Option<string>) {
    s.None? || Trim(s.value) == []
  }

  function LowerChar(c: char): (r: char)
    ensures 'A' <= c <= 'Z' ==> 'a' <= r <= 'z'
    ensures !('A' <= c <= 'Z') ==> r == c
  {
    if 'A' <= c <= 'Z' then (c as int - 'A' as int + 'a' as int) as char else c
  }

  function UpperChar(c: char): (r: char)
    ensures 'a' <= c <= 'z' ==> 'A' <= r <= 'Z'
    ensures !('a' <= c <= 'z') ==> r == c
  {
    if 'a' <= c <= 'z' then (c as int - 'a' as int + 'A' as int) as char else c
  }

  /** `toLowerCase()` over ASCII: no upper-case ASCII letter survives. */
  function ToLower(s: string): (r: string)
    ensures |r| == |s|
    ensures forall i :: 0 <= i < |s| ==> r[i] == LowerChar(s[i])
    ensures forall i :: 0 <= i < |r| ==> !('A' <= r[i] <= 'Z')
  {
    seq(|s|, i requires 0 <= i < |s| => LowerChar(s[i]))
  }

  function ToUpper(s: string): (r: string)
    ensures |r| == |s|
    ensures forall i :: 0 <= i < |s| ==> r[i] == UpperChar(s[i])
    ensures forall i :: 0 <= i < |r| ==> !('a' <= r[i] <= 'z')
  {
    seq(|s|, i requires 0 <= i < |s| => UpperChar(s[i]))
  }

  predicate StartsWith(s: string, prefix: string) {
    |prefix| <= |s| && s[..|prefix|] == prefix
  }

  predicate EndsWith(s: string, suffix: string) {
    |suffix| <= |s| && s[|s| - |suffix|..] == suffix
  }

  predicate IsDigit(c: char) {
    '0' <= c <= '9'
  }

  predicate AllDigits(s: string) {
    forall i :: 0 <= i < |s| ==> IsDigit(s[i])
  }

  function DigitChar(d: nat): (c: char)
    requires d < 10
    ensures IsDigit(c)
  {
    ('0' as int + d) as char
  }

  /** Decimal rendering of a natural number, as `String.valueOf`. */
  function NatToString(n: nat): (r: string)
    ensures |r| >= 1
  {
    if n < 10 then [DigitChar(n)] else NatToString(n / 10) + [DigitChar(n % 10)]
  }

  /** The rendering of a natural number is made of decimal digits only. */
  lemma {:induction false} NatToStringDigits(n: nat)
    ensures AllDigits(NatToString(n))
  {
    if n >= 10 {
      NatToStringDigits(n / 10);
    }
  }

  /** Decimal rendering of an int, with a leading '-' for negatives. */
  function IntToString(i: int): (r: string)
    ensures i >= 0 ==> AllDigits(r)
    ensures i < 0 ==> |r| >= 2 && r[0] == '-' && AllDigits(r[1..])
  {
    NatToStringDigits(if i >= 0 then i else -i);
    if i >= 0 then NatToString(i) else "-" + NatToString(-i)
  }

  /** The value of a string of decimal digits. */
  function DigitsValue(s: string): nat
    requires AllDigits(s)
  {
    if s == [] then 0
    else DigitsValue(s[..|s| - 1]) * 10 + (s[|s| - 1] as int - '0' as int)
  }

  /** Reading a decimal number back; fails on an empty or non-digit string. */
  function ParseNat(s: string): (r: Option<nat>)
    ensures r.Some? <==> |s| >= 1 && AllDigits(s)
  {
    if |s| >= 1 && AllDigits(s) then Some(DigitsValue(s)) else None
  }

  lemma {:induction false} ParseNatToString(n: nat)
    ensures ParseNat(NatToString(n)) == Some(n)
  {
    var s := NatToString(n);
    NatToStringDigits(n);
    if n >= 10 {
      ParseNatToString(n / 10);
      assert s[..|s| - 1] == NatToString(n / 10);
      assert s[|s| - 1] as int - '0' as int == n % 10;
      assert DigitsValue(s) == (n / 10) * 10 + n % 10;
    }
  }

  /** 10 to the power k. */
  function Pow10(k: nat): (r: nat)
    ensures r >= 1
  {
    if k == 0 then 1 else 10 * Pow10(k - 1)
  }

  /** A number below 10^w (w at least one) takes at most w digits. */
  lemma {:induction false} NatToStringShort(n: nat, w: nat)
    requires w >= 1 && n < Pow10(w)
    ensures |NatToString(n)| <= w
    decreases w
  {
    if n >= 10 {
      assert Pow10(w) == 10 * Pow10(w - 1);
      NatToStringShort(n / 10, w - 1);
    }
  }

  /** Zero-padding to at least `width` digits, as `%0<width>d` and the
      java.time printers do. */
  function PadNat(n: nat, width: nat): string
    decreases width
  {
    if |NatToString(n)| >= width then NatToString(n) else "0" + PadNat(n, width - 1)
  }

  /** A padded number is all digits and at least `width` of them. */
  lemma {:induction false} PadNatDigits(n: nat, width: nat)
    ensures |PadNat(n, width)| >= width && AllDigits(PadNat(n, width))
    decreases width
  {
    NatToStringDigits(n);
    if |NatToString(n)| < width {
      PadNatDigits(n, width - 1);
      LeadingZeroValue(PadNat(n, width - 1));
    }
  }

  /** Padding to the width a short number needs gives exactly that width. */
  lemma {:induction false} PadNatLength(n: nat, width: nat)
    requires |NatToString(n)| <= width
    ensures |PadNat(n, width)| == width
    decreases width
  {
    if |NatToString(n)| < width {
      PadNatLength(n, width - 1);
    }
  }

  /** A leading zero does not change the value of a digit string. */
  lemma {:induction false} LeadingZeroValue(s: string)
    requires AllDigits(s)
    ensures AllDigits("0" + s) && DigitsValue("0" + s) == DigitsValue(s)
    decreases |s|
  {
    var z := "0" + s;
    assert AllDigits(z) by {
      forall i | 0 <= i < |z| ensures IsDigit(z[i]) {
        if i > 0 { assert z[i] == s[i - 1]; }
      }
    }
    if s != [] {
      assert z[..|z| - 1] == "0" + s[..|s| - 1];
      LeadingZeroValue(s[..|s| - 1]);
    }
  }

  /** A padded number reads back as the number. */
  lemma {:induction false} PadNatReadsBack(n: nat, width: nat)
    ensures ParseNat(PadNat(n, width)) == Some(n)
    decreases width
  {
    if |NatToString(n)| >= width {
      ParseNatToString(n);
    } else {
      PadNatReadsBack(n, width - 1);
      PadNatDigits(n, width - 1);
      LeadingZeroValue(PadNat(n, width - 1));
    }
  }
}

=== FILE: swap.dfy ===
/** Employee swaps (employee/service/EmployeeSchedulingService.java): when an
    employee cannot simply be given a booking because of one of their own
    bookings at the same time, the two bookings can trade employees, provided
    both are in one category, at one place, and both employees stay within
    the per-guide capacity. */
module EmployeeScheduling {
  import opened Wrappers
  import opened Times
  import opened Activities
  import opened Staff
  import opened Bookings
  import opened Capacity
  import opened Repository

  /** EmployeeSwapInfo, without its display fields. */
  datatype SwapInfo = SwapInfo(canSwap: bool, reason: Option<string>, conflictingBookingId: Option<int>)

  /** CompatibleBookingDTO. */
  datatype CompatibleBooking = CompatibleBooking(
    bookingId: int,
    activityName: string,
    customerName: Option<string>,
    isGuestBooking: bool,
    numberOfParticipants: int,
    startTime: TimeOfDay,
    endTime: TimeOfDay,
    date: Date)

  /** EmployeeSwapOptions, without its display fields. */
  datatype SwapOptions = SwapOptions(hasCompatibleBookings: bool, reason: Option<string>, compatibleBookings: seq<CompatibleBooking>)

  const NoConflict: string := "No conflict - direct assignment possible"
  const NotCompatible: string := "Activities not compatible - different category or location"
  const CurrentOverCapacity: string := "Current employee cannot handle the conflicting booking due to capacity"
  const NoConflictingBookings: string := "No conflicting bookings - direct assignment possible"
  const NoCompatibleBookings: string :=
    "No compatible bookings found - different categories, locations, or capacity would be exceeded in one or both directions"
  /** `swapEmployees` dereferences both categories; a missing one throws a
      null dereference exception, reported here under this message. */
  const MissingCategory: string := "Booking activity has no category"

  /** Both activities have a category, and it is the same one. */
  predicate SameCategory(a1: Activity, a2: Activity) {
    a1.category.Some? && a2.category.Some? && a1.category.value.id == a2.category.value.id
  }

  /** The new employee's bookings that clash with booking b: on its date, not
      cancelled, not b itself, overlapping its time. */
  function Clashes(store: seq<Booking>, b: Booking, newEmployeeId: int): (r: seq<Booking>)
    ensures forall c :: c in r <==> (c in store && c.employee.id == newEmployeeId && c.bookingDate == b.bookingDate
      && Conflicts(c, b.startTime, b.endTime, Some(b.id)))
  {
    OverlappingBookings(BookingsOf(store, newEmployeeId, b.bookingDate), b.startTime, b.endTime, Some(b.id))
  }

  /** The booking left out when checkEmployeeSwap asks whether the current
      employee can take the clashing booking c in exchange for b. The source
      passes c's own id, which is not among the current employee's bookings,
      so b itself is still counted; `givenUpExcluded` selects the evidently
      intended exclusion of b, as getEmployeeSwapOptions does. */
  function SwapExclusion(b: Booking, c: Booking, givenUpExcluded: bool): Option<int> {
    if givenUpExcluded then Some(b.id) else Some(c.id)
  }

  /** checkEmployeeSwap: looks only at the first clash, in store order. */
  function CheckEmployeeSwap(store: seq<Booking>, users: seq<User>, bookingId: int, newEmployeeId: int,
                             givenUpExcluded: bool): (r: Result<SwapInfo>)
    ensures FindBooking(store, bookingId).None? ==> r == Failure("Booking not found")
    ensures FindBooking(store, bookingId).Some? && FindUserById(users, newEmployeeId).None? ==> r == Failure("Employee not found")
    ensures r.Success? <==> FindBooking(store, bookingId).Some? && FindUserById(users, newEmployeeId).Some?
    ensures r.Success? ==> var b := FindBooking(store, bookingId).value;
      (r.value.conflictingBookingId.None? <==> Clashes(store, b, newEmployeeId) == [])
      && (r.value.conflictingBookingId.None? ==> r.value == SwapInfo(false, Some(NoConflict), None))
      && (r.value.conflictingBookingId.Some? ==>
            var c := Clashes(store, b, newEmployeeId)[0];
            r.value.conflictingBookingId.value == c.id
            && (r.value.canSwap <==> (SameCategory(b.activity, c.activity) && HasSameLocationAs(b.activity, c.activity)
                  && CanEmployeeHandleBooking(store, b.employee, c.bookingDate, c.startTime, c.endTime, c.activity,
                                              c.numberOfParticipants, SwapExclusion(b, c, givenUpExcluded))))
            && (!(SameCategory(b.activity, c.activity) && HasSameLocationAs(b.activity, c.activity)) ==>
                  r.value.reason == Some(NotCompatible))
            && (r.value.canSwap <==> r.value.reason.None?))
  {
    match FindBooking(store, bookingId)
    case None => Failure("Booking not found")
    case Some(b) =>
      if FindUserById(users, newEmployeeId).None? then Failure("Employee not found")
      else
        var clashes := Clashes(store, b, newEmployeeId);
        if clashes == [] then Success(SwapInfo(false, Some(NoConflict), None))
        else
          var c := clashes[0];
          if !SameCategory(b.activity, c.activity) || !HasSameLocationAs(b.activity, c.activity) then
            Success(SwapInfo(false, Some(NotCompatible), Some(c.id)))
          else if !CanEmployeeHandleBooking(store, b.employee, c.bookingDate, c.startTime, c.endTime, c.activity,
                                            c.numberOfParticipants, SwapExclusion(b, c, givenUpExcluded)) then
            Success(SwapInfo(false, Some(CurrentOverCapacity), Some(c.id)))
          else Success(SwapInfo(true, None, Some(c.id)))
  }

  /** "No conflict - direct assignment possible" is true to its word: the
      capacity check of updateBookingEmployee then accepts the new employee. */
  lemma NoConflictMeansDirectAssignment(store: seq<Booking>, users: seq<User>, bookingId: int, newEmployeeId: int)
    requires CheckEmployeeSwap(store, users, bookingId, newEmployeeId, true).Success?
    requires CheckEmployeeSwap(store, users, bookingId, newEmployeeId, true).value.reason == Some(NoConflict)
    ensures var b := FindBooking(store, bookingId).value;
      CanEmployeeHandleBooking(store, FindUserById(users, newEmployeeId).value, b.bookingDate, b.startTime, b.endTime,
                               b.activity, b.numberOfParticipants, Some(b.id))
  {
    var b := FindBooking(store, bookingId).value;
    var e := FindUserById(users, newEmployeeId).value;
    assert Clashes(store, b, newEmployeeId) == [];
    forall x | x in store && x.employee.id == e.id && x.bookingDate == b.bookingDate
      ensures !Conflicts(x, b.startTime, b.endTime, Some(b.id))
    {
      assert x !in Clashes(store, b, newEmployeeId);
    }
    FreeEmployeeCanHandle(store, e, b.bookingDate, b.startTime, b.endTime, b.activity, b.numberOfParticipants, Some(b.id));
  }

  /** The guard of swapEmployees: same place, and both in one category. */
  predicate SwapAllowed(b1: Booking, b2: Booking) {
    HasSameLocationAs(b1.activity, b2.activity) && SameCategory(b1.activity, b2.activity)
  }

  /** A swap the check approves passes the guard of swapEmployees. */
  lemma ApprovedSwapIsAllowed(store: seq<Booking>, users: seq<User>, bookingId: int, newEmployeeId: int,
                              givenUpExcluded: bool)
    requires CheckEmployeeSwap(store, users, bookingId, newEmployeeId, givenUpExcluded).Success?
    requires CheckEmployeeSwap(store, users, bookingId, newEmployeeId, givenUpExcluded).value.canSwap
    ensures var b := FindBooking(store, bookingId).value;
      var c := Clashes(store, b, newEmployeeId)[0];
      SwapAllowed(b, c) && c.employee.id == newEmployeeId && c in store
  {
    var b := FindBooking(store, bookingId).value;
    var c := Clashes(store, b, newEmployeeId)[0];
    assert c in Clashes(store, b, newEmployeeId);
  }

  /** The table after the two saves of swapEmployees: b1 takes b2's employee
      and b2 takes b1's. */
  function Swapped(store: seq<Booking>, b1: Booking, b2: Booking): (r: seq<Booking>)
    ensures |r| == |store|
    ensures forall k :: 0 <= k < |store| ==> r[k].id == store[k].id
  {
    seq(|store|, k requires 0 <= k < |store| =>
      if store[k].id == b2.id then b2.(employee := b1.employee)
      else if store[k].id == b1.id then b1.(employee := b2.employee)
      else store[k])
  }

  /** The two saves of swapEmployees, one after the other, give Swapped. */
  lemma TwoSavesSwap(store: seq<Booking>, b1: Booking, b2: Booking)
    ensures ReplaceById(ReplaceById(store, b1.(employee := b2.employee)), b2.(employee := b1.employee))
         == Swapped(store, b1, b2)
  {
  }

  /** Only the employees of the two bookings change, and they are exchanged. */
  lemma SwappedExchanges(store: seq<Booking>, k1: int, k2: int)
    requires UniqueIds(store) && 0 <= k1 < |store| && 0 <= k2 < |store|
    ensures var r := Swapped(store, store[k1], store[k2]);
      r[k1].employee == store[k2].employee && r[k2].employee == store[k1].employee
      && forall k :: 0 <= k < |store| ==> (r[k].(employee := store[k].employee) == store[k]
        && (k != k1 && k != k2 ==> r[k] == store[k]))
  {
    var r := Swapped(store, store[k1], store[k2]);
    forall k | 0 <= k < |store|
      ensures r[k].(employee := store[k].employee) == store[k] && (k != k1 && k != k2 ==> r[k] == store[k])
    {
      if store[k].id == store[k2].id {
        assert k == k2;
      } else if store[k].id == store[k1].id {
        assert k == k1;
      }
    }
  }

  /** Swapping twice restores every assignment, and a booking swapped with
      itself keeps its employee. */
  lemma SwapTwiceRestores(store: seq<Booking>, k1: int, k2: int)
    requires UniqueIds(store) && 0 <= k1 < |store| && 0 <= k2 < |store|
    ensures var once := Swapped(store, store[k1], store[k2]);
      UniqueIds(once) && Swapped(once, once[k1], once[k2]) == store
    ensures Swapped(store, store[k1], store[k1]) == store
  {
    var once := Swapped(store, store[k1], store[k2]);
    SwappedExchanges(store, k1, k2);
    var twice := Swapped(once, once[k1], once[k2]);
    forall k | 0 <= k < |store|
      ensures twice[k] == store[k]
    {
      if store[k].id == store[k2].id {
        assert k == k2;
      } else if store[k].id == store[k1].id {
        assert k == k1;
      }
    }
    SwappedExchanges(store, k1, k1);
  }

  /** swapEmployees: both bookings must exist, be at the same place and in the
      same category; then they trade employees and nothing else changes. */
  method SwapEmployees(repo: BookingRepository, booking1Id: int, booking2Id: int) returns (r: Outcome)
    requires repo.Valid()
    modifies repo
    ensures repo.Valid() && repo.nextId == old(repo.nextId)
    ensures r.Fail? ==> repo.bookings == old(repo.bookings)
    ensures FindBooking(old(repo.bookings), booking1Id).None? ==> r == Fail("Booking 1 not found")
    ensures FindBooking(old(repo.bookings), booking1Id).Some? && FindBooking(old(repo.bookings), booking2Id).None?
      ==> r == Fail("Booking 2 not found")
    ensures FindBooking(old(repo.bookings), booking1Id).Some? && FindBooking(old(repo.bookings), booking2Id).Some?
      ==> var b1 := FindBooking(old(repo.bookings), booking1Id).value;
          var b2 := FindBooking(old(repo.bookings), booking2Id).value;
          (!HasSameLocationAs(b1.activity, b2.activity) ==> r == Fail("Bookings are at different locations"))
          && (HasSameLocationAs(b1.activity, b2.activity) && (b1.activity.category.None? || b2.activity.category.None?) ==>
                r == Fail(MissingCategory))
          && ((HasSameLocationAs(b1.activity, b2.activity) && b1.activity.category.Some? && b2.activity.category.Some?
               && !SameCategory(b1.activity, b2.activity)) ==> r == Fail("Bookings are in different categories"))
          && (r.Pass? <==> SwapAllowed(b1, b2))
          && (r.Pass? ==> repo.bookings == Swapped(old(repo.bookings), b1, b2))
  {
    var found1 := FindBooking(repo.bookings, booking1Id);
    if found1.None? {
      return Fail("Booking 1 not found");
    }
    var found2 := FindBooking(repo.bookings, booking2Id);
    if found2.None? {
      return Fail("Booking 2 not found");
    }
    var b1, b2 := found1.value, found2.value;
    if !HasSameLocationAs(b1.activity, b2.activity) {
      return Fail("Bookings are at different locations");
    }
    if b1.activity.category.None? || b2.activity.category.None? {
      return Fail(MissingCategory);
    }
    if b1.activity.category.value.id != b2.activity.category.value.id {
      return Fail("Bookings are in different categories");
    }
    var temp := b1.employee;
    var first := b1.(employee := b2.employee);
    var second := b2.(employee := temp);
    ghost var before := repo.bookings;
    assert Settled(b1) && Settled(b2);
    assert RecalculateRemaining(first) == first && RecalculateRemaining(second) == second;
    var _ := repo.Update(first);
    ReplaceThenFind(before, first, second.id);
    var _ := repo.Update(second);
    TwoSavesSwap(before, b1, b2);
    r := Pass;
  }

  /** Everything getEmployeeSwapOptions asks of a clashing booking c before it
      offers it: same category and place as b, the current employee can take c
      once b is off their list, and the new employee can take b once c is off
      theirs. */
  predicate SwapCandidate(store: seq<Booking>, b: Booking, newEmployee: User, c: Booking) {
    SameCategory(b.activity, c.activity) && HasSameLocationAs(b.activity, c.activity)
    && CanEmployeeHandleBooking(store, b.employee, c.bookingDate, c.startTime, c.endTime, c.activity,
                                c.numberOfParticipants, Some(b.id))
    && CanEmployeeHandleBooking(store, newEmployee, b.bookingDate, b.startTime, b.endTime, b.activity,
                                b.numberOfParticipants, Some(c.id))
  }

  function Candidates(store: seq<Booking>, b: Booking, newEmployee: User, clashes: seq<Booking>): (r: seq<Booking>)
    ensures forall c :: c in r <==> c in clashes && SwapCandidate(store, b, newEmployee, c)
    ensures r == [] <==> forall c :: c in clashes ==> !SwapCandidate(store, b, newEmployee, c)
  {
    if clashes == [] then []
    else
      var rest := Candidates(store, b, newEmployee, clashes[1..]);
      if SwapCandidate(store, b, newEmployee, clashes[0]) then [clashes[0]] + rest else rest
  }

  /** xs is ys with some elements dropped and the rest kept in their order. */
  predicate InOrderWithin<T(==)>(xs: seq<T>, ys: seq<T>)
    decreases |ys|
  {
    if xs == [] then true
    else if ys == [] then false
    else (xs[0] == ys[0] && InOrderWithin(xs[1..], ys[1..])) || InOrderWithin(xs, ys[1..])
  }

  /** The stream filter keeps the clashes in table order. */
  lemma {:induction false} CandidatesKeepOrder(store: seq<Booking>, b: Booking, newEmployee: User, clashes: seq<Booking>)
    ensures InOrderWithin(Candidates(store, b, newEmployee, clashes), clashes)
    decreases |clashes|
  {
    if clashes != [] {
      var rest := Candidates(store, b, newEmployee, clashes[1..]);
      CandidatesKeepOrder(store, b, newEmployee, clashes[1..]);
      if SwapCandidate(store, b, newEmployee, clashes[0]) {
        assert ([clashes[0]] + rest)[1..] == rest;
      }
    }
  }

  /** The row shown for an offered booking. */
  function Entry(c: Booking): (e: CompatibleBooking)
    ensures e.bookingId == c.id && e.customerName == CustomerName(c) && e.isGuestBooking == IsGuestBooking(c)
  {
    CompatibleBooking(c.id, c.activity.name, CustomerName(c), IsGuestBooking(c), c.numberOfParticipants,
                      c.startTime, c.endTime, c.bookingDate)
  }

  function Entries(cs: seq<Booking>): (r: seq<CompatibleBooking>)
    ensures |r| == |cs| && forall i :: 0 <= i < |cs| ==> r[i] == Entry(cs[i])
  {
    if cs == [] then [] else [Entry(cs[0])] + Entries(cs[1..])
  }

  /** Mapping to rows keeps an in-order selection in order. */
  lemma {:induction false} EntriesKeepOrder(cs: seq<Booking>, ds: seq<Booking>)
    requires InOrderWithin(cs, ds)
    ensures InOrderWithin(Entries(cs), Entries(ds))
    decreases |ds|
  {
    if cs != [] {
      assert Entries(ds)[1..] == Entries(ds[1..]);
      if cs[0] == ds[0] && InOrderWithin(cs[1..], ds[1..]) {
        EntriesKeepOrder(cs[1..], ds[1..]);
        assert Entries(cs)[1..] == Entries(cs[1..]);
      } else {
        EntriesKeepOrder(cs, ds[1..]);
      }
    }
  }

  lemma EntriesCover(cs: seq<Booking>)
    ensures forall e :: e in Entries(cs) ==> exists c :: c in cs && e == Entry(c)
    ensures forall c :: c in cs ==> Entry(c) in Entries(cs)
  {
    var es := Entries(cs);
    forall e | e in es
      ensures exists c :: c in cs && e == Entry(c)
    {
      var i :| 0 <= i < |es| && es[i] == e;
      assert e == Entry(cs[i]);
    }
    forall c | c in cs
      ensures Entry(c) in es
    {
      var i :| 0 <= i < |cs| && cs[i] == c;
      assert es[i] == Entry(c);
    }
  }

  /** getEmployeeSwapOptions. */
  function GetEmployeeSwapOptions(store: seq<Booking>, users: seq<User>, bookingId: int, newEmployeeId: int)
    : (r: Result<SwapOptions>)
    ensures FindBooking(store, bookingId).None? ==> r == Failure("Booking not found")
    ensures FindBooking(store, bookingId).Some? && FindUserById(users, newEmployeeId).None? ==> r == Failure("Employee not found")
    ensures r.Success? <==> FindBooking(store, bookingId).Some? && FindUserById(users, newEmployeeId).Some?
    ensures r.Success? ==> (r.value.hasCompatibleBookings <==> r.value.compatibleBookings != [])
    ensures r.Success? ==> (r.value.reason == Some(NoConflictingBookings) <==>
                              Clashes(store, FindBooking(store, bookingId).value, newEmployeeId) == [])
    ensures r.Success? ==> (r.value.reason == Some(NoCompatibleBookings) <==>
      Clashes(store, FindBooking(store, bookingId).value, newEmployeeId) != [] && r.value.compatibleBookings == [])
    ensures r.Success? ==> (r.value.reason.None? <==> r.value.compatibleBookings != [])
    ensures r.Success? ==>
      InOrderWithin(r.value.compatibleBookings, Entries(Clashes(store, FindBooking(store, bookingId).value, newEmployeeId)))
    ensures r.Success? ==> var b := FindBooking(store, bookingId).value;
      var newEmployee := FindUserById(users, newEmployeeId).value;
      forall e :: e in r.value.compatibleBookings ==>
        exists c :: c in Clashes(store, b, newEmployeeId) && SwapCandidate(store, b, newEmployee, c) && e == Entry(c)
    ensures r.Success? ==> var b := FindBooking(store, bookingId).value;
      var newEmployee := FindUserById(users, newEmployeeId).value;
      forall c :: c in Clashes(store, b, newEmployeeId) && SwapCandidate(store, b, newEmployee, c)
        ==> Entry(c) in r.value.compatibleBookings
  {
    match FindBooking(store, bookingId)
    case None => Failure("Booking not found")
    case Some(b) =>
      match FindUserById(users, newEmployeeId)
      case None => Failure("Employee not found")
      case Some(newEmployee) =>
        var clashes := Clashes(store, b, newEmployeeId);
        if clashes == [] then Success(SwapOptions(false, Some(NoConflictingBookings), []))
        else
          var candidates := Candidates(store, b, newEmployee, clashes);
          var entries := Entries(candidates);
          EntriesCover(candidates);
          CandidatesKeepOrder(store, b, newEmployee, clashes);
          EntriesKeepOrder(candidates, clashes);
          if candidates == [] then Success(SwapOptions(false, Some(NoCompatibleBookings), []))
          else Success(SwapOptions(true, None, entries))
  }

  /** Every offered booking passes the guard of swapEmployees together with
      the booking being reassigned, and belongs to the new employee. */
  lemma OfferedSwapsAreAllowed(store: seq<Booking>, users: seq<User>, bookingId: int, newEmployeeId: int,
                               e: CompatibleBooking)
    requires UniqueIds(store)
    requires GetEmployeeSwapOptions(store, users, bookingId, newEmployeeId).Success?
    requires e in GetEmployeeSwapOptions(store, users, bookingId, newEmployeeId).value.compatibleBookings
    ensures var c := FindBooking(store, e.bookingId);
      c.Some? && SwapAllowed(FindBooking(store, bookingId).value, c.value) && c.value.employee.id == newEmployeeId
  {
    var b := FindBooking(store, bookingId).value;
    var c :| c in Clashes(store, b, newEmployeeId)
      && SwapCandidate(store, b, FindUserById(users, newEmployeeId).value, c) && e == Entry(c);
    var k :| 0 <= k < |store| && store[k] == c;
    FindUnique(store, k);
  }

  /** A clashing booking is offered exactly when it passes every test of
      the options list. */
  lemma OfferedIffCandidate(store: seq<Booking>, users: seq<User>, bookingId: int, newEmployeeId: int, c: Booking)
    requires UniqueIds(store)
    requires FindBooking(store, bookingId).Some? && FindUserById(users, newEmployeeId).Some?
    requires c in Clashes(store, FindBooking(store, bookingId).value, newEmployeeId)
    ensures Entry(c) in GetEmployeeSwapOptions(store, users, bookingId, newEmployeeId).value.compatibleBookings
        <==> SwapCandidate(store, FindBooking(store, bookingId).value, FindUserById(users, newEmployeeId).value, c)
  {
    var b := FindBooking(store, bookingId).value;
    var e := FindUserById(users, newEmployeeId).value;
    var offered := GetEmployeeSwapOptions(store, users, bookingId, newEmployeeId).value.compatibleBookings;
    if Entry(c) in offered {
      var c' :| c' in Clashes(store, b, newEmployeeId) && SwapCandidate(store, b, e, c') && Entry(c) == Entry(c');
      var k :| 0 <= k < |store| && store[k] == c;
      var k' :| 0 <= k' < |store| && store[k'] == c';
      assert k == k';
    }
  }

  /** With b excluded, the check of the first clash c agrees with the options
      list: the swap with c is approved and the new employee can take b in
      exchange exactly when c is offered. */
  lemma CorrectedCheckMatchesOptions(store: seq<Booking>, users: seq<User>, bookingId: int, newEmployeeId: int)
    requires UniqueIds(store)
    requires FindBooking(store, bookingId).Some? && FindUserById(users, newEmployeeId).Some?
    requires Clashes(store, FindBooking(store, bookingId).value, newEmployeeId) != []
    ensures var b := FindBooking(store, bookingId).value;
      var c := Clashes(store, b, newEmployeeId)[0];
      (CheckEmployeeSwap(store, users, bookingId, newEmployeeId, true).value.canSwap
       && CanEmployeeHandleBooking(store, FindUserById(users, newEmployeeId).value, b.bookingDate, b.startTime,
                                   b.endTime, b.activity, b.numberOfParticipants, Some(c.id)))
      <==> Entry(c) in GetEmployeeSwapOptions(store, users, bookingId, newEmployeeId).value.compatibleBookings
  {
    var b := FindBooking(store, bookingId).value;
    var c := Clashes(store, b, newEmployeeId)[0];
    assert c in Clashes(store, b, newEmployeeId);
    OfferedIffCandidate(store, users, bookingId, newEmployeeId, c);
  }

  /** A table of two overlapping bookings b and c of two employees on one
      day: each employee's list holds their own booking, and c is the clash
      b meets with c's employee. */
  lemma TwoBookingTable(b: Booking, c: Booking)
    requires b.id != c.id && b.employee.id != c.employee.id
    requires b.bookingDate == c.bookingDate && b.status != Cancelled && c.status != Cancelled
    requires Overlaps(b.startTime, b.endTime, c.startTime, c.endTime)
    ensures BookingsOf([b, c], b.employee.id, b.bookingDate) == [b]
    ensures BookingsOf([b, c], c.employee.id, b.bookingDate) == [c]
    ensures Clashes([b, c], b, c.employee.id) == [c]
  {
    assert [b, c][1..] == [c] && [c][1..] == [];
    assert BookingsOf([c], b.employee.id, b.bookingDate) == [];
    assert BookingsOf([c], c.employee.id, b.bookingDate) == [c];
  }

  /** Counting b, the current employee has no room for c as well. */
  lemma GivenUpBookingFillsGuide(b: Booking, c: Booking)
    requires b.id != c.id && b.employee.id != c.employee.id
    requires b.bookingDate == c.bookingDate && b.status != Cancelled && c.status != Cancelled
    requires Overlaps(b.startTime, b.endTime, c.startTime, c.endTime)
    requires b.activity == c.activity && b.activity.category.Some?
    requires b.numberOfParticipants + c.numberOfParticipants > b.activity.category.value.maxParticipantsPerGuide
    ensures !CanEmployeeHandleBooking([b, c], b.employee, c.bookingDate, c.startTime, c.endTime, c.activity,
                                      c.numberOfParticipants, Some(c.id))
  {
    TwoBookingTable(b, c);
    assert [b][1..] == [];
    assert OverlappingBookings([b], c.startTime, c.endTime, Some(c.id)) == [b];
    assert SumParticipants([b]) == b.numberOfParticipants;
  }

  /** Once b and c are each left out of their own employee's list, both
      employees are free for the other booking. */
  lemma ExchangedBookingsFit(b: Booking, c: Booking, newEmployee: User)
    requires b.id != c.id && b.employee.id != c.employee.id && newEmployee.id == c.employee.id
    requires b.bookingDate == c.bookingDate && b.status != Cancelled && c.status != Cancelled
    requires Overlaps(b.startTime, b.endTime, c.startTime, c.endTime)
    ensures CanEmployeeHandleBooking([b, c], b.employee, c.bookingDate, c.startTime, c.endTime, c.activity,
                                     c.numberOfParticipants, Some(b.id))
    ensures CanEmployeeHandleBooking([b, c], newEmployee, b.bookingDate, b.startTime, b.endTime, b.activity,
                                     b.numberOfParticipants, Some(c.id))
  {
    TwoBookingTable(b, c);
    assert [b][1..] == [] && [c][1..] == [];
    assert OverlappingBookings([b], c.startTime, c.endTime, Some(b.id)) == [];
    assert OverlappingBookings([c], b.startTime, b.endTime, Some(c.id)) == [];
  }

  /** The source's check counts the booking the current employee gives up.
      Take two overlapping bookings of one activity with a category, b held
      by the current employee and c by the new one, whose participants
      together exceed the per-guide limit: the check as written refuses the
      swap for capacity, although after it each employee guides exactly the
      people they guided before; with b excluded the check approves it, and
      getEmployeeSwapOptions offers exactly this swap. */
  lemma AsWrittenCheckCountsGivenUpBooking(b: Booking, c: Booking, users: seq<User>)
    requires b.id != c.id && b.employee.id != c.employee.id
    requires b.bookingDate == c.bookingDate && b.status != Cancelled && c.status != Cancelled
    requires Overlaps(b.startTime, b.endTime, c.startTime, c.endTime)
    requires b.activity == c.activity && b.activity.category.Some?
    requires b.numberOfParticipants + c.numberOfParticipants > b.activity.category.value.maxParticipantsPerGuide
    requires FindUserById(users, c.employee.id).Some?
    ensures CheckEmployeeSwap([b, c], users, b.id, c.employee.id, false)
         == Success(SwapInfo(false, Some(CurrentOverCapacity), Some(c.id)))
    ensures CheckEmployeeSwap([b, c], users, b.id, c.employee.id, true) == Success(SwapInfo(true, None, Some(c.id)))
    ensures GetEmployeeSwapOptions([b, c], users, b.id, c.employee.id).value.compatibleBookings == [Entry(c)]
  {
    var store := [b, c];
    var e := FindUserById(users, c.employee.id).value;
    TwoBookingTable(b, c);
    GivenUpBookingFillsGuide(b, c);
    ExchangedBookingsFit(b, c, e);
    SameLocationReflexiveSymmetric(b.activity, c.activity);
    assert FindBooking(store, b.id) == Some(b);
    assert SwapCandidate(store, b, e, c);
    assert [c][1..] == [];
    assert Candidates(store, b, e, [c]) == [c];
  }

  /** Two five-person tours at the same hour, one per guide, with room for
      eight per guide: an input of the kind the lemma above describes. */
  const ExampleCategory: Category := Category(1, "Tours", None, 8)
  const ExampleActivity: Activity := Activity(1, "Tour", 1, 10, 100, 0, 60, "Lake", None, Some(ExampleCategory), true)
  const ExampleCurrent: User := User(1, "ana", "Ana", "Pop", "ana@example.com", {RoleEmployee}, true)
  const ExampleNew: User := User(2, "dan", "Dan", "Ion", "dan@example.com", {RoleEmployee}, true)
  const ExampleGivenUp: Booking := Booking(1, ExampleActivity, None, Some("G1"), Some("1"), None, ExampleCurrent,
                                           Date(2025, 6, 2), 600, 660, 5, 500, 0, Confirmed, Unpaid, 0, 500, false,
                                           None, None)
  const ExampleClash: Booking := ExampleGivenUp.(id := 2, employee := ExampleNew, guestName := Some("G2"))

  /** The example is refused by the check as written and approved by the
      corrected one. */
  lemma ExampleSwapRefused()
    ensures CheckEmployeeSwap([ExampleGivenUp, ExampleClash], [ExampleCurrent, ExampleNew], 1, 2, false)
         == Success(SwapInfo(false, Some(CurrentOverCapacity), Some(2)))
    ensures CheckEmployeeSwap([ExampleGivenUp, ExampleClash], [ExampleCurrent, ExampleNew], 1, 2, true)
         == Success(SwapInfo(true, None, Some(2)))
  {
    assert FindUserById([ExampleCurrent, ExampleNew], 2) == Some(ExampleNew);
    AsWrittenCheckCountsGivenUpBooking(ExampleGivenUp, ExampleClash, [ExampleCurrent, ExampleNew]);
  }
}

=== FILE: times.dfy ===
/** Calendar values as java.time uses them: a LocalTime is a minute of the day,
    a LocalDate a proleptic Gregorian (year, month, day), and a LocalDateTime is
    counted in minutes on one absolute line. */
module Times {
  import opened Wrappers
  import opened Strings

  const MinutesPerDay: int := 1440
  const MinutesPerHour: int := 60

  /** A LocalTime at minute precision: minutes since midnight. */
  type TimeOfDay = t: int | 0 <= t < MinutesPerDay

  /** LocalTime.plusMinutes: wraps around midnight. */
  function PlusMinutes(t: TimeOfDay, d: int): (r: TimeOfDay)
    ensures 0 <= t + d < MinutesPerDay ==> r == t + d
    ensures MinutesPerDay <= t + d < 2 * MinutesPerDay ==> r == t + d - MinutesPerDay
  {
    (t + d) % MinutesPerDay
  }

  /** The half-open intervals [s1, e1) and [s2, e2) share a minute: the
      `start1.isBefore(end2) && start2.isBefore(end1)` test of the services. */
  predicate Overlaps(s1: int, e1: int, s2: int, e2: int) {
    s1 < e2 && s2 < e1
  }

  /** Overlap is symmetric, and intervals that only touch do not overlap. */
  lemma OverlapsFacts(s1: int, e1: int, s2: int, e2: int)
    ensures Overlaps(s1, e1, s2, e2) == Overlaps(s2, e2, s1, e1)
    ensures e1 <= s2 ==> !Overlaps(s1, e1, s2, e2)
    ensures s1 < e1 && s2 < e2 && s1 <= s2 < e1 ==> Overlaps(s1, e1, s2, e2)
  {
  }

  /** A LocalDateTime, in minutes on an absolute line. */
  type DateTime = int

  /** LocalDateTime.plusHours. */
  function PlusHours(t: DateTime, h: int): DateTime {
    t + h * MinutesPerHour
  }

  datatype Date = Date(year: int, month: int, day: int)

  /** IsoChronology.isLeapYear. */
  predicate IsLeapYear(y: int) {
    y % 4 == 0 && (y % 100 != 0 || y % 400 == 0)
  }

  /** YearMonth.lengthOfMonth. */
  function LengthOfMonth(y: int, m: int): (n: int)
    requires 1 <= m <= 12
    ensures 28 <= n <= 31
    ensures n == 29 <==> m == 2 && IsLeapYear(y)
  {
    if m == 2 then (if IsLeapYear(y) then 29 else 28)
    else if m == 4 || m == 6 || m == 9 || m == 11 then 30
    else 31
  }

  predicate ValidDate(d: Date) {
    1 <= d.month <= 12 && 1 <= d.day <= LengthOfMonth(d.year, d.month)
  }

  /** LocalDate.isBefore: chronological order. */
  predicate DateBefore(a: Date, b: Date) {
    a.year < b.year
    || (a.year == b.year && a.month < b.month)
    || (a.year == b.year && a.month == b.month && a.day < b.day)
  }

  /** Every day of a month, first to last: `yearMonth.atDay(1)` up to `atEndOfMonth()`. */
  function DaysOfMonth(y: int, m: int): (r: seq<Date>)
    requires 1 <= m <= 12
    ensures |r| == LengthOfMonth(y, m)
    ensures forall i :: 0 <= i < |r| ==> r[i] == Date(y, m, i + 1) && ValidDate(r[i])
    ensures forall d :: ValidDate(d) && d.year == y && d.month == m ==> d in r
  {
    var r := seq(LengthOfMonth(y, m), i requires 0 <= i < LengthOfMonth(y, m) => Date(y, m, i + 1));
    assert forall d :: ValidDate(d) && d.year == y && d.month == m ==> r[d.day - 1] == d;
    r
  }

  /** LocalTime.toString at minute precision: "HH:mm". */
  function TimeText(t: TimeOfDay): string {
    PadNat(t / MinutesPerHour, 2) + ":" + PadNat(t % MinutesPerHour, 2)
  }

  /** The text of a time is five characters, and its two fields read back as
      the hour and the minute. */
  lemma TimeTextReadsBack(t: TimeOfDay)
    ensures |TimeText(t)| == 5 && TimeText(t)[2] == ':'
    ensures ParseNat(TimeText(t)[..2]) == Some(t / MinutesPerHour)
    ensures ParseNat(TimeText(t)[3..]) == Some(t % MinutesPerHour)
  {
    var h, m := t / MinutesPerHour, t % MinutesPerHour;
    NatToStringShort(h, 2);
    NatToStringShort(m, 2);
    PadNatLength(h, 2);
    PadNatLength(m, 2);
    PadNatReadsBack(h, 2);
    PadNatReadsBack(m, 2);
    var r := TimeText(t);
    assert r[..2] == PadNat(h, 2);
    assert r[3..] == PadNat(m, 2);
  }

  /** A number with a '-' for negatives, zero-padded to `width` digits. */
  function SignedPad(i: int, width: nat): string {
    if i < 0 then "-" + PadNat(-i, width) else PadNat(i, width)
  }

  /** LocalDate.toString: the ISO form "yyyy-MM-dd", with a '+' before years
      past 9999. */
  function DateText(d: Date): string {
    (if d.year > 9999 then "+" else "") + SignedPad(d.year, 4) + "-" + SignedPad(d.month, 2) + "-"
    + SignedPad(d.day, 2)
  }

  /** For a valid date of a four-digit year, the text is ten characters and its
      three fields read back as the year, the month and the day. */
  lemma DateTextReadsBack(d: Date)
    requires ValidDate(d) && 0 <= d.year <= 9999
    ensures |DateText(d)| == 10 && DateText(d)[4] == '-' && DateText(d)[7] == '-'
    ensures ParseNat(DateText(d)[..4]) == Some(d.year)
    ensures ParseNat(DateText(d)[5..7]) == Some(d.month)
    ensures ParseNat(DateText(d)[8..]) == Some(d.day)
  {
    assert Pow10(4) == 10000 && Pow10(2) == 100;
    NatToStringShort(d.year, 4);
    NatToStringShort(d.month, 2);
    NatToStringShort(d.day, 2);
    PadNatLength(d.year, 4);
    PadNatLength(d.month, 2);
    PadNatLength(d.day, 2);
    PadNatReadsBack(d.year, 4);
    PadNatReadsBack(d.month, 2);
    PadNatReadsBack(d.day, 2);
    var r := DateText(d);
    assert r == PadNat(d.year, 4) + "-" + PadNat(d.month, 2) + "-" + PadNat(d.day, 2);
    assert r[..4] == PadNat(d.year, 4);
    assert r[5..7] == PadNat(d.month, 2);
    assert r[8..] == PadNat(d.day, 2);
  }
}

=== FILE: timeslot.dfy ===
/** Bookable time slots of an activity (activity/entity/ActivityTimeSlot.java)
    and their administration in activity/service/ActivityTimeSlotService.java:
    create, update and delete check that the activity exists and owns the
    slot and that the slot starts before it ends; a booking time is valid
    when the activity has no active slot or when it starts exactly at the
    start of an active slot and ends no later than that slot's end. */
module TimeSlots {
  import opened Wrappers
  import opened Strings
  import opened Times
  import opened Activities

  datatype Slot = Slot(id: int, activityId: int, startTime: TimeOfDay, endTime: TimeOfDay, active: bool)

  /** isValidBookingTime: the booking starts at the slot's start and ends no
      later than the slot's end. */
  predicate IsValidBookingTime(slot: Slot, bookingStart: TimeOfDay, bookingEnd: TimeOfDay) {
    slot.startTime == bookingStart && bookingEnd <= slot.endTime
  }

  /** overlapsWithTimeRange. */
  predicate OverlapsWithTimeRange(slot: Slot, checkStart: TimeOfDay, checkEnd: TimeOfDay) {
    checkStart < slot.endTime && checkEnd > slot.startTime
  }

  /** The slot's overlap test is the half-open overlap the booking services
      use, read either way round, and ranges that only touch the slot do not
      overlap it. */
  lemma OverlapsWithTimeRangeIsOverlap(slot: Slot, checkStart: TimeOfDay, checkEnd: TimeOfDay)
    ensures OverlapsWithTimeRange(slot, checkStart, checkEnd) == Overlaps(checkStart, checkEnd, slot.startTime, slot.endTime)
    ensures OverlapsWithTimeRange(slot, checkStart, checkEnd) == Overlaps(slot.startTime, slot.endTime, checkStart, checkEnd)
    ensures checkEnd <= slot.startTime || slot.endTime <= checkStart ==> !OverlapsWithTimeRange(slot, checkStart, checkEnd)
  {
    OverlapsFacts(checkStart, checkEnd, slot.startTime, slot.endTime);
  }

  /** A non-empty booking that is valid for a slot lies inside the slot and
      overlaps it. */
  lemma ValidBookingOverlapsSlot(slot: Slot, bookingStart: TimeOfDay, bookingEnd: TimeOfDay)
    requires IsValidBookingTime(slot, bookingStart, bookingEnd) && bookingStart < bookingEnd
    ensures slot.startTime <= bookingStart && bookingEnd <= slot.endTime
    ensures OverlapsWithTimeRange(slot, bookingStart, bookingEnd)
  {
  }

  /** findByActivityIdAndActiveTrue. */
  function ActiveSlotsOf(slots: seq<Slot>, activityId: int): (r: seq<Slot>)
    ensures forall s :: s in r <==> s in slots && s.activityId == activityId && s.active
  {
    if slots == [] then []
    else if slots[0].activityId == activityId && slots[0].active then
      [slots[0]] + ActiveSlotsOf(slots[1..], activityId)
    else ActiveSlotsOf(slots[1..], activityId)
  }

  /** The `anyMatch` over the active slots. */
  function AnyValidSlot(slots: seq<Slot>, bookingStart: TimeOfDay, bookingEnd: TimeOfDay): (r: bool)
    ensures r <==> exists s :: s in slots && IsValidBookingTime(s, bookingStart, bookingEnd)
  {
    if slots == [] then false
    else IsValidBookingTime(slots[0], bookingStart, bookingEnd) || AnyValidSlot(slots[1..], bookingStart, bookingEnd)
  }

  /** isBookingTimeValid. The day of the week is accepted and not used. */
  function IsBookingTimeValid(slots: seq<Slot>, activityId: int, dayOfWeek: int,
                              bookingStart: TimeOfDay, bookingEnd: TimeOfDay): (r: bool)
    ensures (forall s :: s in slots && s.activityId == activityId ==> !s.active) ==> r
    ensures (exists s :: s in slots && s.activityId == activityId && s.active) ==>
      (r <==> exists s :: s in slots && s.activityId == activityId && s.active
                          && s.startTime == bookingStart && bookingEnd <= s.endTime)
  {
    var active := ActiveSlotsOf(slots, activityId);
    if active == [] then true
    else AnyValidSlot(active, bookingStart, bookingEnd)
  }

  /** The answer does not depend on the day of the week. */
  lemma DayOfWeekIgnored(slots: seq<Slot>, activityId: int, d1: int, d2: int,
                         bookingStart: TimeOfDay, bookingEnd: TimeOfDay)
    ensures IsBookingTimeValid(slots, activityId, d1, bookingStart, bookingEnd)
         == IsBookingTimeValid(slots, activityId, d2, bookingStart, bookingEnd)
  {
  }

  /** Inactive slots and slots of other activities have no say. */
  lemma OnlyActiveOwnSlotsMatter(slots: seq<Slot>, extra: Slot, activityId: int, dayOfWeek: int,
                                 bookingStart: TimeOfDay, bookingEnd: TimeOfDay)
    requires extra.activityId != activityId || !extra.active
    ensures IsBookingTimeValid(slots + [extra], activityId, dayOfWeek, bookingStart, bookingEnd)
         == IsBookingTimeValid(slots, activityId, dayOfWeek, bookingStart, bookingEnd)
  {
    assert forall s :: s in slots + [extra] && s.activityId == activityId && s.active ==> s in slots;
  }

  const BadSlotTimes: string := "Start time must be before end time"
  const SlotNotOwned: string := "Time slot does not belong to the specified activity"

  function SlotNotFound(id: int): string {
    "ActivityTimeSlot with ID " + IntToString(id) + " not found"
  }

  /** validateTimeSlot: a slot must start strictly before it ends. */
  function ValidateTimeSlot(startTime: TimeOfDay, endTime: TimeOfDay): (r: Outcome)
    ensures r.Pass? <==> startTime < endTime
    ensures r.Fail? ==> r.error == BadSlotTimes
  {
    if startTime > endTime || startTime == endTime then Fail(BadSlotTimes) else Pass
  }

  /** ActivityTimeSlotRequest; a missing `active` flag means active. */
  datatype SlotRequest = SlotRequest(startTime: TimeOfDay, endTime: TimeOfDay, active: Option<bool>)

  /** request.updateEntity: times and flag from the request, identity kept. */
  function ApplyRequest(slot: Slot, req: SlotRequest): (r: Slot)
    ensures r.id == slot.id && r.activityId == slot.activityId
    ensures r.startTime == req.startTime && r.endTime == req.endTime
    ensures r.active == (req.active.None? || req.active.value)
  {
    slot.(startTime := req.startTime, endTime := req.endTime, active := req.active.GetOr(true))
  }

  function FindSlot(slots: seq<Slot>, id: int): (r: Option<Slot>)
    ensures r.Some? ==> r.value in slots && r.value.id == id
    ensures r.None? <==> forall s :: s in slots ==> s.id != id
  {
    if slots == [] then None
    else if slots[0].id == id then Some(slots[0])
    else FindSlot(slots[1..], id)
  }

  /** findByActivityId: the activity's slot list, in store order. */
  function SlotsOf(slots: seq<Slot>, activityId: int): (r: seq<Slot>)
    ensures forall s :: s in r <==> s in slots && s.activityId == activityId
    ensures |r| <= |slots|
  {
    if slots == [] then []
    else if slots[0].activityId == activityId then [slots[0]] + SlotsOf(slots[1..], activityId)
    else SlotsOf(slots[1..], activityId)
  }

  /** Ids are unique and below the next id to hand out. */
  predicate SlotsValid(slots: seq<Slot>, nextId: int) {
    (forall s :: s in slots ==> s.id < nextId)
    && forall a, b :: a in slots && b in slots && a.id == b.id ==> a == b
  }

  /** The slot with the id of `s` replaced by `s`. */
  function ReplaceSlot(slots: seq<Slot>, s: Slot): (r: seq<Slot>)
    ensures |r| == |slots|
    ensures forall x :: x in r ==> x == s || (x in slots && x.id != s.id)
    ensures (exists x :: x in slots && x.id == s.id) ==> s in r
  {
    if slots == [] then []
    else [if slots[0].id == s.id then s else slots[0]] + ReplaceSlot(slots[1..], s)
  }

  /** Every slot except the one with the given id, in order. */
  function RemoveSlot(slots: seq<Slot>, id: int): (r: seq<Slot>)
    ensures forall s :: s in r <==> s in slots && s.id != id
  {
    if slots == [] then []
    else if slots[0].id == id then RemoveSlot(slots[1..], id)
    else [slots[0]] + RemoveSlot(slots[1..], id)
  }

  /** Appending a slot extends its own activity's list by it and leaves the
      other activities' lists alone. */
  lemma {:induction false} AppendExtendsActivityList(slots: seq<Slot>, s: Slot, activityId: int)
    ensures SlotsOf(slots + [s], activityId)
         == SlotsOf(slots, activityId) + (if s.activityId == activityId then [s] else [])
  {
    if slots == [] {
      assert slots + [s] == [s];
      assert SlotsOf([s], activityId) == (if s.activityId == activityId then [s] else []) + SlotsOf([], activityId);
    } else {
      assert (slots + [s])[1..] == slots[1..] + [s];
      AppendExtendsActivityList(slots[1..], s, activityId);
    }
  }

  /** Removing a slot from the store removes it from its activity's list and
      nothing else: listing and removing commute. */
  lemma {:induction false} RemoveShrinksActivityList(slots: seq<Slot>, id: int, activityId: int)
    ensures SlotsOf(RemoveSlot(slots, id), activityId) == RemoveSlot(SlotsOf(slots, activityId), id)
  {
    if slots != [] {
      RemoveShrinksActivityList(slots[1..], id, activityId);
    }
  }

  /** Updating a slot without moving it to another activity updates it in
      its activity's list, in place, and leaves every other list alone:
      listing and replacing commute. */
  lemma {:induction false} ReplaceKeepsActivityList(slots: seq<Slot>, s: Slot, activityId: int)
    requires forall x :: x in slots && x.id == s.id ==> x.activityId == s.activityId
    ensures SlotsOf(ReplaceSlot(slots, s), activityId) == ReplaceSlot(SlotsOf(slots, activityId), s)
  {
    if slots != [] {
      var h, t := slots[0], slots[1..];
      assert h in slots;
      assert forall x :: x in t ==> x in slots;
      ReplaceKeepsActivityList(t, s, activityId);
      if h.activityId == activityId {
        var l := [h] + SlotsOf(t, activityId);
        assert l[0] == h && l[1..] == SlotsOf(t, activityId);
      }
    }
  }

  lemma AppendKeepsValid(slots: seq<Slot>, nextId: int, s: Slot)
    requires SlotsValid(slots, nextId) && s.id == nextId
    ensures SlotsValid(slots + [s], nextId + 1)
  {
  }

  lemma ReplaceKeepsValid(slots: seq<Slot>, nextId: int, s: Slot)
    requires SlotsValid(slots, nextId) && FindSlot(slots, s.id).Some?
    ensures SlotsValid(ReplaceSlot(slots, s), nextId)
  {
  }

  lemma RemoveKeepsValid(slots: seq<Slot>, nextId: int, id: int)
    requires SlotsValid(slots, nextId)
    ensures SlotsValid(RemoveSlot(slots, id), nextId)
  {
  }

  /** The slot store: the repository's rows and its identity counter. */
  class TimeSlotStore {
    var slots: seq<Slot>
    var nextId: int

    predicate Valid()
      reads this
    {
      SlotsValid(slots, nextId)
    }

    constructor()
      ensures Valid() && slots == [] && nextId == 1
    {
      slots := [];
      nextId := 1;
    }

    /** getActivityTimeSlots. */
    function ActivityTimeSlots(activityId: int): (r: seq<Slot>)
      reads this
      ensures forall s :: s in r <==> s in slots && s.activityId == activityId
    {
      SlotsOf(slots, activityId)
    }

    /** createTimeSlot: the activity must exist and the times be ordered;
        the new slot gets the next id and joins the activity's list. */
    method CreateTimeSlot(activities: seq<Activity>, activityId: int, req: SlotRequest)
      returns (r: Result<Slot>)
      requires Valid()
      modifies this
      ensures Valid()
      ensures FindActivity(activities, activityId).None? ==> r == Failure(ActivityNotFound(activityId))
      ensures FindActivity(activities, activityId).Some? && req.startTime >= req.endTime ==>
        r == Failure(BadSlotTimes)
      ensures r.Success? <==> FindActivity(activities, activityId).Some? && req.startTime < req.endTime
      ensures r.Failure? ==> slots == old(slots) && nextId == old(nextId)
      ensures r.Success? ==>
        r.value == Slot(old(nextId), activityId, req.startTime, req.endTime, req.active.GetOr(true))
        && slots == old(slots) + [r.value] && nextId == old(nextId) + 1
        && SlotsOf(slots, activityId) == SlotsOf(old(slots), activityId) + [r.value]
    {
      if FindActivity(activities, activityId).None? {
        return Failure(ActivityNotFound(activityId));
      }
      var check := ValidateTimeSlot(req.startTime, req.endTime);
      if check.Fail? {
        return Failure(check.error);
      }
      var saved := Slot(nextId, activityId, req.startTime, req.endTime, req.active.GetOr(true));
      AppendKeepsValid(slots, nextId, saved);
      AppendExtendsActivityList(slots, saved, activityId);
      slots, nextId := slots + [saved], nextId + 1;
      r := Success(saved);
    }

    /** updateTimeSlot: the activity and the slot must exist, the slot must
        belong to the activity and the new times be ordered. */
    method UpdateTimeSlot(activities: seq<Activity>, activityId: int, slotId: int, req: SlotRequest)
      returns (r: Result<Slot>)
      requires Valid()
      modifies this
      ensures Valid() && nextId == old(nextId)
      ensures FindActivity(activities, activityId).None? ==> r == Failure(ActivityNotFound(activityId))
      ensures FindActivity(activities, activityId).Some? && FindSlot(old(slots), slotId).None? ==>
        r == Failure(SlotNotFound(slotId))
      ensures FindActivity(activities, activityId).Some? && FindSlot(old(slots), slotId).Some? ==>
        var s := FindSlot(old(slots), slotId).value;
        (s.activityId != activityId ==> r == Failure(SlotNotOwned))
        && (s.activityId == activityId && req.startTime >= req.endTime ==> r == Failure(BadSlotTimes))
        && (s.activityId == activityId && req.startTime < req.endTime ==>
              r == Success(ApplyRequest(s, req)) && slots == ReplaceSlot(old(slots), r.value)
              && SlotsOf(slots, activityId) == ReplaceSlot(SlotsOf(old(slots), activityId), r.value))
      ensures r.Failure? ==> slots == old(slots)
    {
      if FindActivity(activities, activityId).None? {
        return Failure(ActivityNotFound(activityId));
      }
      var found := FindSlot(slots, slotId);
      if found.None? {
        return Failure(SlotNotFound(slotId));
      }
      if found.value.activityId != activityId {
        return Failure(SlotNotOwned);
      }
      var check := ValidateTimeSlot(req.startTime, req.endTime);
      if check.Fail? {
        return Failure(check.error);
      }
      var updated := ApplyRequest(found.value, req);
      ReplaceKeepsValid(slots, nextId, updated);
      ReplaceKeepsActivityList(slots, updated, activityId);
      slots := ReplaceSlot(slots, updated);
      r := Success(updated);
    }

    /** deleteTimeSlot: the activity and the slot must exist and the slot
        must belong to the activity; it leaves the store and the list. */
    method DeleteTimeSlot(activities: seq<Activity>, activityId: int, slotId: int)
      returns (r: Outcome)
      requires Valid()
      modifies this
      ensures Valid() && nextId == old(nextId)
      ensures FindActivity(activities, activityId).None? ==> r == Fail(ActivityNotFound(activityId))
      ensures FindActivity(activities, activityId).Some? && FindSlot(old(slots), slotId).None? ==>
        r == Fail(SlotNotFound(slotId))
      ensures FindActivity(activities, activityId).Some? && FindSlot(old(slots), slotId).Some? ==>
        (r.Fail? <==> FindSlot(old(slots), slotId).value.activityId != activityId)
        && (r.Fail? ==> r.error == SlotNotOwned)
      ensures r.Fail? ==> slots == old(slots)
      ensures r.Pass? ==>
        slots == RemoveSlot(old(slots), slotId)
        && SlotsOf(slots, activityId) == RemoveSlot(SlotsOf(old(slots), activityId), slotId)
    {
      if FindActivity(activities, activityId).None? {
        return Fail(ActivityNotFound(activityId));
      }
      var found := FindSlot(slots, slotId);
      if found.None? {
        return Fail(SlotNotFound(slotId));
      }
      if found.value.activityId != activityId {
        return Fail(SlotNotOwned);
      }
      RemoveKeepsValid(slots, nextId, slotId);
      RemoveShrinksActivityList(slots, slotId, activityId);
      slots := RemoveSlot(slots, slotId);
      r := Pass;
    }
  }
}

=== FILE: workhours.dfy ===
/** Work windows and the requests employees file for them
    (employee/service/EmployeeWorkHourService.java). An employee asks for a
    window on a day; an administrator approves the request, which adds the
    window, or rejects it. Administrators can also add windows directly, one
    day or many days at a time. Every path that adds a window first checks
    that it overlaps none of the employee's windows on that day, so the
    windows of one employee on one day never overlap. */
module WorkHours {
  import opened Wrappers
  import opened Strings
  import opened Times
  import opened Staff

  datatype RequestStatus = Pending | Approved | Rejected

  /** WorkHourRequest. Its time columns are NOT NULL, so every stored request
      carries both times. */
  datatype WorkHourRequest = WorkHourRequest(
    id: int,
    employee: User,
    workDate: Date,
    startTime: TimeOfDay,
    endTime: TimeOfDay,
    isAvailable: bool,
    status: RequestStatus,
    notes: Option<string>,
    requestedAt: DateTime,
    reviewedAt: Option<DateTime>,
    reviewedBy: Option<User>,
    rejectionReason: Option<string>)

  const UserNotFound: string := "User not found"
  const EndNotAfterStart: string := "End time must be after start time"
  const PastDate: string := "Cannot create request for past dates"
  const RequestNotFound: string := "Request not found"
  const AlreadyReviewed: string := "Request has already been reviewed"
  const NotOwnRequest: string := "You can only cancel your own requests"
  const NotPending: string := "Can only cancel pending requests"
  /** A request for an unavailable day is built without times; saving it
      breaks the NOT NULL time columns and the transaction fails. */
  const MissingTimes: string := "Work hour request has no start and end time"

  /** validateTimes: the end must come strictly after the start. */
  function ValidateTimes(s: TimeOfDay, e: TimeOfDay): (r: Outcome)
    ensures r.Pass? <==> s < e
    ensures r.Fail? ==> r.error == EndNotAfterStart
  {
    if e < s || e == s then Fail(EndNotAfterStart) else Pass
  }

  /** The test validateNoOverlap applies to one stored window. */
  predicate WindowClash(w: WorkHour, employeeId: int, date: Date, s: TimeOfDay, e: TimeOfDay) {
    w.employee.id == employeeId && w.workDate == date && s < w.endTime && e > w.startTime
  }

  /** The `anyMatch` of validateNoOverlap. */
  function AnyClash(windows: seq<WorkHour>, employeeId: int, date: Date, s: TimeOfDay, e: TimeOfDay): (r: bool)
    ensures r <==> exists w :: w in windows && WindowClash(w, employeeId, date, s, e)
  {
    if windows == [] then false
    else WindowClash(windows[0], employeeId, date, s, e) || AnyClash(windows[1..], employeeId, date, s, e)
  }

  /** The refusal of validateNoOverlap, naming the employee, the day and the
      new interval. */
  function OverlapMessage(employee: User, date: Date, s: TimeOfDay, e: TimeOfDay): string {
    OverlapHead(employee, date) + TimeText(s) + "-" + TimeText(e)
  }

  /** The part of the refusal before the new interval. */
  function OverlapHead(employee: User, date: Date): string {
    "Overlapping work hours detected for employee " + employee.username + " on " + DateText(date)
    + ". New interval: "
  }

  /** The message ends with the interval from s to e: its last eleven
      characters hold the hour and minute of each end, read back as numbers. */
  predicate EndsWithInterval(r: string, s: TimeOfDay, e: TimeOfDay) {
    |r| >= 11
    && ParseNat(r[|r| - 11..|r| - 9]) == Some(s / MinutesPerHour)
    && ParseNat(r[|r| - 8..|r| - 6]) == Some(s % MinutesPerHour)
    && ParseNat(r[|r| - 5..|r| - 3]) == Some(e / MinutesPerHour)
    && ParseNat(r[|r| - 2..]) == Some(e % MinutesPerHour)
  }

  /** The refusal ends with the new interval, whose hours and minutes read
      back from the message. */
  lemma OverlapMessageShowsInterval(employee: User, date: Date, s: TimeOfDay, e: TimeOfDay)
    ensures EndsWithInterval(OverlapMessage(employee, date, s, e), s, e)
  {
    IntervalReadsBack(OverlapHead(employee, date), s, e);
  }

  /** Whatever text comes before it, an interval written at the end of a
      message reads back as the four numbers it was made of. */
  lemma IntervalReadsBack(head: string, s: TimeOfDay, e: TimeOfDay)
    ensures EndsWithInterval(head + TimeText(s) + "-" + TimeText(e), s, e)
  {
    TimeTextReadsBack(s);
    TimeTextReadsBack(e);
    IntervalSuffix(head, TimeText(s), TimeText(e));
  }

  lemma IntervalSuffix(head: string, ts: string, te: string)
    requires |ts| == 5 && |te| == 5
    ensures var r := head + ts + "-" + te;
      |r| >= 11 && r[|r| - 11..|r| - 9] == ts[..2] && r[|r| - 8..|r| - 6] == ts[3..]
      && r[|r| - 5..|r| - 3] == te[..2] && r[|r| - 2..] == te[3..]
  {
    var r := head + ts + "-" + te;
    var n := |head|;
    assert r[n..n + 5] == ts;
    assert r[n + 6..] == te;
  }

  /** validateNoOverlap: a new window [s, e) is refused exactly when it shares
      a minute with one of the employee's windows on that day; windows that
      only touch are accepted. */
  function ValidateNoOverlap(windows: seq<WorkHour>, employee: User, date: Date, s: TimeOfDay, e: TimeOfDay)
    : (r: Outcome)
    ensures r.Fail? ==> r.error == OverlapMessage(employee, date, s, e)
  {
    if AnyClash(windows, employee.id, date, s, e) then Fail(OverlapMessage(employee, date, s, e)) else Pass
  }

  /** validateNoOverlap accepts exactly when none of the employee's windows
      on that day shares a minute with the new one. */
  lemma ValidateNoOverlapIff(windows: seq<WorkHour>, employee: User, date: Date, s: TimeOfDay, e: TimeOfDay)
    ensures ValidateNoOverlap(windows, employee, date, s, e).Pass?
        <==> forall w :: w in windows && w.employee.id == employee.id && w.workDate == date
                         ==> !Overlaps(s, e, w.startTime, w.endTime)
  {
  }

  /** Two windows do not share a minute unless they belong to different
      employees or days. */
  predicate Apart(a: WorkHour, b: WorkHour) {
    a.employee.id != b.employee.id || a.workDate != b.workDate
    || !Overlaps(a.startTime, a.endTime, b.startTime, b.endTime)
  }

  /** The windows of one employee on one day are pairwise disjoint. */
  predicate NonOverlapping(windows: seq<WorkHour>) {
    forall a, b :: a in windows && b in windows && a != b ==> Apart(a, b)
  }

  /** Adding a window with a fresh id keeps the store free of overlaps
      exactly when validateNoOverlap accepts it. */
  lemma CheckedWindowKeepsApart(windows: seq<WorkHour>, w: WorkHour)
    requires NonOverlapping(windows)
    requires forall a :: a in windows ==> a.id != w.id
    ensures NonOverlapping(windows + [w])
        <==> ValidateNoOverlap(windows, w.employee, w.workDate, w.startTime, w.endTime).Pass?
  {
    var check := ValidateNoOverlap(windows, w.employee, w.workDate, w.startTime, w.endTime);
    ValidateNoOverlapIff(windows, w.employee, w.workDate, w.startTime, w.endTime);
    if check.Pass? {
      forall a, b | a in windows + [w] && b in windows + [w] && a != b
        ensures Apart(a, b)
      {
        OverlapsFacts(a.startTime, a.endTime, b.startTime, b.endTime);
        if a == w {
          assert b in windows;
        } else if b == w {
          assert a in windows;
        } else {
          assert a in windows && b in windows;
        }
      }
    } else {
      var a :| a in windows && a.employee.id == w.employee.id && a.workDate == w.workDate
               && Overlaps(w.startTime, w.endTime, a.startTime, a.endTime);
      assert a != w && a in windows + [w] && w in windows + [w];
      assert !Apart(a, w);
    }
  }

  /** The exact-duplicate test of updateEmployeeWorkHours (the `anyMatch` on
      equal start and end). */
  function IntervalExists(windows: seq<WorkHour>, employeeId: int, date: Date, s: TimeOfDay, e: TimeOfDay): (r: bool)
    ensures r <==> exists w :: (w in windows && w.employee.id == employeeId && w.workDate == date
                                && w.startTime == s && w.endTime == e)
  {
    if windows == [] then false
    else
      var w := windows[0];
      (w.employee.id == employeeId && w.workDate == date && w.startTime == s && w.endTime == e)
      || IntervalExists(windows[1..], employeeId, date, s, e)
  }

  /** The duplicate test can never fire: once the times are ordered and the
      overlap test passed, an equal window would have overlapped. */
  lemma DuplicateCheckUnreachable(windows: seq<WorkHour>, employee: User, date: Date, s: TimeOfDay, e: TimeOfDay)
    requires ValidateTimes(s, e).Pass? && ValidateNoOverlap(windows, employee, date, s, e).Pass?
    ensures !IntervalExists(windows, employee.id, date, s, e)
  {
  }

  /** `deleteById`. */
  function RemoveWindow(windows: seq<WorkHour>, id: int): (r: seq<WorkHour>)
    ensures forall w :: w in r <==> w in windows && w.id != id
  {
    if windows == [] then []
    else if windows[0].id == id then RemoveWindow(windows[1..], id)
    else [windows[0]] + RemoveWindow(windows[1..], id)
  }

  /** `deleteByEmployeeAndWorkDate`. */
  function RemoveDay(windows: seq<WorkHour>, employeeId: int, date: Date): (r: seq<WorkHour>)
    ensures forall w :: w in r <==> w in windows && !(w.employee.id == employeeId && w.workDate == date)
  {
    if windows == [] then []
    else if windows[0].employee.id == employeeId && windows[0].workDate == date then RemoveDay(windows[1..], employeeId, date)
    else [windows[0]] + RemoveDay(windows[1..], employeeId, date)
  }

  /** The windows createBulkEmployeeWorkHours leaves in the store: each date
      in turn is checked against the windows so far (those added for earlier
      dates included) and gets the next id; the first refusal fails the whole
      call, which the transaction rolls back. */
  function BulkInsert(windows: seq<WorkHour>, employee: User, dates: seq<Date>, s: TimeOfDay, e: TimeOfDay,
                      isAvailable: bool, nextId: int): (r: Result<seq<WorkHour>>)
    ensures r.Success? ==> |r.value| == |windows| + |dates|
    decreases |dates|
  {
    if dates == [] then Success(windows)
    else
      var check := ValidateNoOverlap(windows, employee, dates[0], s, e);
      if check.Fail? then Failure(check.error)
      else BulkInsert(windows + [WorkHour(nextId, employee, dates[0], s, e, isAvailable)], employee, dates[1..], s, e,
                      isAvailable, nextId + 1)
  }

  /** One step of the bulk insert, at position i of the list. */
  lemma BulkInsertStep(windows: seq<WorkHour>, employee: User, dates: seq<Date>, s: TimeOfDay, e: TimeOfDay,
                       isAvailable: bool, nextId: int, i: int)
    requires 0 <= i < |dates|
    ensures var check := ValidateNoOverlap(windows, employee, dates[i], s, e);
      BulkInsert(windows, employee, dates[i..], s, e, isAvailable, nextId)
      == if check.Fail? then Failure(check.error)
         else BulkInsert(windows + [WorkHour(nextId, employee, dates[i], s, e, isAvailable)], employee, dates[i + 1..],
                         s, e, isAvailable, nextId + 1)
  {
    assert dates[i..][0] == dates[i] && dates[i..][1..] == dates[i + 1..];
  }

  /** The loop of createBulkEmployeeWorkHours moves one date forward once
      validateNoOverlap accepts the window for it. */
  lemma BulkInsertAdvance(windows: seq<WorkHour>, staged: seq<WorkHour>, employee: User, dates: seq<Date>,
                          s: TimeOfDay, e: TimeOfDay, isAvailable: bool, nextId: int, i: int)
    requires 0 <= i < |dates|
    requires BulkInsert(windows, employee, dates, s, e, isAvailable, nextId)
          == BulkInsert(staged, employee, dates[i..], s, e, isAvailable, nextId + i)
    requires ValidateNoOverlap(staged, employee, dates[i], s, e).Pass?
    ensures BulkInsert(windows, employee, dates, s, e, isAvailable, nextId)
         == BulkInsert(staged + [WorkHour(nextId + i, employee, dates[i], s, e, isAvailable)], employee,
                       dates[i + 1..], s, e, isAvailable, nextId + (i + 1))
  {
    BulkInsertStep(staged, employee, dates, s, e, isAvailable, nextId + i, i);
  }

  /** A successful bulk insert keeps the store free of overlaps, and every
      id stays below the next free one. */
  lemma {:induction false} BulkInsertKeepsApart(windows: seq<WorkHour>, employee: User, dates: seq<Date>,
                                                s: TimeOfDay, e: TimeOfDay, isAvailable: bool, nextId: int)
    requires NonOverlapping(windows) && forall w :: w in windows ==> w.id < nextId
    requires BulkInsert(windows, employee, dates, s, e, isAvailable, nextId).Success?
    ensures var r := BulkInsert(windows, employee, dates, s, e, isAvailable, nextId).value;
      NonOverlapping(r) && forall w :: w in r ==> w.id < nextId + |dates|
    decreases |dates|
  {
    if dates != [] {
      var w := WorkHour(nextId, employee, dates[0], s, e, isAvailable);
      CheckedWindowKeepsApart(windows, w);
      BulkInsertKeepsApart(windows + [w], employee, dates[1..], s, e, isAvailable, nextId + 1);
    }
  }

  /** A successful bulk insert keeps the old windows in front and adds one
      window per date, in order, with consecutive ids. */
  lemma {:induction false} BulkInsertAppends(windows: seq<WorkHour>, employee: User, dates: seq<Date>,
                                             s: TimeOfDay, e: TimeOfDay, isAvailable: bool, nextId: int)
    requires BulkInsert(windows, employee, dates, s, e, isAvailable, nextId).Success?
    ensures var r := BulkInsert(windows, employee, dates, s, e, isAvailable, nextId).value;
      r[..|windows|] == windows
      && forall i :: 0 <= i < |dates| ==> r[|windows| + i] == WorkHour(nextId + i, employee, dates[i], s, e, isAvailable)
    decreases |dates|
  {
    if dates != [] {
      var more := windows + [WorkHour(nextId, employee, dates[0], s, e, isAvailable)];
      BulkInsertAppends(more, employee, dates[1..], s, e, isAvailable, nextId + 1);
      var r := BulkInsert(more, employee, dates[1..], s, e, isAvailable, nextId + 1).value;
      assert r[..|windows|] == r[..|more|][..|windows|];
      forall i | 0 <= i < |dates|
        ensures r[|windows| + i] == WorkHour(nextId + i, employee, dates[i], s, e, isAvailable)
      {
        if i == 0 {
          assert r[|windows|] == r[..|more|][|windows|];
        } else {
          assert r[|more| + (i - 1)] == WorkHour(nextId + 1 + (i - 1), employee, dates[1..][i - 1], s, e, isAvailable);
        }
      }
    }
  }

  /** With ordered times, a date listed twice makes the bulk insert fail:
      the window added for its first occurrence overlaps the second. */
  lemma {:induction false} RepeatedDateRejected(windows: seq<WorkHour>, employee: User, dates: seq<Date>,
                                                s: TimeOfDay, e: TimeOfDay, isAvailable: bool, nextId: int,
                                                i: int, j: int)
    requires s < e && 0 <= i < j < |dates| && dates[i] == dates[j]
    ensures BulkInsert(windows, employee, dates, s, e, isAvailable, nextId).Failure?
    decreases |dates|
  {
    var check := ValidateNoOverlap(windows, employee, dates[0], s, e);
    if check.Pass? {
      var w := WorkHour(nextId, employee, dates[0], s, e, isAvailable);
      if i == 0 {
        FirstWindowStays(windows + [w], employee, dates[1..], s, e, isAvailable, nextId + 1, w, j - 1);
      } else {
        RepeatedDateRejected(windows + [w], employee, dates[1..], s, e, isAvailable, nextId + 1, i - 1, j - 1);
      }
    }
  }

  /** A window already stored on the date at position k of the list, with
      the same times and employee, makes the bulk insert fail. */
  lemma {:induction false} FirstWindowStays(windows: seq<WorkHour>, employee: User, dates: seq<Date>, s: TimeOfDay,
                                            e: TimeOfDay, isAvailable: bool, nextId: int, w: WorkHour, k: int)
    requires s < e && w in windows && w.employee.id == employee.id && w.startTime == s && w.endTime == e
    requires 0 <= k < |dates| && dates[k] == w.workDate
    ensures BulkInsert(windows, employee, dates, s, e, isAvailable, nextId).Failure?
    decreases |dates|
  {
    if k == 0 {
      assert WindowClash(w, employee.id, dates[0], s, e);
    } else if ValidateNoOverlap(windows, employee, dates[0], s, e).Pass? {
      var more := windows + [WorkHour(nextId, employee, dates[0], s, e, isAvailable)];
      assert w in more;
      FirstWindowStays(more, employee, dates[1..], s, e, isAvailable, nextId + 1, w, k - 1);
    }
  }

  /** `requestRepository.findById`. */
  function FindRequest(requests: seq<WorkHourRequest>, id: int): (r: Option<WorkHourRequest>)
    ensures r.Some? ==> r.value in requests && r.value.id == id
    ensures r.None? <==> forall q :: q in requests ==> q.id != id
  {
    if requests == [] then None
    else if requests[0].id == id then Some(requests[0])
    else FindRequest(requests[1..], id)
  }

  /** `requestRepository.save` of a stored request. */
  function ReplaceRequest(requests: seq<WorkHourRequest>, q: WorkHourRequest): (r: seq<WorkHourRequest>)
    ensures |r| == |requests|
  {
    if requests == [] then []
    else [if requests[0].id == q.id then q else requests[0]] + ReplaceRequest(requests[1..], q)
  }

  /** `requestRepository.delete`. */
  function RemoveRequest(requests: seq<WorkHourRequest>, id: int): (r: seq<WorkHourRequest>)
    ensures forall q :: q in r <==> q in requests && q.id != id
  {
    if requests == [] then []
    else if requests[0].id == id then RemoveRequest(requests[1..], id)
    else [requests[0]] + RemoveRequest(requests[1..], id)
  }

  /** After a save, looking the id up gives the saved request. */
  lemma {:induction false} FindAfterReplace(requests: seq<WorkHourRequest>, q: WorkHourRequest)
    requires FindRequest(requests, q.id).Some?
    ensures FindRequest(ReplaceRequest(requests, q), q.id) == Some(q)
  {
    if requests[0].id != q.id {
      FindAfterReplace(requests[1..], q);
    }
  }

  /** A save or a delete leaves the lookup of every other id as it was. */
  lemma {:induction false} OtherRequestsUnchanged(requests: seq<WorkHourRequest>, q: WorkHourRequest, id: int)
    requires id != q.id
    ensures FindRequest(ReplaceRequest(requests, q), id) == FindRequest(requests, id)
    ensures FindRequest(RemoveRequest(requests, q.id), id) == FindRequest(requests, id)
  {
    if requests != [] {
      OtherRequestsUnchanged(requests[1..], q, id);
    }
  }

  /** A new request as createRequest and createBulkRequest build it. */
  function NewRequest(id: int, employee: User, date: Date, s: TimeOfDay, e: TimeOfDay, notes: Option<string>,
                      now: DateTime): WorkHourRequest
  {
    WorkHourRequest(id, employee, date, s, e, true, Pending, notes, now, None, None, None)
  }

  /** The dates createBulkRequest does not skip, in order. */
  function UpcomingDates(dates: seq<Date>, today: Date): (r: seq<Date>)
    ensures forall d :: d in r <==> d in dates && !DateBefore(d, today)
    ensures |r| <= |dates|
  {
    if dates == [] then []
    else
      var init := UpcomingDates(dates[..|dates| - 1], today);
      assert forall d :: d in dates <==> d in dates[..|dates| - 1] || d == dates[|dates| - 1];
      if DateBefore(dates[|dates| - 1], today) then init else init + [dates[|dates| - 1]]
  }

  /** The requests createBulkRequest saves for the given dates, with
      consecutive ids from firstId. */
  function NewRequests(dates: seq<Date>, firstId: int, employee: User, s: TimeOfDay, e: TimeOfDay,
                       notes: Option<string>, now: DateTime): (r: seq<WorkHourRequest>)
    ensures |r| == |dates|
    ensures forall i :: 0 <= i < |dates| ==> r[i].id == firstId + i && r[i].workDate == dates[i] && r[i].status == Pending
  {
    seq(|dates|, i requires 0 <= i < |dates| => NewRequest(firstId + i, employee, dates[i], s, e, notes, now))
  }

  /** The loop of createBulkRequest: past dates are skipped; the first
      upcoming date of an unavailable request fails the call. */
  method StageRequests(employee: User, today: Date, now: DateTime, dates: seq<Date>, isAvailable: bool,
                       s: TimeOfDay, e: TimeOfDay, notes: Option<string>, firstId: int)
    returns (r: Result<seq<WorkHourRequest>>)
    ensures !isAvailable && UpcomingDates(dates, today) != [] ==> r == Failure(MissingTimes)
    ensures isAvailable || UpcomingDates(dates, today) == [] ==>
      r == Success(NewRequests(UpcomingDates(dates, today), firstId, employee, s, e, notes, now))
  {
    var created: seq<WorkHourRequest> := [];
    var i := 0;
    while i < |dates|
      invariant 0 <= i <= |dates|
      invariant !isAvailable ==> UpcomingDates(dates[..i], today) == []
      invariant created == NewRequests(UpcomingDates(dates[..i], today), firstId, employee, s, e, notes, now)
    {
      assert dates[..i + 1][..i] == dates[..i];
      if !DateBefore(dates[i], today) {
        if !isAvailable {
          assert dates == dates[..i + 1] + dates[i + 1..];
          assert dates[i] in UpcomingDates(dates, today);
          return Failure(MissingTimes);
        }
        created := created + [NewRequest(firstId + |created|, employee, dates[i], s, e, notes, now)];
      }
      i := i + 1;
    }
    assert dates[..i] == dates;
    r := Success(created);
  }

  /** The loop of createBulkEmployeeWorkHours, on the store as it grows. */
  method StageWindows(windows: seq<WorkHour>, employee: User, dates: seq<Date>, s: TimeOfDay, e: TimeOfDay,
                      isAvailable: bool, nextId: int) returns (r: Result<seq<WorkHour>>)
    ensures r == BulkInsert(windows, employee, dates, s, e, isAvailable, nextId)
  {
    var staged := windows;
    var i := 0;
    while i < |dates|
      invariant 0 <= i <= |dates|
      invariant BulkInsert(windows, employee, dates, s, e, isAvailable, nextId)
             == BulkInsert(staged, employee, dates[i..], s, e, isAvailable, nextId + i)
    {
      var overlap := ValidateNoOverlap(staged, employee, dates[i], s, e);
      if overlap.Fail? {
        BulkInsertStep(staged, employee, dates, s, e, isAvailable, nextId + i, i);
        return Failure(overlap.error);
      }
      BulkInsertAdvance(windows, staged, employee, dates, s, e, isAvailable, nextId, i);
      staged := staged + [WorkHour(nextId + i, employee, dates[i], s, e, isAvailable)];
      i := i + 1;
    }
    assert dates[i..] == [];
    r := Success(staged);
  }

  class WorkHourService {
    var windows: seq<WorkHour>
    var requests: seq<WorkHourRequest>
    var nextWindowId: int
    var nextRequestId: int

    predicate Valid()
      reads this
    {
      NonOverlapping(windows)
      && (forall w :: w in windows ==> w.id < nextWindowId)
      && (forall q :: q in requests ==> q.id < nextRequestId)
    }

    constructor()
      ensures Valid() && windows == [] && requests == [] && nextWindowId == 1 && nextRequestId == 1
    {
      windows := [];
      requests := [];
      nextWindowId := 1;
      nextRequestId := 1;
    }

    /** createRequest: the signed-in employee asks for a window on a day that
        is not past; the request is pending and adds no window yet. */
    method CreateRequest(users: seq<User>, username: string, today: Date, now: DateTime, workDate: Date,
                         isAvailable: bool, s: TimeOfDay, e: TimeOfDay, notes: Option<string>)
      returns (r: Result<WorkHourRequest>)
      requires Valid()
      modifies this
      ensures Valid() && windows == old(windows) && nextWindowId == old(nextWindowId)
      ensures r.Failure? ==> requests == old(requests) && nextRequestId == old(nextRequestId)
      ensures FindUserByUsername(users, username).None? ==> r == Failure(UserNotFound)
      ensures FindUserByUsername(users, username).Some? && DateBefore(workDate, today) ==> r == Failure(PastDate)
      ensures FindUserByUsername(users, username).Some? && !DateBefore(workDate, today) ==>
        var employee := FindUserByUsername(users, username).value;
        (!isAvailable ==> r == Failure(MissingTimes))
        && (isAvailable && ValidateTimes(s, e).Fail? ==> r == Failure(EndNotAfterStart))
        && (isAvailable && ValidateTimes(s, e).Pass? && ValidateNoOverlap(old(windows), employee, workDate, s, e).Fail? ==>
                  r == Failure(OverlapMessage(employee, workDate, s, e)))
        && (isAvailable && ValidateTimes(s, e).Pass? && ValidateNoOverlap(old(windows), employee, workDate, s, e).Pass? ==>
                  r == Success(NewRequest(old(nextRequestId), employee, workDate, s, e, notes, now)))
      ensures r.Success? ==> requests == old(requests) + [r.value] && nextRequestId == old(nextRequestId) + 1
    {
      var user := FindUserByUsername(users, username);
      if user.None? {
        return Failure(UserNotFound);
      }
      if DateBefore(workDate, today) {
        return Failure(PastDate);
      }
      if !isAvailable {
        return Failure(MissingTimes);
      }
      var times := ValidateTimes(s, e);
      if times.Fail? {
        return Failure(times.error);
      }
      var overlap := ValidateNoOverlap(windows, user.value, workDate, s, e);
      if overlap.Fail? {
        return Failure(overlap.error);
      }
      var request := NewRequest(nextRequestId, user.value, workDate, s, e, notes, now);
      requests := requests + [request];
      nextRequestId := nextRequestId + 1;
      r := Success(request);
    }

    /** createBulkRequest: one pending request per date that is not past,
        with no overlap check; past dates are skipped. */
    method CreateBulkRequest(users: seq<User>, username: string, today: Date, now: DateTime, dates: seq<Date>,
                             isAvailable: bool, s: TimeOfDay, e: TimeOfDay, notes: Option<string>)
      returns (r: Result<seq<WorkHourRequest>>)
      requires Valid()
      modifies this
      ensures Valid() && windows == old(windows) && nextWindowId == old(nextWindowId)
      ensures r.Failure? ==> requests == old(requests) && nextRequestId == old(nextRequestId)
      ensures FindUserByUsername(users, username).None? ==> r == Failure(UserNotFound)
      ensures FindUserByUsername(users, username).Some? ==>
        (isAvailable && ValidateTimes(s, e).Fail? ==> r == Failure(EndNotAfterStart))
        && (!isAvailable && UpcomingDates(dates, today) != [] ==> r == Failure(MissingTimes))
        && (r.Success? <==> (isAvailable ==> s < e) && (!isAvailable ==> UpcomingDates(dates, today) == []))
      ensures r.Success? ==>
        var upcoming := UpcomingDates(dates, today);
        var employee := FindUserByUsername(users, username).value;
        |r.value| == |upcoming|
        && r.value == NewRequests(upcoming, old(nextRequestId), employee, s, e, notes, now)
        && requests == old(requests) + r.value && nextRequestId == old(nextRequestId) + |upcoming|
    {
      var user := FindUserByUsername(users, username);
      if user.None? {
        return Failure(UserNotFound);
      }
      if isAvailable {
        var times := ValidateTimes(s, e);
        if times.Fail? {
          return Failure(times.error);
        }
      }
      r := StageRequests(user.value, today, now, dates, isAvailable, s, e, notes, nextRequestId);
      if r.Success? {
        requests := requests + r.value;
        nextRequestId := nextRequestId + |r.value|;
      }
    }

    /** cancelRequest: only the employee who filed a request may withdraw
        it, and only while it is pending; it is then deleted. */
    method CancelRequest(users: seq<User>, username: string, requestId: int) returns (r: Outcome)
      requires Valid()
      modifies this
      ensures Valid() && windows == old(windows) && nextWindowId == old(nextWindowId)
      ensures nextRequestId == old(nextRequestId)
      ensures r.Fail? ==> requests == old(requests)
      ensures FindUserByUsername(users, username).None? ==> r == Fail(UserNotFound)
      ensures FindUserByUsername(users, username).Some? && FindRequest(old(requests), requestId).None?
        ==> r == Fail(RequestNotFound)
      ensures FindUserByUsername(users, username).Some? && FindRequest(old(requests), requestId).Some? ==>
        var q := FindRequest(old(requests), requestId).value;
        (q.employee.id != FindUserByUsername(users, username).value.id ==> r == Fail(NotOwnRequest))
        && (q.employee.id == FindUserByUsername(users, username).value.id && q.status != Pending ==> r == Fail(NotPending))
        && (r.Pass? <==> q.employee.id == FindUserByUsername(users, username).value.id && q.status == Pending)
      ensures r.Pass? ==> requests == RemoveRequest(old(requests), requestId)
    {
      var user := FindUserByUsername(users, username);
      if user.None? {
        return Fail(UserNotFound);
      }
      var found := FindRequest(requests, requestId);
      if found.None? {
        return Fail(RequestNotFound);
      }
      var q := found.value;
      if q.employee.id != user.value.id {
        return Fail(NotOwnRequest);
      }
      if q.status != Pending {
        return Fail(NotPending);
      }
      requests := RemoveRequest(requests, requestId);
      r := Pass;
    }

    /** approveRequest: a pending request whose window overlaps none of the
        employee's windows that day becomes approved and adds exactly that
        window. */
    method ApproveRequest(users: seq<User>, username: string, now: DateTime, requestId: int)
      returns (r: Result<WorkHourRequest>)
      requires Valid()
      modifies this
      ensures Valid() && nextRequestId == old(nextRequestId)
      ensures r.Failure? ==> requests == old(requests) && windows == old(windows) && nextWindowId == old(nextWindowId)
      ensures FindUserByUsername(users, username).None? ==> r == Failure(UserNotFound)
      ensures FindUserByUsername(users, username).Some? && FindRequest(old(requests), requestId).None? ==>
            r == Failure(RequestNotFound)
      ensures FindUserByUsername(users, username).Some? && FindRequest(old(requests), requestId).Some? ==>
        var q := FindRequest(old(requests), requestId).value;
        var admin := FindUserByUsername(users, username).value;
        (q.status != Pending ==> r == Failure(AlreadyReviewed))
        && (q.status == Pending && ValidateNoOverlap(old(windows), q.employee, q.workDate, q.startTime, q.endTime).Fail? ==>
                  r == Failure(OverlapMessage(q.employee, q.workDate, q.startTime, q.endTime)))
        && (q.status == Pending && ValidateNoOverlap(old(windows), q.employee, q.workDate, q.startTime, q.endTime).Pass? ==>
                  r == Success(q.(status := Approved, reviewedAt := Some(now), reviewedBy := Some(admin)))
                  && windows == old(windows) + [WorkHour(old(nextWindowId), q.employee, q.workDate, q.startTime,
                                                         q.endTime, q.isAvailable)]
                  && nextWindowId == old(nextWindowId) + 1)
      ensures r.Success? ==> requests == ReplaceRequest(old(requests), r.value)
                             && FindRequest(requests, requestId) == Some(r.value)
    {
      var admin := FindUserByUsername(users, username);
      if admin.None? {
        return Failure(UserNotFound);
      }
      var found := FindRequest(requests, requestId);
      if found.None? {
        return Failure(RequestNotFound);
      }
      var q := found.value;
      if q.status != Pending {
        return Failure(AlreadyReviewed);
      }
      var overlap := ValidateNoOverlap(windows, q.employee, q.workDate, q.startTime, q.endTime);
      if overlap.Fail? {
        return Failure(overlap.error);
      }
      var w := WorkHour(nextWindowId, q.employee, q.workDate, q.startTime, q.endTime, q.isAvailable);
      AddCheckedWindow(windows, w, nextWindowId);
      windows := windows + [w];
      nextWindowId := nextWindowId + 1;
      var reviewed := q.(status := Approved, reviewedAt := Some(now), reviewedBy := Some(admin.value));
      FindAfterReplace(requests, reviewed);
      SaveKeepsIdsBelow(requests, reviewed, nextRequestId);
      requests := ReplaceRequest(requests, reviewed);
      r := Success(reviewed);
    }

    /** rejectRequest: a pending request becomes rejected with the reason,
        and no window is added. */
    method RejectRequest(users: seq<User>, username: string, now: DateTime, requestId: int, reason: Option<string>)
      returns (r: Result<WorkHourRequest>)
      requires Valid()
      modifies this
      ensures Valid() && windows == old(windows) && nextWindowId == old(nextWindowId)
      ensures nextRequestId == old(nextRequestId)
      ensures r.Failure? ==> requests == old(requests)
      ensures FindUserByUsername(users, username).None? ==> r == Failure(UserNotFound)
      ensures FindUserByUsername(users, username).Some? && FindRequest(old(requests), requestId).None? ==>
            r == Failure(RequestNotFound)
      ensures FindUserByUsername(users, username).Some? && FindRequest(old(requests), requestId).Some? ==>
        var q := FindRequest(old(requests), requestId).value;
        var admin := FindUserByUsername(users, username).value;
        (q.status != Pending ==> r == Failure(AlreadyReviewed))
        && (q.status == Pending ==>
              r == Success(q.(status := Rejected, reviewedAt := Some(now), reviewedBy := Some(admin),
                              rejectionReason := reason)))
      ensures r.Success? ==> requests == ReplaceRequest(old(requests), r.value)
                             && FindRequest(requests, requestId) == Some(r.value)
    {
      var admin := FindUserByUsername(users, username);
      if admin.None? {
        return Failure(UserNotFound);
      }
      var found := FindRequest(requests, requestId);
      if found.None? {
        return Failure(RequestNotFound);
      }
      var q := found.value;
      if q.status != Pending {
        return Failure(AlreadyReviewed);
      }
      var reviewed := q.(status := Rejected, reviewedAt := Some(now), reviewedBy := Some(admin.value),
                         rejectionReason := reason);
      FindAfterReplace(requests, reviewed);
      SaveKeepsIdsBelow(requests, reviewed, nextRequestId);
      requests := ReplaceRequest(requests, reviewed);
      r := Success(reviewed);
    }

    /** updateEmployeeWorkHours: an administrator adds one window for an
        employee, after the times and the overlap check. */
    method UpdateEmployeeWorkHours(users: seq<User>, employeeId: int, date: Date, s: TimeOfDay, e: TimeOfDay,
                                   isAvailable: bool) returns (r: Result<WorkHour>)
      requires Valid()
      modifies this
      ensures Valid() && requests == old(requests) && nextRequestId == old(nextRequestId)
      ensures r.Failure? ==> windows == old(windows) && nextWindowId == old(nextWindowId)
      ensures FindUserById(users, employeeId).None? ==> r == Failure("Employee not found with id: " + IntToString(employeeId))
      ensures FindUserById(users, employeeId).Some? ==>
        var employee := FindUserById(users, employeeId).value;
        (ValidateTimes(s, e).Fail? ==> r == Failure(EndNotAfterStart))
        && (ValidateTimes(s, e).Pass? && ValidateNoOverlap(old(windows), employee, date, s, e).Fail? ==>
                  r == Failure(OverlapMessage(employee, date, s, e)))
        && (ValidateTimes(s, e).Pass? && ValidateNoOverlap(old(windows), employee, date, s, e).Pass? ==>
                  r == Success(WorkHour(old(nextWindowId), employee, date, s, e, isAvailable)))
      ensures r.Success? ==> windows == old(windows) + [r.value] && nextWindowId == old(nextWindowId) + 1
    {
      var employee := FindUserById(users, employeeId);
      if employee.None? {
        return Failure("Employee not found with id: " + IntToString(employeeId));
      }
      var times := ValidateTimes(s, e);
      if times.Fail? {
        return Failure(times.error);
      }
      var overlap := ValidateNoOverlap(windows, employee.value, date, s, e);
      if overlap.Fail? {
        return Failure(overlap.error);
      }
      // The source's exact-duplicate test comes here; it never fires.
      DuplicateCheckUnreachable(windows, employee.value, date, s, e);
      var w := WorkHour(nextWindowId, employee.value, date, s, e, isAvailable);
      AddCheckedWindow(windows, w, nextWindowId);
      windows := windows + [w];
      nextWindowId := nextWindowId + 1;
      r := Success(w);
    }

    /** deleteEmployeeWorkHour. */
    method DeleteEmployeeWorkHour(id: int) returns (r: Outcome)
      requires Valid()
      modifies this
      ensures Valid() && requests == old(requests) && nextRequestId == old(nextRequestId)
      ensures nextWindowId == old(nextWindowId)
      ensures (forall w :: w in old(windows) ==> w.id != id) ==>
        r == Fail("Work hour not found with id: " + IntToString(id)) && windows == old(windows)
      ensures (exists w :: w in old(windows) && w.id == id) ==> r == Pass && windows == RemoveWindow(old(windows), id)
    {
      if forall w :: w in windows ==> w.id != id {
        return Fail("Work hour not found with id: " + IntToString(id));
      }
      windows := RemoveWindow(windows, id);
      r := Pass;
    }

    /** deleteEmployeeWorkHourByDate: every window of the employee on that day goes. */
    method DeleteEmployeeWorkHourByDate(users: seq<User>, employeeId: int, date: Date) returns (r: Outcome)
      requires Valid()
      modifies this
      ensures Valid() && requests == old(requests) && nextRequestId == old(nextRequestId)
      ensures nextWindowId == old(nextWindowId)
      ensures FindUserById(users, employeeId).None? ==>
        r == Fail("Employee not found with id: " + IntToString(employeeId)) && windows == old(windows)
      ensures FindUserById(users, employeeId).Some? ==> r == Pass && windows == RemoveDay(old(windows), employeeId, date)
    {
      if FindUserById(users, employeeId).None? {
        return Fail("Employee not found with id: " + IntToString(employeeId));
      }
      windows := RemoveDay(windows, employeeId, date);
      r := Pass;
    }

    /** createBulkEmployeeWorkHours: one window per date, each checked
        against the windows so far; the times are checked only for an
        available window. Returns the windows added. */
    method CreateBulkEmployeeWorkHours(users: seq<User>, employeeId: int, dates: seq<Date>, s: TimeOfDay, e: TimeOfDay,
                                       isAvailable: bool) returns (r: Result<seq<WorkHour>>)
      requires Valid()
      modifies this
      ensures Valid() && requests == old(requests) && nextRequestId == old(nextRequestId)
      ensures r.Failure? ==> windows == old(windows) && nextWindowId == old(nextWindowId)
      ensures FindUserById(users, employeeId).None? ==> r == Failure("Employee not found")
      ensures FindUserById(users, employeeId).Some? ==>
        var employee := FindUserById(users, employeeId).value;
        var bulk := BulkInsert(old(windows), employee, dates, s, e, isAvailable, old(nextWindowId));
        (isAvailable && ValidateTimes(s, e).Fail? ==> r == Failure(EndNotAfterStart))
        && ((!isAvailable || ValidateTimes(s, e).Pass?) && bulk.Failure? ==> r == Failure(bulk.error))
        && ((!isAvailable || ValidateTimes(s, e).Pass?) && bulk.Success? ==>
              r.Success? && windows == bulk.value && windows == old(windows) + r.value
              && nextWindowId == old(nextWindowId) + |dates|)
    {
      var employee := FindUserById(users, employeeId);
      if employee.None? {
        return Failure("Employee not found");
      }
      if isAvailable {
        var times := ValidateTimes(s, e);
        if times.Fail? {
          return Failure(times.error);
        }
      }
      r := StageWindows(windows, employee.value, dates, s, e, isAvailable, nextWindowId);
      if r.Success? {
        BulkInsertKeepsApart(windows, employee.value, dates, s, e, isAvailable, nextWindowId);
        BulkInsertAppends(windows, employee.value, dates, s, e, isAvailable, nextWindowId);
        r := Success(r.value[|windows|..]);
        windows := windows + r.value;
        nextWindowId := nextWindowId + |dates|;
      }
    }
  }

  /** A save of a stored request keeps every id below the next free one. */
  lemma SaveKeepsIdsBelow(requests: seq<WorkHourRequest>, q: WorkHourRequest, nextId: int)
    requires forall x :: x in requests ==> x.id < nextId
    requires FindRequest(requests, q.id).Some?
    ensures forall x :: x in ReplaceRequest(requests, q) ==> x.id < nextId
  {
    ReplacedComeFrom(requests, q);
  }

  /** A window that validateNoOverlap accepts, stored under the next free
      id, keeps the store free of overlaps and every id below the new next
      free one. */
  lemma AddCheckedWindow(windows: seq<WorkHour>, w: WorkHour, nextId: int)
    requires NonOverlapping(windows) && forall a :: a in windows ==> a.id < nextId
    requires w.id == nextId && ValidateNoOverlap(windows, w.employee, w.workDate, w.startTime, w.endTime).Pass?
    ensures NonOverlapping(windows + [w]) && forall a :: a in windows + [w] ==> a.id < nextId + 1
  {
    CheckedWindowKeepsApart(windows, w);
  }

  /** Every request after a save is the saved one or was there before. */
  lemma {:induction false} ReplacedComeFrom(requests: seq<WorkHourRequest>, q: WorkHourRequest)
    ensures forall x :: x in ReplaceRequest(requests, q) ==> x == q || x in requests
  {
    if requests != [] {
      ReplacedComeFrom(requests[1..], q);
    }
  }
}

=== FILE: wrappers.dfy ===
/** Failure-carrying results used across the model: Java's nullable references
    become Option, and the exceptions the services throw become Result/Outcome
    carrying the exception's message. */
module Wrappers {

  datatype Option<+T> = None | Some(value: T) {
    function GetOr(default: T): T {
      match this
      case Some(v) => v
      case None => default
    }
  }

  datatype Result<+R> = Success(value: R) | Failure(error: string) {
    predicate IsFailure() {
      Failure?
    }

    function PropagateFailure<U>(): Result<U>
      requires Failure?
    {
      Failure(error)
    }

    function Extract(): R
      requires Success?
    {
      value
    }
  }

  datatype Outcome = Pass | Fail(error: string) {
    predicate IsFailure() {
      Fail?
    }

    function PropagateFailure(): Outcome
      requires Fail?
    {
      this
    }
  }
}
